=== FILE: README.md ===
# TermsBuster risk engine — a Dafny model

TermsBuster reads a privacy policy and grades it. This project models the core of that
grading, with contracts and lemmas that state what each step computes.

The grading runs in four steps:
- **Clean.** The text is cleaned: lower-cased, with each whitespace run collapsed to one
  space and the result stripped.
- **Match.** Each lexicon keyword is matched at `\b` word boundaries, ignoring case. Every
  match is tied to its sentence.
- **Filter.** A match is dropped when its sentence holds a safe phrase, or when a negation
  cue appears in the 50 characters before it.
- **Score.** The survivors are scored with a cap of three occurrences per keyword. The
  total is graded on a fixed ladder, and a confidence is derived from the total and a
  TF-IDF keyword density.

Alongside the engine the model covers:
- the plain-language explainer: jargon replacement, template sentences, the naive period
  splitter and the bullet list;
- the exporter's greedy word wrap and its level colour;
- the PDF and image recommendation ladders;
- the page's one-line advice.

Modules:
- `wrappers.dfy`: `Option`, `Min` and `Max`.
- `text.dfy`: characters and strings.
  - The ASCII whitespace and word-character classes.
  - `lower`, `strip` and `str.split()` as `SplitWords`, and `join`.
- `patterns.dfy`: the regular expressions the core uses.
  - Literal `\b…\b` matching and the `finditer` scan.
  - The `(?<=[.?!])\s+` sentence split.
- `risk_analyzer.dfy`: `clean_text`, `sentence_for_index`, `detect_matches`,
  `is_safe_sentence`, `has_negation_around` and the filtering loop.
- `risk_scoring.dfy`: the scoring loop of `cached_analyze_policy`.
  - The insertion-ordered match dictionary and the severity counters.
  - `map_level_severity`, the level ladder and the confidence.
- `risk_signals.dfy`: `get_tfidf_density` and `extract_textrank_phrases`. The TF-IDF
  vocabulary and PageRank are passed in as oracle functions.
- `analysis.dfy`: `cached_analyze_policy` end to end, and the rounding of the reported
  density.
- `ai_explainer.dfy`: `clean_and_replace`, `extract_templates`, `split_into_sentences` and
  `generate_ai_friendly_explanation`.
- `exporter.dfy`: `wrap_text`, `get_risk_color` and the two recommendation ladders.
- `app_advice.dfy`: `dynamic_user_advice`.

Calls into libraries become parameters:
- The font measurement of `wrap_text` is a width function `string -> int`.
- The TF-IDF vectoriser is a function from the sentences to `Option` of the vocabulary,
  where `None` stands for the library raising.
- PageRank is a function from the edge list to `Option` of an index order, where `None`
  stands for the library raising.
- The safe-phrase set is a parameter, as loaded.
- The lexicon is a sequence of tiers in file order. Each tier is a name and its items.
  Each item is a keyword and an integer score. A missing keyword is `""` and a missing
  score is 0, the defaults the code reads.

In these places the code behaves in ways a reader may not expect:
- The stored `count` of a keyword is the uncapped number of surviving occurrences. Only
  the score uses the cap of three (risk_analyzer.py:221-228).
- The sentences stored for a keyword may repeat.
- Confidence is truncated with `int()`.
- With fewer than three qualifying sentences the phrase extractor returns `[]`.
- Totals from 21 to 49 read "No Risk Detected", while totals from 1 to 20 read
  "Minimal Risk".

## Model

| member | source | states |
|---|---|---|
| RiskAnalyzer.CleanText | TermsBuster/modules/risk_analyzer.py:123-128 | the result is lower-case, has no leading, trailing or doubled whitespace, and every whitespace character in it is a plain space |
| RiskAnalyzer.CleanTextWords | TermsBuster/modules/risk_analyzer.py:123-128 | the cleaned text is exactly the words of the lower-cased input, in order, joined by single spaces |
| RiskAnalyzer.CleanTextIdempotent | TermsBuster/modules/risk_analyzer.py:123-128 | cleaning a cleaned text changes nothing |
| RiskAnalyzer.FindSentenceSpec | TermsBuster/modules/risk_analyzer.py:135-140 | the offset walk returns the stripped first segment whose span `[pos, pos+len]` contains the start, and returns nothing exactly when no segment covers it |
| RiskAnalyzer.SentenceForIndexSpec | TermsBuster/modules/risk_analyzer.py:133-141 | if some segment covers the start, the first covering segment is returned, stripped; otherwise the stripped window from 80 characters before the start to 80 after the end |
| RiskAnalyzer.CleanTextSentenceFound | TermsBuster/modules/risk_analyzer.py:134-140 | on single-spaced (cleaned) text every position up to the end is covered by a segment, so the fallback window is never used |
| RiskAnalyzer.DetectMatches | TermsBuster/modules/risk_analyzer.py:154-162 | every result is a keyword-length span equal to the keyword ignoring case, with word boundaries at both ends and its sentence from `sentence_for_index`; the spans are in increasing order and do not overlap |
| RiskAnalyzer.DetectMatchesComplete | TermsBuster/modules/risk_analyzer.py:155-158 | every position where the keyword matches is either reported or lies inside a reported match (the scan does not report overlapping matches) |
| Patterns.FindAll | TermsBuster/modules/risk_analyzer.py:155-158 | the `finditer` scan reports only boundary-delimited case-insensitive matches, left to right and disjoint |
| Patterns.ScanComplete | TermsBuster/modules/risk_analyzer.py:158 | the scan from any position covers every later match position |
| Patterns.OccursIffFound | TermsBuster/modules/risk_analyzer.py:149 | `regex.search` succeeds exactly when the scan finds something |
| Patterns.SegmentsShape | TermsBuster/modules/risk_analyzer.py:134 | each segment of the lookbehind split holds no break inside; all but the last end in `.`, `?` or `!`; none after the first starts with whitespace |
| Patterns.SegmentsJoin | TermsBuster/modules/risk_analyzer.py:134 | on single-spaced text, joining the segments with one space gives back the text |
| RiskAnalyzer.SafeSentenceIgnoresCase | TermsBuster/modules/risk_analyzer.py:35-43 | the safe-phrase check gives the same answer for a sentence and its lower-cased form |
| RiskAnalyzer.SafeSentenceMonotone | TermsBuster/modules/risk_analyzer.py:35-43 | more safe phrases never make a safe sentence unsafe, and a sentence equal to a non-empty phrase ignoring case is safe |
| RiskAnalyzer.NegationIgnoresTextAfter | TermsBuster/modules/risk_analyzer.py:146-149 | the negation check depends only on text before the match start |
| RiskAnalyzer.NegationIgnoresTextBeforeWindow | TermsBuster/modules/risk_analyzer.py:147-148 | text more than 50 characters before the match start has no effect on the negation check |
| RiskAnalyzer.NegationExample | TermsBuster/modules/risk_analyzer.py:14-19 | "not" four characters before a match, delimited by spaces, suppresses it |
| RiskAnalyzer.ValidOccurrences | TermsBuster/modules/risk_analyzer.py:209-218 | an occurrence survives exactly when its sentence is not safe and no negation cue precedes it, and each survivor is kept as many times as it occurs |
| RiskAnalyzer.SurvivorIndices | TermsBuster/modules/risk_analyzer.py:209-218 | the listed positions are exactly the unsuppressed occurrences, each once, in increasing order |
| RiskAnalyzer.ValidOccurrencesInOrder | TermsBuster/modules/risk_analyzer.py:209-218 | the survivors are the occurrences at the unsuppressed positions, in their original order |
| RiskScoring.ItemOutcome | TermsBuster/modules/risk_analyzer.py:199-227 | an item yields an entry exactly when its cleaned keyword is non-empty and some occurrence survives; the entry's count is the uncapped survivor count, its sentences are theirs in order, and its total is count × score up to three occurrences and 3 × score beyond |
| RiskScoring.ContributionCapped | TermsBuster/modules/risk_analyzer.py:220-228 | a keyword with non-negative score adds between 0 and three times its score to the total |
| RiskScoring.PutSpec | TermsBuster/modules/risk_analyzer.py:222 | dictionary assignment: the key is present afterwards with the new value, other keys keep their values, and keys stay distinct |
| RiskScoring.TierEntriesSpec | TermsBuster/modules/risk_analyzer.py:197-227 | a tier's dictionary has distinct keys, and each keyword maps to the outcome of the last item with that cleaned keyword |
| RiskScoring.TotalIsSumOfMatches | TermsBuster/modules/risk_analyzer.py:222-228 | when no tier repeats a keyword, the total score equals the sum of the stored per-keyword totals |
| RiskScoring.RepeatedKeywordCountedTwice | TermsBuster/modules/risk_analyzer.py:222-228 | an item repeated in a tier adds its total twice while the dictionary keeps one entry |
| RiskScoring.CountersSpec | TermsBuster/modules/risk_analyzer.py:229-230 | the counters add up to the number of matched keywords, and a severity's counter is positive exactly when some tier mapped to it matched a keyword |
| RiskScoring.SafePhrasesNeverRaiseScore | TermsBuster/modules/risk_analyzer.py:210-228 | with non-negative scores, a larger safe-phrase set never raises the total score |
| RiskScoring.MapLevelSeverity | TermsBuster/modules/risk_analyzer.py:167-179 | one if-and-only-if per severity in the code's precedence: very_high or critical, then high, then moderate or medium, then low, then minimal, with moderate as the default |
| RiskScoring.SeverityIgnoresCase | TermsBuster/modules/risk_analyzer.py:168 | the severity of a tier name does not depend on its case |
| RiskScoring.SeverityOfCounterName | TermsBuster/modules/risk_analyzer.py:190-193 | each counter key maps back to its own severity |
| RiskScoring.RiskLevelFor | TermsBuster/modules/risk_analyzer.py:239-250 | one score band per level, including the 21–49 gap that reads "No Risk Detected" |
| RiskScoring.Confidence | TermsBuster/modules/risk_analyzer.py:252 | confidence never exceeds 95 and is at least 50 for a non-negative score and density |
| RiskScoring.ConfidenceMonotone | TermsBuster/modules/risk_analyzer.py:252 | confidence never drops when the score or the density grows |
| RiskSignals.Qualifying | TermsBuster/modules/risk_analyzer.py:59-60 | a sentence is kept exactly when it is the strip of a segment and longer than ten characters |
| RiskSignals.LongPositions | TermsBuster/modules/risk_analyzer.py:60 | the positions of the strings longer than the bound: each such position once, in increasing order |
| RiskSignals.LongerThanInOrder | TermsBuster/modules/risk_analyzer.py:60 | the filter keeps the strings at exactly those positions, in their order |
| RiskSignals.QualifyingInOrder | TermsBuster/modules/risk_analyzer.py:59-60 | the qualifying sentences are the stripped segments longer than ten characters, every one of them, in the order of the segments |
| RiskSignals.PoolMembership | TermsBuster/modules/risk_analyzer.py:52-57 | a keyword is in the pool exactly when some tier lists it, lower-cased and stripped, among its first 20 items, non-empty and at most three words long |
| RiskSignals.RawDensitySign | TermsBuster/modules/risk_analyzer.py:69-72 | the density is non-negative, and positive exactly when some pool keyword is in the vocabulary |
| RiskSignals.DensityNeverCapped | TermsBuster/modules/risk_analyzer.py:69-73 | distinct hits never outnumber the vocabulary, so the raw density never exceeds 100 |
| RiskSignals.TfidfDensity | TermsBuster/modules/risk_analyzer.py:48-75 | the density lies in 0..100 and is positive exactly when there are two or more qualifying sentences, the vectoriser succeeds and a pool keyword is in its vocabulary |
| RiskSignals.Edges | TermsBuster/modules/risk_analyzer.py:89-98 | the graph has exactly the pairs i < j whose word sets share more than one word, weighted by the overlap |
| RiskSignals.EdgesEmpty | TermsBuster/modules/risk_analyzer.py:100-101 | the graph is empty exactly when no pair of sentences is linked |
| RiskSignals.FallbackPhrases | TermsBuster/modules/risk_analyzer.py:108-110 | the fallback holds at most five phrases, each a non-empty stripped one of the first five segments |
| RiskSignals.FallbackInOrder | TermsBuster/modules/risk_analyzer.py:108-110 | the fallback is every non-empty stripped segment among the first five, in the order of the segments |
| RiskSignals.RankPhrases | TermsBuster/modules/risk_analyzer.py:86-107 | fewer than three sentences give none; with no edges the first sentences; with edges, the sentences at the top `maxPhrases` indices of the ranking, or the fallback when the ranking fails or names a sentence that does not exist |
| RiskSignals.TextRankPhrases | TermsBuster/modules/risk_analyzer.py:80-110 | fewer than three qualifying sentences give none; with no edges the first sentences are returned; otherwise at most the requested number of qualifying sentences are returned, unless the library failed and the fallback is used |
| RiskSignals.TextRankFollowsRanking | TermsBuster/modules/risk_analyzer.py:103-110 | with edges, the phrases are the qualifying sentences at the top of the ranking; a failed ranking, or one naming a sentence that does not exist, gives the `except` fallback |
| RiskSignals.TextRankNonEmpty | TermsBuster/modules/risk_analyzer.py:80-110 | no phrase returned is empty |
| Analysis.AnalyzePolicy | TermsBuster/modules/risk_analyzer.py:185-261 | the total is the lexicon's total score on the combined text; the level is "Very High Risk" exactly when the total reaches 200 and a very-high tier matched, and each other level holds exactly on its score band; each tier's dictionary holds that tier's entries, in lexicon order; the density is reported rounded to one decimal and lies in 0..100; confidence uses the unrounded density; the phrases are the TextRank phrases of the combined text, at most five |
| Analysis.RoundTenth | TermsBuster/modules/risk_analyzer.py:258 | `round(x, 1)`: a multiple of 0.1 within 0.05 of x, and the even tenth on a tie |
| Analysis.RoundTenthNearest | TermsBuster/modules/risk_analyzer.py:258 | no multiple of 0.1 lies closer to x than its rounding |
| Analysis.EmptyPolicy | TermsBuster/modules/risk_analyzer.py:185-261 | with no text the report has score 0, "No Risk Detected", confidence 50, density 0, no phrases and empty tier dictionaries |
| AiExplainer.MatchLenSpec | TermsBuster/modules/ai_explainer.py:5-17 | a rule matches only at word boundaries, on its base equal ignoring case, and a match spans the base alone or the base plus the optional suffix |
| AiExplainer.SubChangesIffMatch | TermsBuster/modules/ai_explainer.py:38 | when the replacement does not already occur, `re.sub` changes the text exactly when the pattern matches somewhere |
| AiExplainer.MatchLeavesReplacement | TermsBuster/modules/ai_explainer.py:38 | after a match, the replacement appears in the result |
| AiExplainer.SubIgnoresCase | TermsBuster/modules/ai_explainer.py:38 | substituting in the lower-cased text gives the lower-cased result, since matching ignores case |
| AiExplainer.NoRuleKeepsText | TermsBuster/modules/ai_explainer.py:33-39 | a text no rule matches comes back unchanged |
| AiExplainer.ApplyConcat | TermsBuster/modules/ai_explainer.py:37-38 | the rules apply one after another, each to the previous result |
| AiExplainer.ExplanationsOf | TermsBuster/modules/ai_explainer.py:41-49 | an explanation is returned exactly when its template's pattern is found, and there are no more than templates |
| AiExplainer.ExplanationsInTemplateOrder | TermsBuster/modules/ai_explainer.py:45-48 | the result is the explanations of the firing templates, one each and in template order |
| AiExplainer.FiringIndices | TermsBuster/modules/ai_explainer.py:46-47 | the indices listed are exactly the firing templates, each once, in increasing order |
| AiExplainer.SentencesShaped | TermsBuster/modules/ai_explainer.py:51-59 | every sentence is non-empty, stripped and holds no period followed by whitespace |
| AiExplainer.SplitJoinedSentences | TermsBuster/modules/ai_explainer.py:51-59 | splitting sentences joined by ". " gives the sentences back |
| AiExplainer.StripNonEmpty | TermsBuster/modules/ai_explainer.py:58 | each result is the strip of a non-empty piece |
| AiExplainer.NonEmptyPositions | TermsBuster/modules/ai_explainer.py:58 | the positions of the non-empty pieces: each once, in increasing order |
| AiExplainer.StripNonEmptyInOrder | TermsBuster/modules/ai_explainer.py:58 | the sentences are the strips of the non-empty pieces, every one of them, in the order of the pieces |
| AiExplainer.DedupFrom | TermsBuster/modules/ai_explainer.py:79 | `dict.fromkeys` keeps each unseen item once, with no repeats |
| AiExplainer.DedupPositions | TermsBuster/modules/ai_explainer.py:79 | the kept items are the items at these positions, which increase |
| AiExplainer.DedupFirstOccurrences | TermsBuster/modules/ai_explainer.py:79 | a position is kept exactly when its item is unseen and occurs there first, so `dict.fromkeys` keeps first occurrences in insertion order |
| AiExplainer.KeptIsSound | TermsBuster/modules/ai_explainer.py:83-93 | every kept line is an input item longer than twenty characters whose lower-cased form was not seen |
| AiExplainer.KeptIsLowerDistinct | TermsBuster/modules/ai_explainer.py:83-93 | no two kept lines agree ignoring case |
| AiExplainer.KeptIsComplete | TermsBuster/modules/ai_explainer.py:83-93 | every long item has a kept line equal to it ignoring case |
| AiExplainer.KeptPositions | TermsBuster/modules/ai_explainer.py:83-93 | the kept lines are the items at these positions, which increase |
| AiExplainer.KeptFirstOccurrences | TermsBuster/modules/ai_explainer.py:83-93 | a position is kept exactly when its item is long, unseen, and the first such item of its lower-cased form, so the first spelling wins and the kept lines keep the items' order |
| AiExplainer.Polish | TermsBuster/modules/ai_explainer.py:90-92 | the line keeps its text with the first character upper-cased and ends with exactly one added period unless it already ends in one |
| AiExplainer.Bullets | TermsBuster/modules/ai_explainer.py:96 | the list is empty exactly when there are no lines, and otherwise starts with "- " |
| AiExplainer.BulletsSplitIntoLines | TermsBuster/modules/ai_explainer.py:96 | when no line holds a line feed, splitting the list at line feeds gives one "- " line per explanation, in order |
| AiExplainer.TemplatesLead | TermsBuster/modules/ai_explainer.py:77-93 | distinct long template explanations survive the filter and lead the lines, polished, in order |
| AiExplainer.ExplanationOpensWithTemplate | TermsBuster/modules/ai_explainer.py:61-98 | when a template fires on the replaced text, the explanation opens with the first firing template's polished bullet |
| AiExplainer.ConsentTemplateLost | TermsBuster/modules/ai_explainer.py:69-72 | as written, on the text "consent" the word is replaced before the templates are searched, so the consent template does not fire although its pattern matches the text |
| AiExplainer.ConsentTemplateKept | TermsBuster/modules/ai_explainer.py:69-72 | searched in the original text, the consent template fires and leads the explanation |
| Exporter.WrapText | TermsBuster/modules/exporter.py:11-40 | the lines hold exactly the words of `str.split()` in order; every prefix of two or more words of a line fits, so each line fits or is a single word; no line could have taken the next line's first word |
| Exporter.PlaceWord | TermsBuster/modules/exporter.py:25-35 | a word that fits is appended to the current line; otherwise the current line is closed if non-empty and the word starts a new one |
| Exporter.WrapFacts | TermsBuster/modules/exporter.py:25-38 | packed groups give lines whose words are the groups', each prefix of two or more words fitting, with every break forced by the next word |
| Exporter.GetRiskColor | TermsBuster/modules/exporter.py:43-52 | four colours by substring of the lower-cased key, in the code's precedence, with a missing key read as "" |
| Exporter.ColorFollowsSeverity | TermsBuster/modules/exporter.py:43-52 | without "critical", red and orange match the very-high and high severities, and low or minimal keys are green |
| Exporter.CriticalKeyColor | TermsBuster/modules/exporter.py:43-52 | a "critical" tier is very high for scoring but drawn green |
| Exporter.LadderIsRung | TermsBuster/modules/exporter.py:90-109 | the more severe of the level-text rung and the score rung is the ladder's first true branch |
| Exporter.PdfRecommendation | TermsBuster/modules/exporter.py:87-114 | the PDF sentence of the rung from the level text and the score |
| Exporter.ImageRecommendation | TermsBuster/modules/exporter.py:234-246 | the image sentence of the same rung |
| Exporter.AdviceMonotone | TermsBuster/modules/exporter.py:88-109 | a higher score never lowers the rung |
| Exporter.AdviceForVerdict | TermsBuster/modules/exporter.py:87-114 | for each level label the engine produces, the rung the reports show |
| AppAdvice.DynamicUserAdvice | TermsBuster/app.py:236-245 | the page's sentence for the reports' rung, with the two most severe rungs sharing the warning |
| AppAdvice.PageAgreesWithReports | TermsBuster/app.py:236-245 | the page warns exactly on the two most severe rungs, and each of the other sentences appears on exactly one rung |
| AppAdvice.PageAdviceForVerdict | TermsBuster/app.py:236-245 | for each level the engine produces, which of the four sentences the page shows |

## Left out

- Confidence: the density and `score * 0.2` are exact reals, not IEEE doubles. `int()` of a float sum can land one below the exact value. With one hit in three terms and score 0, the code computes `int(9.999999999999998)` = 9, giving 59, while the model gives 60.
- RoundTenth: rounds the exact real density, not the binary double that Python rounds.
- AnalyzePolicy: `st.cache_data` caching is not modelled. The analysis is a pure function of its inputs.
- Character classes: ASCII only. `\w`, `\s`, `str.split()`, `lower()` and `upper()` follow the ASCII rules, and IGNORECASE folds only A–Z. Non-ASCII letters are not word characters here.
- `None` inputs: `clean_text(None)` and a missing `level_key` or `risk_level` are modelled only where the code guards them: `Option` in `GetRiskColor`, the recommendations and `CombinedText`. Elsewhere the inputs are plain strings.
- Lexicon and safe-phrase loading: `json.load`, the file paths and `int(item["score"])` on non-integers are not modelled. The lexicon and the safe-phrase set arrive already parsed.
- TfidfDensity: `TfidfVectorizer` is an oracle returning the vocabulary or failure. Its stop words, n-grams and 500-term cap are not modelled.
- TextRankPhrases: `nx.pagerank` followed by the sort by score is an oracle returning an index order or failure. The phrases are the top of that order, but the order itself is not computed.
- Report rendering: `generate_pdf_report` and `generate_image_report` draw with reportlab and PIL. Only their recommendation ladders and `get_risk_color` are modelled.
- WrapText: the font's text box is a width function parameter.
- ai_explainer.py:102-111: the standalone sample run is not modelled.
- Summariser and OCR: `summarizer.py` and `ocr_reader.py` are not part of this model; the summary text is an input.

## Findings

| source | as written | input that shows it | evidently intended | confidence | as-written member | corrected member |
|---|---|---|---|---|---|---|
| TermsBuster/modules/ai_explainer.py:69-72 | templates are searched in the text after jargon replacement, and the replacement rewrites whole-word "consent" (also "security", "tracking", "third parties", "data breaches", and "retention" in "data retention") before the template that looks for it | policy text "consent" | templates searched in the policy text as given, so "We ask for your permission…" leads the explanation | medium, not executed | AiExplainer.ConsentTemplateLost | AiExplainer.ConsentTemplateKept |

Two more behaviours of the code look unintended, but the model records them with no
correction claimed:
- RiskScoring.RepeatedKeywordCountedTwice: a keyword listed twice in a tier adds its total
  twice, while the dictionary keeps one entry (risk_analyzer.py:222-228).
- Exporter.CriticalKeyColor: a tier named "critical" scores as very high
  (risk_analyzer.py:169), but the image report draws it green (exporter.py:43-52).

=== FILE: ai_explainer.dfy ===
/** The plain-language explainer (TermsBuster/modules/ai_explainer.py): jargon replacement,
    template detection, the naive period split and the bullet list built from them. */
module AiExplainer {
  import opened Wrappers
  import opened Text
  import opened Patterns

  // ---------------------------------------------------------------------------------------
  // Jargon replacement
  // ---------------------------------------------------------------------------------------

  /** A replacement rule `\b<base><optional>?\b` -> `replacement`, matched ignoring case.
      `optional` is empty when the pattern has no optional suffix. */
  datatype Rule = Rule(base: string, optional: string, replacement: string)

  /** A rule as the table writes them: a non-empty lower-case pattern and a lower-case
      replacement. */
  predicate WellFormedRule(r: Rule) {
    r.base != [] && IsLower(r.base) && IsLower(r.optional) && IsLower(r.replacement)
  }

  /** KEYWORD_REPLACEMENTS, one constant per entry. `breaches?` is the base "breache" with an
      optional "s". */
  const BreachRule := Rule("data breache", "s", "when your data gets exposed or stolen")
  const RetentionRule := Rule("retention", "", "keeping your data")
  const PersonalDataRule := Rule("personal data", "", "your personal information")
  const AnalysisRule := Rule("analysis", "", "looking at information to improve service")
  const BehaviorRule := Rule("user behavior", "", "how you use the service")
  const ProfileRule := Rule("profile", "", "create a user profile")
  const ConsentRule := Rule("consent", "", "your permission")
  const ProcessingRule := Rule("processing", "", "handling")
  const ThirdPartiesRule := Rule("third parties", "", "other companies or people")
  const DisclosedRule := Rule("disclosed", "", "shared")
  const SecurityRule := Rule("security", "", "protection")
  const MonitoringRule := Rule("monitoring", "", "watching")
  const TrackingRule := Rule("tracking", "", "following")

  /** KEYWORD_REPLACEMENTS, in the dictionary's order. */
  const Rules: seq<Rule> := [
    BreachRule, RetentionRule, PersonalDataRule, AnalysisRule, BehaviorRule, ProfileRule, ConsentRule,
    ProcessingRule, ThirdPartiesRule, DisclosedRule, SecurityRule, MonitoringRule, TrackingRule
  ]

  /** The length of the match of `r` at `p`, or 0 when there is none. The optional suffix is
      tried first (greedy), and dropped again when the closing `\b` fails after it. */
  function MatchLen(t: string, r: Rule, p: nat): nat {
    if !(Boundary(t, p) && EqualsIgnoreCaseAt(t, r.base, p)) then 0
    else
      var q := p + |r.base|;
      if r.optional != [] && EqualsIgnoreCaseAt(t, r.optional, q) && Boundary(t, q + |r.optional|) then
        |r.base| + |r.optional|
      else if Boundary(t, q) && |r.base| > 0 then |r.base|
      else 0
  }

  /** A match runs between two word boundaries, starts with the base spelled in any case and
      spans the base, or the base and its optional suffix. */
  lemma MatchLenSpec(t: string, r: Rule, p: nat)
    ensures var n := MatchLen(t, r, p);
      n > 0 ==> p + n <= |t| && Boundary(t, p) && Boundary(t, p + n) && EqualsIgnoreCaseAt(t, r.base, p)
    ensures var n := MatchLen(t, r, p); n > 0 ==> n == |r.base| || n == |r.base| + |r.optional|
  {
  }

  /** `re.sub` resumed at `p`: matches are taken left to right on the original text, each
      replaced whole; other characters are copied. */
  function SubFrom(t: string, r: Rule, p: nat): string
    decreases |t| - p
  {
    if p >= |t| then []
    else
      var n := MatchLen(t, r, p);
      if n > 0 then r.replacement + SubFrom(t, r, p + n) else [t[p]] + SubFrom(t, r, p + 1)
  }

  function Sub(t: string, r: Rule): string {
    SubFrom(t, r, 0)
  }

  /** Without a match from `p` on, the substitution copies the rest of the text. */
  lemma {:induction false} NoMatchKeepsText(t: string, r: Rule, p: nat)
    requires p <= |t|
    requires forall q :: p <= q < |t| ==> MatchLen(t, r, q) == 0
    ensures SubFrom(t, r, p) == t[p..]
    decreases |t| - p
  {
    if p < |t| {
      NoMatchKeepsText(t, r, p + 1);
      assert t[p..] == [t[p]] + t[p + 1..];
    }
  }

  lemma ContainsAfterPrefix(a: string, b: string, sub: string)
    requires Contains(b, sub)
    ensures Contains(a + b, sub)
  {
    var i :| 0 <= i <= |b| - |sub| && OccursAt(b, sub, i);
    assert (a + b)[|a| + i..|a| + i + |sub|] == b[i..i + |sub|];
    assert OccursAt(a + b, sub, |a| + i);
  }

  /** A match anywhere from `p` on leaves the replacement in the output: either that match
      is replaced or an earlier match swallowed its start and was replaced. */
  lemma {:induction false} MatchLeavesReplacement(t: string, r: Rule, p: nat, q: nat)
    requires p <= q < |t| && MatchLen(t, r, q) > 0
    ensures Contains(SubFrom(t, r, p), r.replacement)
    decreases |t| - p
  {
    var n := MatchLen(t, r, p);
    var out := SubFrom(t, r, p);
    if n > 0 {
      assert out == r.replacement + SubFrom(t, r, p + n);
      assert OccursAt(out, r.replacement, 0);
    } else {
      MatchLeavesReplacement(t, r, p + 1, q);
      ContainsAfterPrefix([t[p]], SubFrom(t, r, p + 1), r.replacement);
    }
  }

  /** The substitution replaces exactly when the pattern matches somewhere. */
  lemma SubChangesIffMatch(t: string, r: Rule)
    requires WellFormedRule(r) && !Contains(t, r.replacement)
    ensures Sub(t, r) == t <==> forall q :: 0 <= q < |t| ==> MatchLen(t, r, q) == 0
  {
    if forall q :: 0 <= q < |t| ==> MatchLen(t, r, q) == 0 {
      NoMatchKeepsText(t, r, 0);
    } else {
      var q :| 0 <= q < |t| && MatchLen(t, r, q) > 0;
      MatchLeavesReplacement(t, r, 0, q);
    }
  }

  /** Lower-casing the text does not change where a rule matches. */
  lemma MatchLenIgnoresCase(t: string, r: Rule, p: nat)
    ensures MatchLen(Lower(t), r, p) == MatchLen(t, r, p)
  {
    var q := p + |r.base|;
    BoundaryIgnoresCase(t, p);
    BoundaryIgnoresCase(t, q);
    BoundaryIgnoresCase(t, q + |r.optional|);
    EqualsIgnoresCase(t, r.base, p);
    EqualsIgnoresCase(t, r.optional, q);
  }

  lemma BoundaryIgnoresCase(t: string, p: int)
    ensures Boundary(Lower(t), p) == Boundary(t, p)
  {
    if 0 <= p - 1 < |t| {
      LowerCharKeepsClass(t[p - 1]);
    }
    if 0 <= p < |t| {
      LowerCharKeepsClass(t[p]);
    }
  }

  lemma EqualsIgnoresCase(t: string, kw: string, q: int)
    ensures EqualsIgnoreCaseAt(Lower(t), kw, q) == EqualsIgnoreCaseAt(t, kw, q)
  {
    EqualsIgnoreCaseAtLower(t, kw, q);
    EqualsIgnoreCaseAtLower(Lower(t), kw, q);
    if 0 <= q && q + |kw| <= |t| {
      LowerSlice(t, q, q + |kw|);
      LowerIdempotent(t[q..q + |kw|]);
    }
  }

  /** A match at `p` is replaced whole. */
  lemma SubStepMatch(t: string, r: Rule, p: nat, n: nat)
    requires p < |t| && n == MatchLen(t, r, p) && n > 0
    ensures SubFrom(t, r, p) == r.replacement + SubFrom(t, r, p + n)
  {
  }

  /** Without a match at `p` the character is copied. */
  lemma SubStepCopy(t: string, r: Rule, p: nat)
    requires p < |t| && MatchLen(t, r, p) == 0
    ensures SubFrom(t, r, p) == [t[p]] + SubFrom(t, r, p + 1)
  {
  }

  /** With a lower-case replacement, substituting in the lower-cased text gives the
      lower-cased result: the rules do not depend on case. */
  lemma {:induction false} SubIgnoresCase(t: string, r: Rule, p: nat)
    requires IsLower(r.replacement)
    ensures SubFrom(Lower(t), r, p) == Lower(SubFrom(t, r, p))
    decreases |t| - p, 1
  {
    if p < |t| {
      var n := MatchLen(t, r, p);
      if n > 0 {
        MatchStepBoth(t, r, p, n);
        SubLowerReplaced(t, r, p, n);
      } else {
        SubLowerCopied(t, r, p);
      }
    }
  }

  /** A match of length `n` at `p` is replaced whole in the text and in its lower-cased
      copy alike. */
  lemma MatchStepBoth(t: string, r: Rule, p: nat, n: nat)
    requires p < |t| && n == MatchLen(t, r, p) && n > 0
    ensures p + n <= |t|
    ensures SubFrom(t, r, p) == r.replacement + SubFrom(t, r, p + n)
    ensures SubFrom(Lower(t), r, p) == r.replacement + SubFrom(Lower(t), r, p + n)
  {
    MatchLenSpec(t, r, p);
    assert SubFrom(t, r, p) == r.replacement + SubFrom(t, r, p + n) by {
      SubStepMatch(t, r, p, n);
    }
    assert SubFrom(Lower(t), r, p) == r.replacement + SubFrom(Lower(t), r, p + n) by {
      LowerStepMatch(t, r, p, n);
    }
  }

  /** A match at `p` is a match of the same length in the lower-cased text. */
  lemma LowerStepMatch(t: string, r: Rule, p: nat, n: nat)
    requires p < |t| && n == MatchLen(t, r, p) && n > 0
    ensures SubFrom(Lower(t), r, p) == r.replacement + SubFrom(Lower(t), r, p + n)
  {
    MatchLenIgnoresCase(t, r, p);
    SubStepMatch(Lower(t), r, p, n);
  }

  /** No match at `p` is no match in the lower-cased text either. */
  lemma LowerStepCopy(t: string, r: Rule, p: nat)
    requires p < |t| && MatchLen(t, r, p) == 0
    ensures SubFrom(Lower(t), r, p) == [Lower(t)[p]] + SubFrom(Lower(t), r, p + 1)
  {
    MatchLenIgnoresCase(t, r, p);
    SubStepCopy(Lower(t), r, p);
  }

  lemma {:induction false} SubLowerReplaced(t: string, r: Rule, p: nat, n: nat)
    requires IsLower(r.replacement) && p < p + n <= |t|
    requires SubFrom(t, r, p) == r.replacement + SubFrom(t, r, p + n)
    requires SubFrom(Lower(t), r, p) == r.replacement + SubFrom(Lower(t), r, p + n)
    ensures SubFrom(Lower(t), r, p) == Lower(SubFrom(t, r, p))
    decreases |t| - p, 0
  {
    SubIgnoresCase(t, r, p + n);
    ReplacedStep(r.replacement, SubFrom(Lower(t), r, p), SubFrom(Lower(t), r, p + n), SubFrom(t, r, p), SubFrom(t, r, p + n));
  }

  /** A lower-case replacement put in front of both texts keeps the lower-cased output in
      step. */
  lemma ReplacedStep(rep: string, lowOut: string, lowRest: string, out: string, rest: string)
    requires IsLower(rep)
    requires lowOut == rep + lowRest && lowRest == Lower(rest) && out == rep + rest
    ensures lowOut == Lower(out)
  {
    LowerOfLower(rep);
    LowerConcat(rep, rest);
  }

  lemma {:induction false} SubLowerCopied(t: string, r: Rule, p: nat)
    requires p < |t| && IsLower(r.replacement) && MatchLen(t, r, p) == 0
    ensures SubFrom(Lower(t), r, p) == Lower(SubFrom(t, r, p))
    decreases |t| - p, 0
  {
    SubIgnoresCase(t, r, p + 1);
    var lt := Lower(t);
    assert SubFrom(lt, r, p) == [lt[p]] + SubFrom(lt, r, p + 1) by {
      LowerStepCopy(t, r, p);
    }
    assert SubFrom(t, r, p) == [t[p]] + SubFrom(t, r, p + 1) by {
      SubStepCopy(t, r, p);
    }
    assert [lt[p]] == Lower([t[p]]);
    LowerAfterPrefix([lt[p]], [t[p]], SubFrom(lt, r, p), SubFrom(lt, r, p + 1), SubFrom(t, r, p), SubFrom(t, r, p + 1));
  }

  /** One substitution step on both texts keeps the lower-cased output in step. */
  lemma LowerAfterPrefix(head: string, rawHead: string, lowOut: string, lowRest: string, out: string, rest: string)
    requires head == Lower(rawHead)
    requires lowOut == head + lowRest && lowRest == Lower(rest) && out == rawHead + rest
    ensures lowOut == Lower(out)
  {
    LowerConcat(rawHead, rest);
  }

  /** The rules applied one after the other, each to the previous result. */
  function ApplyRules(t: string, rs: seq<Rule>): string
    decreases |rs|
  {
    if rs == [] then t else ApplyRules(Sub(t, rs[0]), rs[1..])
  }

  /** `clean_and_replace`. */
  function CleanAndReplace(t: string): string {
    ApplyRules(t, Rules)
  }

  predicate NoMatch(t: string, r: Rule) {
    forall q :: 0 <= q < |t| ==> MatchLen(t, r, q) == 0
  }

  /** A text none of the rules matches passes through unchanged. */
  lemma {:induction false} NoRuleKeepsText(t: string, rs: seq<Rule>)
    requires forall k :: 0 <= k < |rs| ==> NoMatch(t, rs[k])
    ensures ApplyRules(t, rs) == t
    decreases |rs|
  {
    if rs != [] {
      NoMatchKeepsText(t, rs[0], 0);
      NoRuleKeepsText(t, rs[1..]);
    }
  }

  /** A rule cannot match a text that lacks one of its characters, ignoring case. */
  lemma MissingCharNoMatch(t: string, r: Rule, j: nat)
    requires j < |r.base| && LowerChar(r.base[j]) !in Lower(t)
    ensures NoMatch(t, r)
  {
    forall q | 0 <= q < |t| ensures MatchLen(t, r, q) == 0 {
      if EqualsIgnoreCaseAt(t, r.base, q) {
        EqualsIgnoreCaseAtLower(t, r.base, q);
        LowerSlice(t, q, q + |r.base|);
        assert false;
      }
    }
  }

  // ---------------------------------------------------------------------------------------
  // Templates
  // ---------------------------------------------------------------------------------------

  /** A template pattern: a literal, or `before.*after` (anything but a line feed between). */
  datatype Pattern = Lit(s: string) | Gap(before: string, after: string)

  /** `re.search(pattern, text, re.IGNORECASE)` succeeds. The patterns are lower case, so
      they are compared with the lower-cased text. */
  predicate Searches(pat: Pattern, text: string) {
    var lt := Lower(text);
    match pat
    case Lit(s) => Contains(lt, s)
    case Gap(a, b) =>
      exists i, j | 0 <= i <= j <= |text| :: OccursAt(lt, a, i) && OccursAt(lt, b, j) && i + |a| <= j && '\n' !in text[i + |a|..j]
  }

  datatype Template = Template(pattern: Pattern, explanation: string)

  /** TEMPLATES, one constant per entry. `data breaches?` is searched without word
      boundaries, so it succeeds exactly when "data breache" occurs. */
  const CollectionTemplate := Template(Gap("personal information", "collected"), "We collect personal information needed to provide our services.")
  const RetentionTemplate := Template(Lit("data retention"), "We keep your data only as long as necessary.")
  const BreachTemplate := Template(Lit("data breache"), "There are risks your data could be exposed or stolen.")
  const ConsentTemplate := Template(Lit("consent"), "We ask for your permission before using your data.")
  const SharingTemplate := Template(Lit("third parties"), "Your information may be shared with other companies.")
  const SecurityTemplate := Template(Lit("security"), "We work to protect your information from unauthorized access.")
  const ProfilingTemplate := Template(Lit("profiling"), "We create user profiles to personalize services.")
  const TrackingTemplate := Template(Lit("tracking"), "We track usage to improve the platform.")
  const LegalTemplate := Template(Lit("legal consequences"), "Using this service may have legal implications you should be aware of.")

  /** TEMPLATES, in order. */
  const Templates: seq<Template> := [
    CollectionTemplate, RetentionTemplate, BreachTemplate, ConsentTemplate, SharingTemplate,
    SecurityTemplate, ProfilingTemplate, TrackingTemplate, LegalTemplate
  ]

  /** The explanations of the templates that fire, in template order. */
  function ExplanationsOf(ts: seq<Template>, text: string): (r: seq<string>)
    ensures |r| <= |ts|
    ensures forall e :: e in r <==> exists k :: 0 <= k < |ts| && ts[k].explanation == e && Searches(ts[k].pattern, text)
    decreases |ts|
  {
    if ts == [] then []
    else
      var rest := ExplanationsOf(ts[1..], text);
      assert forall k :: 0 < k < |ts| ==> ts[k] == ts[1..][k - 1];
      if Searches(ts[0].pattern, text) then [ts[0].explanation] + rest else rest
  }

  /** The indices from `k` on whose pattern fires, in increasing order: exactly the firing
      ones, each once. */
  function FiringIndices(ts: seq<Template>, text: string, k: nat): (ix: seq<nat>)
    requires k <= |ts|
    ensures forall m :: 0 <= m < |ix| ==> k <= ix[m] < |ts| && Searches(ts[ix[m]].pattern, text)
    ensures forall m, n :: 0 <= m < n < |ix| ==> ix[m] < ix[n]
    ensures forall i :: k <= i < |ts| && Searches(ts[i].pattern, text) ==> i in ix
    decreases |ts| - k
  {
    if k == |ts| then []
    else
      var rest := FiringIndices(ts, text, k + 1);
      if Searches(ts[k].pattern, text) then [k] + rest else rest
  }

  /** The explanations are those of the firing templates, in template order. */
  lemma ExplanationsInTemplateOrder(ts: seq<Template>, text: string)
    ensures |ExplanationsOf(ts, text)| == |FiringIndices(ts, text, 0)|
    ensures forall m :: 0 <= m < |ExplanationsOf(ts, text)| ==>
      ExplanationsOf(ts, text)[m] == ts[FiringIndices(ts, text, 0)[m]].explanation
  {
    ExplanationsAtFiring(ts, text, 0);
    assert ts[0..] == ts;
  }

  lemma {:induction false} ExplanationsAtFiring(ts: seq<Template>, text: string, k: nat)
    requires k <= |ts|
    ensures |ExplanationsOf(ts[k..], text)| == |FiringIndices(ts, text, k)|
    ensures forall m :: 0 <= m < |FiringIndices(ts, text, k)| ==>
      ExplanationsOf(ts[k..], text)[m] == ts[FiringIndices(ts, text, k)[m]].explanation
    decreases |ts| - k
  {
    if k < |ts| {
      ExplanationsAtFiring(ts, text, k + 1);
      var u := ts[k..];
      assert u[1..] == ts[k + 1..];
      assert u[0] == ts[k];
      if Searches(ts[k].pattern, text) {
        assert ExplanationsOf(u, text) == [ts[k].explanation] + ExplanationsOf(ts[k + 1..], text);
        assert FiringIndices(ts, text, k) == [k] + FiringIndices(ts, text, k + 1);
        FiringStep(ts, k, ExplanationsOf(ts[k + 1..], text), FiringIndices(ts, text, k + 1));
      } else {
        assert ExplanationsOf(u, text) == ExplanationsOf(ts[k + 1..], text);
      }
    } else {
      assert ts[k..] == [];
    }
  }

  lemma FiringStep(ts: seq<Template>, k: nat, rest: seq<string>, ix: seq<nat>)
    requires k < |ts| && |rest| == |ix|
    requires forall m :: 0 <= m < |ix| ==> ix[m] < |ts| && rest[m] == ts[ix[m]].explanation
    ensures forall m :: 0 <= m < |ix| + 1 ==> ([ts[k].explanation] + rest)[m] == ts[([k] + ix)[m]].explanation
  {
    forall m | 0 < m < |ix| + 1 ensures ([ts[k].explanation] + rest)[m] == ts[([k] + ix)[m]].explanation {
      assert ([k] + ix)[m] == ix[m - 1];
    }
  }

  /** `extract_templates`. */
  function ExtractTemplates(text: string): seq<string> {
    ExplanationsOf(Templates, text)
  }

  predicate DistinctLengths(xs: seq<string>) {
    forall a, b :: 0 <= a < b < |xs| ==> |xs[a]| != |xs[b]|
  }

  function ExplanationTexts(ts: seq<Template>): (r: seq<string>)
    ensures |r| == |ts| && forall k :: 0 <= k < |ts| ==> r[k] == ts[k].explanation
  {
    seq(|ts|, k requires 0 <= k < |ts| => ts[k].explanation)
  }

  /** When the explanations have pairwise different lengths, so do the ones that fire. */
  lemma {:induction false} ExplanationsKeepDistinct(ts: seq<Template>, text: string)
    requires DistinctLengths(ExplanationTexts(ts))
    ensures DistinctLengths(ExplanationsOf(ts, text))
    decreases |ts|
  {
    if ts != [] {
      var tail := ts[1..];
      assert DistinctLengths(ExplanationTexts(tail)) by {
        forall a, b | 0 <= a < b < |tail| ensures |tail[a].explanation| != |tail[b].explanation| {
          assert tail[a] == ts[a + 1] && tail[b] == ts[b + 1];
          assert ExplanationTexts(ts)[a + 1] == ts[a + 1].explanation;
        }
      }
      ExplanationsKeepDistinct(tail, text);
      var rest := ExplanationsOf(tail, text);
      if Searches(ts[0].pattern, text) {
        var r := [ts[0].explanation] + rest;
        forall a, b | 0 <= a < b < |r| ensures |r[a]| != |r[b]| {
          if a == 0 {
            assert r[b] in rest;
            var k :| 0 <= k < |tail| && tail[k].explanation == r[b] && Searches(tail[k].pattern, text);
            assert ExplanationTexts(ts)[k + 1] == r[b];
          } else {
            assert r[a] == rest[a - 1] && r[b] == rest[b - 1];
          }
        }
      }
    }
  }

  /** Every template explanation is longer than twenty characters. */
  predicate AllLong(xs: seq<string>) {
    forall k :: 0 <= k < |xs| ==> |xs[k]| > MinExplanationLength
  }

  /** The nine explanations differ in length and are all longer than twenty characters. */
  lemma TemplateTextsShape()
    ensures DistinctLengths(ExplanationTexts(Templates))
    ensures AllLong(ExplanationTexts(Templates))
  {
    var xs := ExplanationTexts(Templates);
    assert |xs[0]| == 63 && |xs[1]| == 44 && |xs[2]| == 53 && |xs[3]| == 50 && |xs[4]| == 52;
    assert |xs[5]| == 61 && |xs[6]| == 48 && |xs[7]| == 39 && |xs[8]| == 70;
  }

  // ---------------------------------------------------------------------------------------
  // Period split
  // ---------------------------------------------------------------------------------------

  /** `\.\s+` matches at `p`. */
  predicate PeriodBreakAt(t: string, p: int) {
    0 <= p && p + 1 < |t| && t[p] == '.' && IsSpace(t[p + 1])
  }

  predicate NoPeriodBreak(s: string) {
    forall i :: 0 <= i < |s| ==> !PeriodBreakAt(s, i)
  }

  /** `re.split(r'\.\s+', t)`, resumed with the current piece starting at `start` and the
      search at `p`. The period and the whole whitespace run are dropped. */
  function PeriodPiecesFrom(t: string, start: nat, p: nat): (r: seq<string>)
    requires start <= p <= |t|
    ensures |r| >= 1
    decreases |t| - p
  {
    if p == |t| then [t[start..]]
    else if PeriodBreakAt(t, p) then
      var q := SpaceRunEnd(t, p + 1);
      [t[start..p]] + PeriodPiecesFrom(t, q, q)
    else PeriodPiecesFrom(t, start, p + 1)
  }

  /** Pieces without a break, each empty or starting with a non-space character. */
  predicate WellShapedPieces(r: seq<string>) {
    forall k :: 0 <= k < |r| ==> NoPeriodBreak(r[k]) && (r[k] == [] || !IsSpace(r[k][0]))
  }

  /** Every piece is free of breaks and starts with a non-space character (or is empty),
      given that the current piece does. */
  lemma {:induction false} PeriodPiecesShape(t: string, start: nat, p: nat)
    requires start <= p <= |t|
    requires start < |t| ==> !IsSpace(t[start])
    requires forall i :: start <= i < p ==> !PeriodBreakAt(t, i)
    ensures WellShapedPieces(PeriodPiecesFrom(t, start, p))
    decreases |t| - p
  {
    var r := PeriodPiecesFrom(t, start, p);
    if p == |t| {
      PieceHasNoPeriodBreak(t, start, |t|);
      assert t[start..] == t[start..|t|];
    } else if PeriodBreakAt(t, p) {
      var q := SpaceRunEnd(t, p + 1);
      PeriodPiecesShape(t, q, q);
      PieceHasNoPeriodBreak(t, start, p);
      var rest := PeriodPiecesFrom(t, q, q);
      assert r == [t[start..p]] + rest;
      forall k | 0 < k < |r| ensures NoPeriodBreak(r[k]) && (r[k] == [] || !IsSpace(r[k][0])) {
        assert r[k] == rest[k - 1];
        assert NoPeriodBreak(rest[k - 1]) && (rest[k - 1] == [] || !IsSpace(rest[k - 1][0]));
      }
      assert NoPeriodBreak(r[0]) && (r[0] == [] || !IsSpace(r[0][0]));
    } else {
      assert !PeriodBreakAt(t, p);
      PeriodPiecesShape(t, start, p + 1);
      assert r == PeriodPiecesFrom(t, start, p + 1);
    }
  }

  lemma PieceHasNoPeriodBreak(t: string, start: nat, p: nat)
    requires start <= p <= |t|
    requires forall i :: start <= i < p ==> !PeriodBreakAt(t, i)
    ensures NoPeriodBreak(t[start..p])
  {
    var piece := t[start..p];
    forall i | 0 <= i < |piece| ensures !PeriodBreakAt(piece, i) {
      assert !PeriodBreakAt(t, start + i);
    }
  }

  /** A slice of a break-free string is break-free. */
  lemma SliceNoPeriodBreak(s: string, a: nat, b: nat)
    requires a <= b <= |s| && NoPeriodBreak(s)
    ensures NoPeriodBreak(s[a..b])
  {
    var piece := s[a..b];
    forall i | 0 <= i < |piece| ensures !PeriodBreakAt(piece, i) {
      assert !PeriodBreakAt(s, a + i);
    }
  }

  /** The stripped non-empty pieces, in order. */
  function StripNonEmpty(pieces: seq<string>): (r: seq<string>)
    ensures |r| <= |pieces|
    ensures forall s :: s in r ==> exists k :: 0 <= k < |pieces| && pieces[k] != [] && Strip(pieces[k]) == s
    decreases |pieces|
  {
    if pieces == [] then []
    else
      var rest := StripNonEmpty(pieces[1..]);
      assert forall k :: 0 < k < |pieces| ==> pieces[k] == pieces[1..][k - 1];
      if pieces[0] != [] then [Strip(pieces[0])] + rest else rest
  }

  /** The positions from `k` on that hold a non-empty piece, in increasing order. */
  function NonEmptyPositions(pieces: seq<string>, k: nat): (ix: seq<nat>)
    requires k <= |pieces|
    ensures forall m :: 0 <= m < |ix| ==> k <= ix[m] < |pieces| && pieces[ix[m]] != []
    ensures forall m, m' :: 0 <= m < m' < |ix| ==> ix[m] < ix[m']
    ensures forall i :: k <= i < |pieces| && pieces[i] != [] ==> i in ix
    decreases |pieces| - k
  {
    if k == |pieces| then []
    else
      var rest := NonEmptyPositions(pieces, k + 1);
      if pieces[k] != [] then [k] + rest else rest
  }

  /** The comprehension keeps the order of the pieces: the m-th sentence is the piece at the
      m-th non-empty position, stripped, so every non-empty piece appears, in order. */
  lemma StripNonEmptyInOrder(pieces: seq<string>)
    ensures var ix := NonEmptyPositions(pieces, 0);
      |StripNonEmpty(pieces)| == |ix| && forall m :: 0 <= m < |ix| ==> StripNonEmpty(pieces)[m] == Strip(pieces[ix[m]])
    ensures forall i :: 0 <= i < |pieces| && pieces[i] != [] ==> Strip(pieces[i]) in StripNonEmpty(pieces)
  {
    var r := StripNonEmpty(pieces);
    var ix := NonEmptyPositions(pieces, 0);
    var ss := Strips(pieces);
    StripNonEmptyFrom(pieces, 0);
    assert pieces[0..] == pieces;
    forall m | 0 <= m < |ix| ensures r[m] == Strip(pieces[ix[m]]) {
      assert r[m] == ss[ix[m]];
    }
    forall i | 0 <= i < |pieces| && pieces[i] != [] ensures Strip(pieces[i]) in r {
      var m :| 0 <= m < |ix| && ix[m] == i;
      assert r[m] == ss[i];
    }
  }

  /** From position `k` on, the comprehension takes the stripped pieces at the non-empty
      positions. */
  predicate StripsAtPositions(pieces: seq<string>, k: nat)
    requires k <= |pieces|
  {
    var r := StripNonEmpty(pieces[k..]);
    var ix := NonEmptyPositions(pieces, k);
    |r| == |ix| && forall m :: 0 <= m < |ix| ==> r[m] == Strips(pieces)[ix[m]]
  }

  lemma {:induction false} StripNonEmptyFrom(pieces: seq<string>, k: nat)
    requires k <= |pieces|
    ensures StripsAtPositions(pieces, k)
    decreases |pieces| - k
  {
    if k < |pieces| {
      StripNonEmptyFrom(pieces, k + 1);
      if pieces[k] != [] {
        KeptPieceStep(pieces, k);
      } else {
        SkippedPieceStep(pieces, k);
      }
    } else {
      assert pieces[k..] == [];
    }
  }

  lemma KeptPieceStep(pieces: seq<string>, k: nat)
    requires k < |pieces| && pieces[k] != [] && StripsAtPositions(pieces, k + 1)
    ensures StripsAtPositions(pieces, k)
  {
    StripNonEmptyUnfold(pieces, k);
    ConsAtPositions(Strips(pieces), k, StripNonEmpty(pieces[k + 1..]), NonEmptyPositions(pieces, k + 1));
  }

  lemma SkippedPieceStep(pieces: seq<string>, k: nat)
    requires k < |pieces| && pieces[k] == [] && StripsAtPositions(pieces, k + 1)
    ensures StripsAtPositions(pieces, k)
  {
    StripNonEmptyUnfold(pieces, k);
  }

  /** One step of the comprehension and of the positions, side by side. */
  lemma StripNonEmptyUnfold(pieces: seq<string>, k: nat)
    requires k < |pieces|
    ensures StripNonEmpty(pieces[k..]) ==
      if pieces[k] != [] then [Strips(pieces)[k]] + StripNonEmpty(pieces[k + 1..]) else StripNonEmpty(pieces[k + 1..])
    ensures NonEmptyPositions(pieces, k) ==
      if pieces[k] != [] then [k] + NonEmptyPositions(pieces, k + 1) else NonEmptyPositions(pieces, k + 1)
  {
    var u := pieces[k..];
    assert u[0] == pieces[k];
    assert u[1..] == pieces[k + 1..];
  }

  /** `split_into_sentences`. */
  function SplitIntoSentences(text: string): (r: seq<string>)
    ensures |r| <= |PeriodPiecesFrom(Strip(text), 0, 0)|
  {
    StripNonEmpty(PeriodPiecesFrom(Strip(text), 0, 0))
  }

  /** A sentence is non-empty, has no whitespace at either end and no period break inside. */
  predicate SentenceShaped(s: string) {
    s != [] && !IsSpace(s[0]) && !IsSpace(s[|s| - 1]) && NoPeriodBreak(s)
  }

  lemma SentencesShaped(text: string)
    ensures forall s :: s in SplitIntoSentences(text) ==> SentenceShaped(s)
  {
    var t := Strip(text);
    var pieces := PeriodPiecesFrom(t, 0, 0);
    PeriodPiecesShape(t, 0, 0);
    var r := StripNonEmpty(pieces);
    forall s | s in r ensures SentenceShaped(s) {
      var k :| 0 <= k < |pieces| && pieces[k] != [] && Strip(pieces[k]) == s;
      StrippedPieceShaped(pieces[k]);
    }
  }

  lemma StrippedPieceShaped(p: string)
    requires p != [] && !IsSpace(p[0]) && NoPeriodBreak(p)
    ensures SentenceShaped(Strip(p))
  {
    StripKeepsFirst(p);
    var st := StripStart(p);
    SliceNoPeriodBreak(p, st, st + |Strip(p)|);
  }

  /** Sentences that are non-empty, trimmed and free of `.`-then-whitespace come back from
      the split of their `". "`-join: the split is the inverse of that join. */
  lemma SplitJoinedSentences(ps: seq<string>)
    requires forall k :: 0 <= k < |ps| ==> SentenceShaped(ps[k])
    ensures SplitIntoSentences(Join(". ", ps)) == ps
  {
    var t := Join(". ", ps);
    if ps == [] {
      StripNoop(t);
      assert PeriodPiecesFrom(t, 0, 0) == [[]];
      assert StripNonEmpty([[]]) == [];
    } else {
      JoinedEnds(ps);
      StripNoop(t);
      PiecesOfJoin(t, 0, ps);
      StripNonEmptyNoop(ps);
    }
  }

  /** The `". "`-join of non-empty sentences starts with the first sentence's first character
      and ends with the last sentence's last character. */
  lemma {:induction false} JoinedEnds(ps: seq<string>)
    requires |ps| >= 1 && forall k :: 0 <= k < |ps| ==> ps[k] != []
    ensures Join(". ", ps) != []
    ensures Join(". ", ps)[0] == ps[0][0]
    ensures Join(". ", ps)[|Join(". ", ps)| - 1] == ps[|ps| - 1][|ps[|ps| - 1]| - 1]
    decreases |ps|
  {
    if |ps| > 1 {
      var rest := Join(". ", ps[1..]);
      JoinedEnds(ps[1..]);
      assert Join(". ", ps) == ps[0] + ". " + rest;
      assert ps[1..][|ps[1..]| - 1] == ps[|ps| - 1];
    }
  }

  /** Scanning over positions without a break leaves the pieces unchanged. */
  lemma {:induction false} SkipNoBreak(t: string, start: nat, p: nat, e: nat)
    requires start <= p <= e <= |t|
    requires forall i :: p <= i < e ==> !PeriodBreakAt(t, i)
    ensures PeriodPiecesFrom(t, start, p) == PeriodPiecesFrom(t, start, e)
    decreases e - p
  {
    if p < e {
      SkipNoBreak(t, start, p + 1, e);
    }
  }

  /** A break-free piece followed by the end or by a non-space character holds no break. */
  lemma NoBreakInPiece(t: string, start: nat, e: nat)
    requires start <= e <= |t| && NoPeriodBreak(t[start..e])
    requires e < |t| ==> !IsSpace(t[e])
    ensures forall i :: start <= i < e ==> !PeriodBreakAt(t, i)
  {
    var piece := t[start..e];
    forall i | start <= i < e ensures !PeriodBreakAt(t, i) {
      if i + 1 < e {
        assert !PeriodBreakAt(piece, i - start);
        assert piece[i - start] == t[i] && piece[i - start + 1] == t[i + 1];
      }
    }
  }

  /** The split of a text whose tail from `start` is a `". "`-join of sentences gives the
      sentences. */
  lemma {:induction false} PiecesOfJoin(t: string, start: nat, ps: seq<string>)
    requires start <= |t| && |ps| >= 1
    requires forall k :: 0 <= k < |ps| ==> SentenceShaped(ps[k])
    requires t[start..] == Join(". ", ps)
    ensures PeriodPiecesFrom(t, start, start) == ps
    decreases |ps|
  {
    var e := start + |ps[0]|;
    if |ps| == 1 {
      assert t[start..] == ps[0];
      assert e == |t|;
      assert t[start..e] == ps[0];
      NoBreakInPiece(t, start, e);
      SkipNoBreak(t, start, start, e);
    } else {
      var rest := Join(". ", ps[1..]);
      assert t[start..] == ps[0] + ". " + rest;
      JoinedEnds(ps[1..]);
      assert t[start..e] == ps[0] by {
        assert t[start..e] == t[start..][..|ps[0]|];
      }
      assert t[e] == '.' && t[e + 1] == ' ' by {
        assert t[e] == t[start..][|ps[0]|];
        assert t[e + 1] == t[start..][|ps[0]| + 1];
      }
      assert t[e + 2..] == rest by {
        assert t[e + 2..] == t[start..][|ps[0]| + 2..];
      }
      assert !IsSpace(t[e + 2]) by {
        assert t[e + 2] == rest[0];
      }
      NoBreakInPiece(t, start, e);
      SkipNoBreak(t, start, start, e);
      assert PeriodBreakAt(t, e);
      assert SpaceRunEnd(t, e + 1) == e + 2 by {
        assert SpaceRunEnd(t, e + 2) == e + 2;
      }
      PiecesOfJoin(t, e + 2, ps[1..]);
      assert PeriodPiecesFrom(t, start, e) == [ps[0]] + ps[1..];
      assert [ps[0]] + ps[1..] == ps;
    }
  }

  /** Trimmed non-empty pieces pass the final filter unchanged. */
  lemma {:induction false} StripNonEmptyNoop(ps: seq<string>)
    requires forall k :: 0 <= k < |ps| ==> SentenceShaped(ps[k])
    ensures StripNonEmpty(ps) == ps
    decreases |ps|
  {
    if ps != [] {
      var tail := ps[1..];
      assert forall k :: 0 <= k < |tail| ==> SentenceShaped(tail[k]) by {
        forall k | 0 <= k < |tail| ensures SentenceShaped(tail[k]) {
          assert tail[k] == ps[k + 1];
        }
      }
      StripNonEmptyNoop(tail);
      StripNoop(ps[0]);
      NoopCons(ps);
    }
  }

  lemma NoopCons(ps: seq<string>)
    requires ps != [] && ps[0] != [] && Strip(ps[0]) == ps[0]
    requires StripNonEmpty(ps[1..]) == ps[1..]
    ensures StripNonEmpty(ps) == ps
  {
    assert StripNonEmpty(ps) == [Strip(ps[0])] + StripNonEmpty(ps[1..]);
    assert [ps[0]] + ps[1..] == ps;
  }

  // ---------------------------------------------------------------------------------------
  // Assembling the explanation
  // ---------------------------------------------------------------------------------------

  /** `list(dict.fromkeys(xs))` from `seen` on: first occurrences, in order. */
  function DedupFrom(xs: seq<string>, seen: set<string>): (r: seq<string>)
    ensures forall x :: x in r <==> x in xs && x !in seen
    ensures forall a, b :: 0 <= a < b < |r| ==> r[a] != r[b]
    decreases |xs|
  {
    if xs == [] then []
    else if xs[0] in seen then DedupFrom(xs[1..], seen)
    else
      var rest := DedupFrom(xs[1..], seen + {xs[0]});
      assert forall x :: x in xs <==> x == xs[0] || x in xs[1..];
      [xs[0]] + rest
  }

  /** Strings that are pairwise different need no deduplication. */
  lemma {:induction false} DedupOfDistinct(xs: seq<string>, seen: set<string>)
    requires forall a, b :: 0 <= a < b < |xs| ==> xs[a] != xs[b]
    requires forall k :: 0 <= k < |xs| ==> xs[k] !in seen
    ensures DedupFrom(xs, seen) == xs
    decreases |xs|
  {
    if xs != [] {
      DedupOfDistinct(xs[1..], seen + {xs[0]});
    }
  }

  /** Position `i` holds the first occurrence of its string, and that string is not in
      `seen`. */
  predicate FirstNew(xs: seq<string>, seen: set<string>, i: int) {
    0 <= i < |xs| && xs[i] !in seen && forall j :: 0 <= j < i ==> xs[j] != xs[i]
  }

  /** The positions in `xs` of the strings the deduplication keeps. */
  function DedupPositions(xs: seq<string>, seen: set<string>): (ix: seq<nat>)
    ensures |ix| == |DedupFrom(xs, seen)|
    ensures forall m :: 0 <= m < |ix| ==> ix[m] < |xs| && DedupFrom(xs, seen)[m] == xs[ix[m]]
    ensures forall m, n :: 0 <= m < n < |ix| ==> ix[m] < ix[n]
    decreases |xs|
  {
    if xs == [] then []
    else if xs[0] in seen then
      var rest := DedupPositions(xs[1..], seen);
      DedupSkipStep(xs, DedupFrom(xs[1..], seen), rest);
      Shifted(rest, 1)
    else
      var rest := DedupPositions(xs[1..], seen + {xs[0]});
      DedupKeepStep(xs, DedupFrom(xs[1..], seen + {xs[0]}), rest);
      [0] + Shifted(rest, 1)
  }

  /** Positions into the tail, moved up by one, are positions into the whole list. */
  lemma DedupSkipStep(xs: seq<string>, r: seq<string>, ix: seq<nat>)
    requires xs != [] && |r| == |ix|
    requires forall m :: 0 <= m < |ix| ==> ix[m] < |xs| - 1 && r[m] == xs[1..][ix[m]]
    requires forall m, n :: 0 <= m < n < |ix| ==> ix[m] < ix[n]
    ensures var jx := Shifted(ix, 1);
      (forall m :: 0 <= m < |jx| ==> jx[m] < |xs| && r[m] == xs[jx[m]])
      && forall m, n :: 0 <= m < n < |jx| ==> jx[m] < jx[n]
  {
  }

  /** The same with the head put in front, at position 0. */
  lemma DedupKeepStep(xs: seq<string>, r: seq<string>, ix: seq<nat>)
    requires xs != [] && |r| == |ix|
    requires forall m :: 0 <= m < |ix| ==> ix[m] < |xs| - 1 && r[m] == xs[1..][ix[m]]
    requires forall m, n :: 0 <= m < n < |ix| ==> ix[m] < ix[n]
    ensures var jx := [0] + Shifted(ix, 1);
      var s := [xs[0]] + r;
      |s| == |jx|
      && (forall m :: 0 <= m < |jx| ==> jx[m] < |xs| && s[m] == xs[jx[m]])
      && forall m, n :: 0 <= m < n < |jx| ==> jx[m] < jx[n]
  {
    DedupSkipStep(xs, r, ix);
  }

  /** The deduplication keeps exactly the first occurrence of each string not in `seen`,
      in the order of `xs`. */
  lemma {:induction false} DedupFirstOccurrences(xs: seq<string>, seen: set<string>)
    ensures var ix := DedupPositions(xs, seen);
      forall m :: 0 <= m < |ix| ==> FirstNew(xs, seen, ix[m])
    ensures forall i :: FirstNew(xs, seen, i) ==> i in DedupPositions(xs, seen)
    decreases |xs|
  {
    if xs != [] {
      var seen' := if xs[0] in seen then seen else seen + {xs[0]};
      var rest := DedupPositions(xs[1..], seen');
      DedupFirstOccurrences(xs[1..], seen');
      var ix := DedupPositions(xs, seen);
      DedupPositionsUnfold(xs, seen);
      DedupPositionsSound(xs, seen, seen', rest, ix);
      DedupPositionsComplete(xs, seen, seen', rest, ix);
    }
  }

  lemma DedupPositionsUnfold(xs: seq<string>, seen: set<string>)
    requires xs != []
    ensures DedupPositions(xs, seen) ==
      if xs[0] in seen then Shifted(DedupPositions(xs[1..], seen), 1)
      else [0] + Shifted(DedupPositions(xs[1..], seen + {xs[0]}), 1)
  {
  }

  /** The step of `DedupFirstOccurrences` for its first clause. */
  lemma DedupPositionsSound(xs: seq<string>, seen: set<string>, seen': set<string>, rest: seq<nat>, ix: seq<nat>)
    requires xs != []
    requires seen' == if xs[0] in seen then seen else seen + {xs[0]}
    requires forall m :: 0 <= m < |rest| ==> FirstNew(xs[1..], seen', rest[m])
    requires ix == if xs[0] in seen then Shifted(rest, 1) else [0] + Shifted(rest, 1)
    ensures forall m :: 0 <= m < |ix| ==> FirstNew(xs, seen, ix[m])
  {
    forall m | 0 <= m < |ix| ensures FirstNew(xs, seen, ix[m]) {
      if xs[0] !in seen && m == 0 {
        assert ix[0] == 0;
      } else {
        var m' := if xs[0] in seen then m else m - 1;
        assert ix[m] == rest[m'] + 1;
        ShiftNew(xs, seen, seen', rest[m']);
      }
    }
  }

  /** The step of `DedupFirstOccurrences` for its second clause. */
  lemma DedupPositionsComplete(xs: seq<string>, seen: set<string>, seen': set<string>, rest: seq<nat>, ix: seq<nat>)
    requires xs != []
    requires seen' == if xs[0] in seen then seen else seen + {xs[0]}
    requires forall i :: FirstNew(xs[1..], seen', i) ==> i in rest
    requires ix == if xs[0] in seen then Shifted(rest, 1) else [0] + Shifted(rest, 1)
    ensures forall i :: FirstNew(xs, seen, i) ==> i in ix
  {
    forall i | FirstNew(xs, seen, i) ensures i in ix {
      if i == 0 {
        assert ix[0] == 0;
      } else {
        UnshiftNew(xs, seen, seen', i);
        var m' :| 0 <= m' < |rest| && rest[m'] == i - 1;
        if xs[0] in seen {
          assert ix[m'] == i;
        } else {
          assert ix[m' + 1] == i;
        }
      }
    }
  }

  /** A first new occurrence in the tail, under the set the head leaves behind, is one in
      the whole list. */
  lemma ShiftNew(xs: seq<string>, seen: set<string>, seen': set<string>, i: nat)
    requires xs != []
    requires seen' == if xs[0] in seen then seen else seen + {xs[0]}
    requires FirstNew(xs[1..], seen', i)
    ensures FirstNew(xs, seen, i + 1)
  {
    var tail := xs[1..];
    assert xs[i + 1] == tail[i];
    forall j | 0 <= j < i + 1 ensures xs[j] != xs[i + 1] {
      if j > 0 {
        assert xs[j] == tail[j - 1];
      }
    }
  }

  /** Conversely, a first new occurrence past the head is one in the tail. */
  lemma UnshiftNew(xs: seq<string>, seen: set<string>, seen': set<string>, i: nat)
    requires xs != [] && i > 0
    requires seen' == if xs[0] in seen then seen else seen + {xs[0]}
    requires FirstNew(xs, seen, i)
    ensures FirstNew(xs[1..], seen', i - 1)
  {
    var tail := xs[1..];
    assert tail[i - 1] == xs[i];
    assert xs[0] != xs[i];
    forall j | 0 <= j < i - 1 ensures tail[j] != tail[i - 1] {
      assert tail[j] == xs[j + 1];
    }
  }

  /** Explanations of twenty characters or fewer are dropped. */
  const MinExplanationLength: nat := 20

  /** The filter of the final loop before polishing: keep an item when it is longer than
      twenty characters and its lower-cased form has not been kept yet. */
  function Kept(items: seq<string>, seen: set<string>): (r: seq<string>)
    ensures |r| <= |items|
    decreases |items|
  {
    if items == [] then []
    else
      var e := items[0];
      if Lower(e) !in seen && |e| > MinExplanationLength then [e] + Kept(items[1..], seen + {Lower(e)})
      else Kept(items[1..], seen)
  }

  /** Every kept item is one of the items, is long enough and was not seen before. */
  predicate KeptSound(r: seq<string>, items: seq<string>, seen: set<string>) {
    forall k :: 0 <= k < |r| ==> r[k] in items && |r[k]| > MinExplanationLength && Lower(r[k]) !in seen
  }

  /** No two kept items agree once lower-cased. */
  predicate LowerDistinct(r: seq<string>) {
    forall a, b :: 0 <= a < b < |r| ==> Lower(r[a]) != Lower(r[b])
  }

  /** Every long item whose lower-cased form was not seen has its lower-cased form kept. */
  predicate KeptComplete(r: seq<string>, items: seq<string>, seen: set<string>) {
    forall e :: e in items && |e| > MinExplanationLength && Lower(e) !in seen ==>
      exists k :: 0 <= k < |r| && Lower(r[k]) == Lower(e)
  }

  lemma {:induction false} KeptIsSound(items: seq<string>, seen: set<string>)
    ensures KeptSound(Kept(items, seen), items, seen)
    decreases |items|
  {
    if items != [] {
      var e := items[0];
      var r := Kept(items, seen);
      if Lower(e) !in seen && |e| > MinExplanationLength {
        var seen' := seen + {Lower(e)};
        var rest := Kept(items[1..], seen');
        KeptIsSound(items[1..], seen');
        assert r == [e] + rest;
        forall k | 0 < k < |r| ensures r[k] in items && |r[k]| > MinExplanationLength && Lower(r[k]) !in seen {
          assert r[k] == rest[k - 1];
          assert rest[k - 1] in items[1..];
        }
      } else {
        var rest := Kept(items[1..], seen);
        KeptIsSound(items[1..], seen);
        forall k | 0 <= k < |r| ensures r[k] in items && |r[k]| > MinExplanationLength && Lower(r[k]) !in seen {
          assert r[k] == rest[k];
          assert rest[k] in items[1..];
        }
      }
    }
  }

  lemma {:induction false} KeptIsLowerDistinct(items: seq<string>, seen: set<string>)
    ensures LowerDistinct(Kept(items, seen))
    decreases |items|
  {
    if items != [] {
      var e := items[0];
      if Lower(e) !in seen && |e| > MinExplanationLength {
        var seen' := seen + {Lower(e)};
        var rest := Kept(items[1..], seen');
        var r := [e] + rest;
        KeptIsLowerDistinct(items[1..], seen');
        KeptIsSound(items[1..], seen');
        forall a, b | 0 <= a < b < |r| ensures Lower(r[a]) != Lower(r[b]) {
          assert r[b] == rest[b - 1];
          if a > 0 {
            assert r[a] == rest[a - 1];
          } else {
            assert Lower(rest[b - 1]) !in seen';
          }
        }
      } else {
        KeptIsLowerDistinct(items[1..], seen);
      }
    }
  }

  lemma {:induction false} KeptIsComplete(items: seq<string>, seen: set<string>)
    ensures KeptComplete(Kept(items, seen), items, seen)
    decreases |items|
  {
    if items != [] {
      var e := items[0];
      var r := Kept(items, seen);
      forall x | x in items && |x| > MinExplanationLength && Lower(x) !in seen
        ensures exists k :: 0 <= k < |r| && Lower(r[k]) == Lower(x)
      {
        if Lower(e) !in seen && |e| > MinExplanationLength {
          var seen' := seen + {Lower(e)};
          var rest := Kept(items[1..], seen');
          assert r == [e] + rest;
          if Lower(x) == Lower(e) {
            assert Lower(r[0]) == Lower(x);
          } else {
            assert x in items[1..];
            KeptIsComplete(items[1..], seen');
            var k :| 0 <= k < |rest| && Lower(rest[k]) == Lower(x);
            assert r[k + 1] == rest[k];
          }
        } else {
          assert x != e;
          assert x in items[1..];
          KeptIsComplete(items[1..], seen);
        }
      }
    }
  }

  /** An item the filter would take if nothing before it had been kept: long enough, and its
      lower-cased form not seen. */
  predicate Eligible(e: string, seen: set<string>) {
    |e| > MinExplanationLength && Lower(e) !in seen
  }

  /** Position `i` holds the first eligible item of its lower-cased form. */
  predicate FirstOfItsCase(items: seq<string>, seen: set<string>, i: int) {
    0 <= i < |items| && Eligible(items[i], seen)
    && forall j :: 0 <= j < i ==> !(Eligible(items[j], seen) && Lower(items[j]) == Lower(items[i]))
  }

  /** Adds `d` to every position. */
  function Shifted(ix: seq<nat>, d: nat): (r: seq<nat>)
    ensures |r| == |ix| && forall m :: 0 <= m < |ix| ==> r[m] == ix[m] + d
  {
    seq(|ix|, m requires 0 <= m < |ix| => ix[m] + d)
  }

  /** The positions in `items` of the lines the filter keeps. */
  function KeptPositions(items: seq<string>, seen: set<string>): (ix: seq<nat>)
    ensures |ix| == |Kept(items, seen)|
    ensures forall m :: 0 <= m < |ix| ==> ix[m] < |items| && Kept(items, seen)[m] == items[ix[m]]
    ensures forall m, n :: 0 <= m < n < |ix| ==> ix[m] < ix[n]
    decreases |items|
  {
    if items == [] then []
    else
      var e := items[0];
      if Eligible(e, seen) then
        var rest := KeptPositions(items[1..], seen + {Lower(e)});
        assert Kept(items, seen) == [e] + Kept(items[1..], seen + {Lower(e)});
        [0] + Shifted(rest, 1)
      else
        Shifted(KeptPositions(items[1..], seen), 1)
  }

  /** The filter keeps exactly the first eligible occurrence of each lower-cased form, in
      the order of the items: with the case-insensitive duplicates "ABC" and "abc", the
      one that comes first is the one kept. */
  lemma {:induction false} KeptFirstOccurrences(items: seq<string>, seen: set<string>)
    ensures var ix := KeptPositions(items, seen);
      forall m :: 0 <= m < |ix| ==> FirstOfItsCase(items, seen, ix[m])
    ensures forall i :: FirstOfItsCase(items, seen, i) ==> i in KeptPositions(items, seen)
    decreases |items|
  {
    if items != [] {
      var e := items[0];
      var seen' := if Eligible(e, seen) then seen + {Lower(e)} else seen;
      var rest := KeptPositions(items[1..], seen');
      KeptFirstOccurrences(items[1..], seen');
      var ix := KeptPositions(items, seen);
      KeptPositionsUnfold(items, seen);
      KeptPositionsSound(items, seen, seen', rest, ix);
      KeptPositionsComplete(items, seen, seen', rest, ix);
    }
  }

  lemma KeptPositionsUnfold(items: seq<string>, seen: set<string>)
    requires items != []
    ensures KeptPositions(items, seen) ==
      if Eligible(items[0], seen) then [0] + Shifted(KeptPositions(items[1..], seen + {Lower(items[0])}), 1)
      else Shifted(KeptPositions(items[1..], seen), 1)
  {
  }

  /** The step of `KeptFirstOccurrences` for its first clause. */
  lemma KeptPositionsSound(items: seq<string>, seen: set<string>, seen': set<string>, rest: seq<nat>, ix: seq<nat>)
    requires items != []
    requires seen' == if Eligible(items[0], seen) then seen + {Lower(items[0])} else seen
    requires forall m :: 0 <= m < |rest| ==> FirstOfItsCase(items[1..], seen', rest[m])
    requires ix == if Eligible(items[0], seen) then [0] + Shifted(rest, 1) else Shifted(rest, 1)
    ensures forall m :: 0 <= m < |ix| ==> FirstOfItsCase(items, seen, ix[m])
  {
    forall m | 0 <= m < |ix| ensures FirstOfItsCase(items, seen, ix[m]) {
      if Eligible(items[0], seen) && m == 0 {
        assert ix[0] == 0;
      } else {
        var m' := if Eligible(items[0], seen) then m - 1 else m;
        assert ix[m] == rest[m'] + 1;
        ShiftFirst(items, seen, seen', rest[m']);
      }
    }
  }

  /** The step of `KeptFirstOccurrences` for its second clause. */
  lemma KeptPositionsComplete(items: seq<string>, seen: set<string>, seen': set<string>, rest: seq<nat>, ix: seq<nat>)
    requires items != []
    requires seen' == if Eligible(items[0], seen) then seen + {Lower(items[0])} else seen
    requires forall i :: FirstOfItsCase(items[1..], seen', i) ==> i in rest
    requires ix == if Eligible(items[0], seen) then [0] + Shifted(rest, 1) else Shifted(rest, 1)
    ensures forall i :: FirstOfItsCase(items, seen, i) ==> i in ix
  {
    forall i | FirstOfItsCase(items, seen, i) ensures i in ix {
      if i == 0 {
        assert ix[0] == 0;
      } else {
        UnshiftFirst(items, seen, seen', i);
        var m' :| 0 <= m' < |rest| && rest[m'] == i - 1;
        if Eligible(items[0], seen) {
          assert ix[m' + 1] == i;
        } else {
          assert ix[m'] == i;
        }
      }
    }
  }

  /** A first occurrence in the tail, under the set the head leaves behind, is a first
      occurrence in the whole list. */
  lemma ShiftFirst(items: seq<string>, seen: set<string>, seen': set<string>, i: nat)
    requires items != []
    requires seen' == if Eligible(items[0], seen) then seen + {Lower(items[0])} else seen
    requires FirstOfItsCase(items[1..], seen', i)
    ensures FirstOfItsCase(items, seen, i + 1)
  {
    var tail := items[1..];
    assert items[i + 1] == tail[i];
    forall j | 0 <= j < i + 1 ensures !(Eligible(items[j], seen) && Lower(items[j]) == Lower(items[i + 1])) {
      if j > 0 {
        assert items[j] == tail[j - 1];
      }
    }
  }

  /** Conversely, a first occurrence past the head is one in the tail. */
  lemma UnshiftFirst(items: seq<string>, seen: set<string>, seen': set<string>, i: nat)
    requires items != [] && i > 0
    requires seen' == if Eligible(items[0], seen) then seen + {Lower(items[0])} else seen
    requires FirstOfItsCase(items, seen, i)
    ensures FirstOfItsCase(items[1..], seen', i - 1)
  {
    var tail := items[1..];
    assert tail[i - 1] == items[i];
    assert !(Eligible(items[0], seen) && Lower(items[0]) == Lower(items[i]));
    forall j | 0 <= j < i - 1 ensures !(Eligible(tail[j], seen') && Lower(tail[j]) == Lower(tail[i - 1])) {
      assert tail[j] == items[j + 1];
    }
  }

  /** Long items with pairwise different lengths are all kept, ahead of whatever follows. */
  lemma {:induction false} KeptPrefix(xs: seq<string>, ys: seq<string>, seen: set<string>)
    requires AllLong(xs) && DistinctLengths(xs)
    requires forall k :: 0 <= k < |xs| ==> Lower(xs[k]) !in seen
    ensures |Kept(xs + ys, seen)| >= |xs| && Kept(xs + ys, seen)[..|xs|] == xs
    decreases |xs|
  {
    if xs != [] {
      var tail := xs[1..];
      var seen' := seen + {Lower(xs[0])};
      assert (xs + ys)[0] == xs[0];
      assert (xs + ys)[1..] == tail + ys;
      assert Kept(xs + ys, seen) == [xs[0]] + Kept(tail + ys, seen');
      assert AllLong(tail) && DistinctLengths(tail);
      forall k | 0 <= k < |tail| ensures Lower(tail[k]) !in seen' {
        assert tail[k] == xs[k + 1];
        assert |Lower(tail[k])| != |Lower(xs[0])|;
      }
      KeptPrefix(tail, ys, seen');
    }
  }

  /** Capitalise the first character and make sure the line ends with a period. */
  function Polish(e: string): (r: string)
    requires e != []
    ensures |r| == |e| || |r| == |e| + 1
    ensures r[0] == UpperChar(e[0]) && r[1..|e|] == e[1..]
    ensures r[|r| - 1] == '.'
    ensures |r| == |e| <==> e[|e| - 1] == '.' || (|e| == 1 && UpperChar(e[0]) == '.')
  {
    var u := [UpperChar(e[0])] + e[1..];
    if u[|u| - 1] == '.' then u else u + "."
  }

  function PolishAll(xs: seq<string>): (r: seq<string>)
    requires forall k :: 0 <= k < |xs| ==> xs[k] != []
    ensures |r| == |xs| && forall k :: 0 <= k < |xs| ==> r[k] == Polish(xs[k])
  {
    seq(|xs|, k requires 0 <= k < |xs| => Polish(xs[k]))
  }

  function BulletLines(lines: seq<string>): (r: seq<string>)
    ensures |r| == |lines| && forall k :: 0 <= k < |lines| ==> r[k] == "- " + lines[k]
  {
    seq(|lines|, k requires 0 <= k < |lines| => "- " + lines[k])
  }

  /** The markdown bullet list: one "- " line per explanation, joined by line feeds. */
  function Bullets(lines: seq<string>): (r: string)
    ensures r == [] <==> lines == []
    ensures lines != [] ==> |r| >= 2 && r[..2] == "- "
  {
    var bs := BulletLines(lines);
    if |bs| == 0 then []
    else
      assert Join("\n", bs)[..2] == "- " by { JoinStartsWith(bs); }
      Join("\n", bs)
  }

  /** The list holds one "- " line per explanation, in order: splitting it at line feeds
      gives the bullet lines back, when no explanation spans two lines. */
  lemma BulletsSplitIntoLines(lines: seq<string>)
    requires lines != []
    requires forall k :: 0 <= k < |lines| ==> '\n' !in lines[k]
    ensures SplitAt('\n', Bullets(lines)) == BulletLines(lines)
  {
    var bs := BulletLines(lines);
    forall k | 0 <= k < |bs| ensures '\n' !in bs[k] {
      assert bs[k] == "- " + lines[k];
    }
    SplitAtJoin('\n', bs);
  }

  lemma JoinStartsWith(bs: seq<string>)
    requires bs != [] && |bs[0]| >= 2
    ensures |Join("\n", bs)| >= 2 && Join("\n", bs)[..2] == bs[0][..2]
  {
  }

  /** The lines of the explanation: templates that fire (deduplicated) before the sentences
      of the text, filtered and polished. */
  function ExplanationLines(templates: seq<string>, sentences: seq<string>): seq<string> {
    var kept := Kept(DedupFrom(templates, {}) + sentences, {});
    KeptIsSound(DedupFrom(templates, {}) + sentences, {});
    assert forall k :: 0 <= k < |kept| ==> kept[k] != [];
    PolishAll(kept)
  }

  /** `generate_ai_friendly_explanation` as written: templates are searched in the text after
      the jargon has been replaced. */
  function GenerateExplanation(policy: string): string {
    var cleaned := CleanAndReplace(policy);
    Bullets(ExplanationLines(ExtractTemplates(cleaned), SplitIntoSentences(cleaned)))
  }

  /** The templates that fire lead the explanation, one line each and in template order. */
  lemma TemplatesLead(templates: seq<string>, sentences: seq<string>)
    requires AllLong(templates) && DistinctLengths(templates)
    ensures |ExplanationLines(templates, sentences)| >= |templates|
    ensures ExplanationLines(templates, sentences)[..|templates|] == PolishAll(templates)
  {
    forall a, b | 0 <= a < b < |templates| ensures templates[a] != templates[b] {
    }
    DedupOfDistinct(templates, {});
    KeptPrefix(templates, sentences, {});
  }

  /** The explanations that fire are long and differ in length. */
  lemma ExtractedTemplatesShape(text: string)
    ensures AllLong(ExtractTemplates(text)) && DistinctLengths(ExtractTemplates(text))
  {
    TemplateTextsShape();
    ExplanationsKeepDistinct(Templates, text);
    var ts := ExtractTemplates(text);
    forall k | 0 <= k < |ts| ensures |ts[k]| > MinExplanationLength {
      assert ts[k] in ts;
      var j :| 0 <= j < |Templates| && Templates[j].explanation == ts[k] && Searches(Templates[j].pattern, text);
      assert ExplanationTexts(Templates)[j] == ts[k];
    }
  }

  /** The template part of the explanation: every template explanation that fires, in
      template order, each an explanation line of its own. */
  lemma ExtractedTemplatesLead(cleaned: string, sentences: seq<string>)
    ensures var ts := ExtractTemplates(cleaned);
      && AllLong(ts)
      && |ExplanationLines(ts, sentences)| >= |ts|
      && ExplanationLines(ts, sentences)[..|ts|] == PolishAll(ts)
  {
    ExtractedTemplatesShape(cleaned);
    TemplatesLead(ExtractTemplates(cleaned), sentences);
  }
  /** The first element opens the join. */
  lemma {:induction false} JoinHead(sep: string, bs: seq<string>)
    requires bs != []
    ensures |Join(sep, bs)| >= |bs[0]| && Join(sep, bs)[..|bs[0]|] == bs[0]
  {
    if |bs| > 1 {
      assert Join(sep, bs) == bs[0] + (sep + Join(sep, bs[1..]));
    }
  }

  /** When a template fires on the replaced text, the explanation opens with its bullet: the
      first firing template's sentence, capitalised and ending in a period. */
  lemma ExplanationOpensWithTemplate(policy: string)
    requires ExtractTemplates(CleanAndReplace(policy)) != []
    ensures AllLong(ExtractTemplates(CleanAndReplace(policy)))
    ensures var first := "- " + Polish(ExtractTemplates(CleanAndReplace(policy))[0]);
      var g := GenerateExplanation(policy);
      |g| >= |first| && g[..|first|] == first
  {
    var cleaned := CleanAndReplace(policy);
    var ts := ExtractTemplates(cleaned);
    var lines := ExplanationLines(ts, SplitIntoSentences(cleaned));
    ExtractedTemplatesLead(cleaned, SplitIntoSentences(cleaned));
    assert lines[0] == PolishAll(ts)[0];
    var bs := BulletLines(lines);
    JoinHead("\n", bs);
  }


  // ---------------------------------------------------------------------------------------
  // Templates searched after replacement
  // ---------------------------------------------------------------------------------------

  /** "consent" is replaced before the templates are searched, so the consent template does
      not fire on the text "consent" although its pattern matches that text. */
  lemma ConsentTemplateLost()
    ensures Searches(ConsentTemplate.pattern, ConsentRule.base)
    ensures CleanAndReplace(ConsentRule.base) == ConsentRule.replacement
    ensures ExtractTemplates(CleanAndReplace(ConsentRule.base)) == []
  {
    var t := ConsentRule.base;
    var u := ConsentRule.replacement;
    ConsentSearched(t);
    ConsentRuleStep(t);
    ConsentLetters(t, u);
    OnlyConsentRuleFires(t);
    NoTemplateFires(u);
  }

  /** The letters the rule and template lemmas look for. */
  lemma ConsentLetters(t: string, u: string)
    requires t == "consent" && u == "your permission"
    ensures IsLower(t) && 'd' !in t && 'r' !in t && 'p' !in t && 'a' !in t && 'u' !in t && 'h' !in t && 'l' !in t
    ensures IsLower(u) && 'a' !in u && 'c' !in u && 'd' !in u && 'f' !in u && 'l' !in u && 't' !in u
  {
  }

  lemma ConsentSearched(t: string)
    requires t == "consent"
    ensures Searches(ConsentTemplate.pattern, t)
  {
    LowerOfLower(t);
    assert OccursAt(Lower(t), "consent", 0);
  }

  /** The consent rule turns "consent" into its replacement. */
  lemma ConsentRuleStep(t: string)
    requires t == "consent"
    ensures Sub(t, ConsentRule) == "your permission"
  {
    assert t[0..7] == t;
    EqualsIgnoreCaseAtLower(t, ConsentRule.base, 0);
    assert MatchLen(t, ConsentRule, 0) == 7;
    assert SubFrom(t, ConsentRule, 7) == [];
  }

  /** A lower-case text that only the consent rule can touch, and whose replacement no later
      rule touches, is cleaned by the consent rule alone. */
  lemma OnlyConsentRuleFires(t: string)
    requires IsLower(t) && 'd' !in t && 'r' !in t && 'p' !in t && 'a' !in t && 'u' !in t
    requires IsLower(Sub(t, ConsentRule)) && 'c' !in Sub(t, ConsentRule) && 't' !in Sub(t, ConsentRule) && 'd' !in Sub(t, ConsentRule)
    ensures CleanAndReplace(t) == Sub(t, ConsentRule)
  {
    var u := Sub(t, ConsentRule);
    RulesAroundConsent();
    ApplyConcat(t, LeadingRules, [ConsentRule] + TrailingRules);
    LeadingRulesSkip(t);
    assert ApplyRules(t, [ConsentRule] + TrailingRules) == ApplyRules(u, TrailingRules) by {
      assert ([ConsentRule] + TrailingRules)[0] == ConsentRule;
      assert ([ConsentRule] + TrailingRules)[1..] == TrailingRules;
    }
    TrailingRulesSkip(u);
  }

  /** The rules before and after the consent rule. */
  const LeadingRules: seq<Rule> := [BreachRule, RetentionRule, PersonalDataRule, AnalysisRule, BehaviorRule, ProfileRule]
  const TrailingRules: seq<Rule> := [ProcessingRule, ThirdPartiesRule, DisclosedRule, SecurityRule, MonitoringRule, TrackingRule]

  lemma RulesAroundConsent()
    ensures Rules == LeadingRules + ([ConsentRule] + TrailingRules)
  {
  }

  /** Applying `a + b` is applying `a`, then `b`. */
  lemma {:induction false} ApplyConcat(t: string, a: seq<Rule>, b: seq<Rule>)
    ensures ApplyRules(t, a + b) == ApplyRules(ApplyRules(t, a), b)
    decreases |a|
  {
    if a != [] {
      assert (a + b)[0] == a[0] && (a + b)[1..] == a[1..] + b;
      ApplyConcat(Sub(t, a[0]), a[1..], b);
    } else {
      assert a + b == b;
    }
  }

  /** The first six rules leave a lower-case text without d, r, p, a and u unchanged. */
  lemma LeadingRulesSkip(t: string)
    requires IsLower(t) && 'd' !in t && 'r' !in t && 'p' !in t && 'a' !in t && 'u' !in t
    ensures ApplyRules(t, LeadingRules) == t
  {
    LowerOfLower(t);
    MissingCharNoMatch(t, BreachRule, 0);
    MissingCharNoMatch(t, RetentionRule, 0);
    MissingCharNoMatch(t, PersonalDataRule, 0);
    MissingCharNoMatch(t, AnalysisRule, 0);
    MissingCharNoMatch(t, BehaviorRule, 0);
    MissingCharNoMatch(t, ProfileRule, 0);
    NoRuleKeepsText(t, LeadingRules);
  }

  /** The last six rules leave a lower-case text without c, t and d unchanged. */
  lemma TrailingRulesSkip(u: string)
    requires IsLower(u) && 'c' !in u && 't' !in u && 'd' !in u
    ensures ApplyRules(u, TrailingRules) == u
  {
    LowerOfLower(u);
    MissingCharNoMatch(u, ProcessingRule, 3);
    MissingCharNoMatch(u, ThirdPartiesRule, 0);
    MissingCharNoMatch(u, DisclosedRule, 0);
    MissingCharNoMatch(u, SecurityRule, 2);
    MissingCharNoMatch(u, MonitoringRule, 4);
    MissingCharNoMatch(u, TrackingRule, 0);
    NoRuleKeepsText(u, TrailingRules);
  }

  /** No explanation when no template fires. */
  lemma {:induction false} NoneFire(ts: seq<Template>, text: string)
    requires forall k :: 0 <= k < |ts| ==> !Searches(ts[k].pattern, text)
    ensures ExplanationsOf(ts, text) == []
    decreases |ts|
  {
    if ts != [] {
      assert forall k :: 0 <= k < |ts| - 1 ==> ts[1..][k] == ts[k + 1];
      NoneFire(ts[1..], text);
    }
  }

  /** A literal pattern does not fire on a lower-case text that lacks one of its characters. */
  lemma LitMissing(s: string, u: string, j: nat)
    requires IsLower(u) && j < |s| && s[j] !in u
    ensures !Searches(Lit(s), u)
  {
    LowerOfLower(u);
    NotContainsMissingChar(u, s, j);
  }

  /** The gap pattern does not fire on a lower-case text that lacks a character of its first
      part. */
  lemma GapMissing(a: string, b: string, u: string, j: nat)
    requires IsLower(u) && j < |a| && a[j] !in u
    ensures !Searches(Gap(a, b), u)
  {
    LowerOfLower(u);
    NotContainsMissingChar(u, a, j);
  }

  /** No template fires on a lower-case text without the letters a, c, d, f, l and t: each
      pattern contains one of them. */
  lemma NoTemplateFires(u: string)
    requires IsLower(u)
    requires 'a' !in u && 'c' !in u && 'd' !in u && 'f' !in u && 'l' !in u && 't' !in u
    ensures ExtractTemplates(u) == []
  {
    GapMissing("personal information", "collected", u, 6);
    LitMissing("data retention", u, 0);
    LitMissing("data breache", u, 0);
    LitMissing("consent", u, 0);
    LitMissing("third parties", u, 0);
    LitMissing("security", u, 2);
    LitMissing("profiling", u, 3);
    LitMissing("tracking", u, 0);
    LitMissing("legal consequences", u, 0);
    NoneFire(Templates, u);
  }

  /** The templates searched in the policy text as given, before any replacement. */
  function ExtractTemplatesIntended(policy: string): (r: seq<string>)
    ensures forall k :: 0 <= k < |Templates| && Searches(Templates[k].pattern, policy) ==> Templates[k].explanation in r
  {
    ExtractTemplates(policy)
  }

  /** The explanation with the templates searched in the original policy text. */
  function GenerateExplanationIntended(policy: string): string {
    var cleaned := CleanAndReplace(policy);
    Bullets(ExplanationLines(ExtractTemplatesIntended(policy), SplitIntoSentences(cleaned)))
  }

  /** Searched in the original text, the consent template fires on "consent" and its
      explanation leads the result. */
  lemma ConsentTemplateKept()
    ensures ExtractTemplatesIntended(ConsentRule.base) == [ConsentTemplate.explanation]
    ensures var lines := ExplanationLines(ExtractTemplatesIntended(ConsentRule.base), SplitIntoSentences(CleanAndReplace(ConsentRule.base)));
      lines != [] && lines[0] == Polish(ConsentTemplate.explanation)
  {
    var t := ConsentRule.base;
    ConsentSearched(t);
    ConsentLetters(t, ConsentRule.replacement);
    OtherTemplatesSilent(t);
    OneFires(Templates, t, 3);
    var ts := [ConsentTemplate.explanation];
    assert AllLong(ts) && DistinctLengths(ts);
    TemplatesLead(ts, SplitIntoSentences(CleanAndReplace(t)));
  }

  /** Only the consent template can fire on a lower-case text without p, d, h, r and l. */
  lemma OtherTemplatesSilent(t: string)
    requires IsLower(t) && 'p' !in t && 'd' !in t && 'h' !in t && 'r' !in t && 'l' !in t
    ensures forall k :: 0 <= k < |Templates| && k != 3 ==> !Searches(Templates[k].pattern, t)
  {
    GapMissing("personal information", "collected", t, 0);
    LitMissing("data retention", t, 0);
    LitMissing("data breache", t, 0);
    LitMissing("third parties", t, 1);
    LitMissing("security", t, 4);
    LitMissing("profiling", t, 0);
    LitMissing("tracking", t, 1);
    LitMissing("legal consequences", t, 0);
  }

  /** When exactly the `k`-th template fires, its explanation is the only one. */
  lemma {:induction false} OneFires(ts: seq<Template>, text: string, k: nat)
    requires k < |ts| && Searches(ts[k].pattern, text)
    requires forall j :: 0 <= j < |ts| && j != k ==> !Searches(ts[j].pattern, text)
    ensures ExplanationsOf(ts, text) == [ts[k].explanation]
    decreases k
  {
    assert forall j :: 0 <= j < |ts| - 1 ==> ts[1..][j] == ts[j + 1];
    if k == 0 {
      NoneFire(ts[1..], text);
    } else {
      OneFires(ts[1..], text, k - 1);
    }
  }
}

=== FILE: analysis.dfy ===
/** `cached_analyze_policy` (TermsBuster/modules/risk_analyzer.py) end to end: the combined
    text, the scoring loop, the two signals and the verdict, put together into the report. */
module Analysis {
  import opened Wrappers
  import opened Text
  import opened Patterns
  import opened RiskAnalyzer
  import opened RiskScoring
  import opened RiskSignals

  /** The text that is analysed: extracted and summarised text (a missing one counts as
      empty) joined by a space, then cleaned. */
  function CombinedText(extracted: Option<string>, summarized: Option<string>): (t: string)
    ensures IsCleaned(t)
  {
    CleanText(extracted.GetOr("") + " " + summarized.GetOr(""))
  }

  /** Python's `round(x, 1)` on an exact value: the nearest multiple of 0.1, a tie going to
      the even tenth. */
  function RoundTenth(x: real): (r: real)
    ensures (r * 10.0).Floor as real == r * 10.0
    ensures x - 0.05 <= r <= x + 0.05
    ensures (x - 0.05 < r < x + 0.05) || (r * 10.0).Floor % 2 == 0
  {
    var y := x * 10.0;
    var f := y.Floor;
    var n := if y - f as real < 0.5 then f
             else if y - f as real > 0.5 then f + 1
             else if f % 2 == 0 then f
             else f + 1;
    n as real / 10.0
  }

  /** No multiple of 0.1 lies nearer to `x` than its rounding. */
  lemma RoundTenthNearest(x: real, m: int)
    ensures var r := RoundTenth(x);
      (if r >= x then r - x else x - r) <= (if m as real / 10.0 >= x then m as real / 10.0 - x else x - m as real / 10.0)
  {
    var r := RoundTenth(x);
    var n := (r * 10.0).Floor;
    assert r == n as real / 10.0;
    if m < n {
      assert m as real / 10.0 <= r - 0.1;
    } else if m > n {
      assert m as real / 10.0 >= r + 0.1;
    }
  }

  /** Rounding keeps a density inside 0..100, since both ends are multiples of 0.1. */
  lemma RoundTenthInPercent(x: real)
    requires 0.0 <= x <= 100.0
    ensures 0.0 <= RoundTenth(x) <= 100.0
  {
    var r := RoundTenth(x);
    var n := (r * 10.0).Floor;
    assert r == n as real / 10.0;
    assert n as real >= -0.5 && n as real <= 1000.5;
  }

  /** The result dictionary; the density is reported rounded to one decimal. */
  datatype Report = Report(
    totalScore: int,
    level: RiskLevel,
    confidence: int,
    density: real,
    phrases: seq<string>,
    matches: seq<TierResult>)

  /** The analysis: score the lexicon against the combined text, measure the density, rank
      the phrases, then grade. `vocabulary` and `rank` stand for the TF-IDF vectoriser and
      PageRank. */
  function AnalyzePolicy(extracted: Option<string>, summarized: Option<string>, lex: Lexicon, safe: set<string>,
                         vocabulary: seq<string> -> Option<seq<string>>, rank: seq<Edge> -> Option<seq<nat>>): (r: Report)
    ensures var text := CombinedText(extracted, summarized);
      r.level == VeryHighRisk <==>
        && r.totalScore >= 200
        && exists i :: 0 <= i < |lex| && MapLevelSeverity(lex[i].name) == VeryHigh && TierMatched(text, safe, lex[i].items) > 0
    ensures r.level == HighRisk <==> r.totalScore >= 160 && r.level != VeryHighRisk
    ensures r.level == ModerateRisk <==> 100 <= r.totalScore < 160
    ensures r.level == LowRisk <==> 50 <= r.totalScore < 100
    ensures r.level == MinimalRisk <==> 1 <= r.totalScore <= 20
    ensures r.level == NoRiskDetected <==> r.totalScore <= 0 || 21 <= r.totalScore <= 49
    ensures r.totalScore == TotalScoreOf(CombinedText(extracted, summarized), safe, lex)
    ensures r.level == RiskLevelFor(CountersOf(CombinedText(extracted, summarized), safe, lex).Get(VeryHigh), r.totalScore)
    ensures |r.matches| == |lex| && forall i :: 0 <= i < |lex| ==>
      r.matches[i] == TierResult(lex[i].name, TierEntries(CombinedText(extracted, summarized), safe, lex[i].items))
    ensures 0.0 <= r.density <= 100.0
    ensures r.density == RoundTenth(TfidfDensity(CombinedText(extracted, summarized), lex, vocabulary))
    ensures r.confidence == Confidence(r.totalScore, TfidfDensity(CombinedText(extracted, summarized), lex, vocabulary))
    ensures r.confidence <= 95 && (r.totalScore >= 0 ==> r.confidence >= 50)
    ensures |r.phrases| <= DefaultMaxPhrases
    ensures r.phrases == TextRankPhrases(CombinedText(extracted, summarized), DefaultMaxPhrases, rank)
  {
    var text := CombinedText(extracted, summarized);
    var scores := ScoreLexicon(text, safe, lex);
    CountersSpec(text, safe, lex, VeryHigh);
    var density := TfidfDensity(text, lex, vocabulary);
    var phrases := TextRankPhrases(text, DefaultMaxPhrases, rank);
    RoundTenthInPercent(density);
    Report(scores.total,
           RiskLevelFor(scores.counters.Get(VeryHigh), scores.total),
           Confidence(scores.total, density),
           RoundTenth(density),
           phrases,
           scores.matches)
  }

  /** A tier whose items all produce nothing adds nothing. */
  lemma {:induction false} NoOutcomes(os: seq<Option<Entry>>)
    requires forall i :: 0 <= i < |os| ==> os[i].None?
    ensures TotalOf(os) == 0 && MatchedOf(os) == 0 && EntriesOf(os) == []
    decreases |os|
  {
    if os != [] {
      NoOutcomes(os[..|os| - 1]);
    }
  }

  /** Nothing matches in the empty text. */
  lemma EmptyTextTier(safe: set<string>, items: seq<Item>)
    ensures TierTotal("", safe, items) == 0 && TierMatched("", safe, items) == 0 && TierEntries("", safe, items) == []
  {
    var os := Outcomes("", safe, items);
    forall i | 0 <= i < |os| ensures os[i].None? {
      var kw := CleanText(items[i].keyword);
      var occs := DetectMatches("", kw);
      if kw != [] && |occs| > 0 {
        assert false;
      }
    }
    NoOutcomes(os);
  }

  lemma {:induction false} EmptyTextScores(safe: set<string>, lex: Lexicon)
    ensures TotalScoreOf("", safe, lex) == 0
    ensures forall i :: 0 <= i < |lex| ==> TierEntries("", safe, lex[i].items) == []
    decreases |lex|
  {
    if lex != [] {
      EmptyTextScores(safe, lex[..|lex| - 1]);
      EmptyTextTier(safe, lex[|lex| - 1].items);
      forall i | 0 <= i < |lex| ensures TierEntries("", safe, lex[i].items) == [] {
        EmptyTextTier(safe, lex[i].items);
      }
    }
  }

  /** With no text at all the report is empty: score 0, "No Risk Detected", confidence 50,
      density 0, no phrases and an empty dictionary for every tier. */
  lemma EmptyPolicy(lex: Lexicon, safe: set<string>,
                    vocabulary: seq<string> -> Option<seq<string>>, rank: seq<Edge> -> Option<seq<nat>>)
    ensures var r := AnalyzePolicy(None, None, lex, safe, vocabulary, rank);
      && r.totalScore == 0
      && r.level == NoRiskDetected
      && r.confidence == 50
      && r.density == 0.0
      && r.phrases == []
      && forall i :: 0 <= i < |r.matches| ==> r.matches[i].entries == []
  {
    NothingCombined();
    NoQualifyingSentences();
    EmptyTextScores(safe, lex);
    NoScoreConfidence();
    ZeroRounds();
  }

  lemma NothingCombined()
    ensures CombinedText(None, None) == []
  {
    assert "" + " " + "" == " ";
    BlankCleansToEmpty(" ");
  }

  /** Whitespace alone cleans to the empty text. */
  lemma BlankCleansToEmpty(t: string)
    requires forall i :: 0 <= i < |t| ==> IsSpace(t[i])
    ensures CleanText(t) == []
  {
    var l := Lower(t);
    forall i | 0 <= i < |l| ensures IsSpace(l[i]) {
      LowerCharKeepsClass(t[i]);
    }
    var c := Collapse(l);
    if l != [] {
      assert StripLeft(l) == [];
      assert c == " " + Collapse([]);
    }
    assert forall i :: 0 <= i < |c| ==> IsSpace(c[i]);
  }

  lemma NoQualifyingSentences()
    ensures QualifyingSentences([]) == []
  {
    assert Segments([]) == [""];
    assert Strips([""]) == [""];
  }

  lemma ZeroRounds()
    ensures RoundTenth(0.0) == 0.0
  {
    assert (0.0 * 10.0).Floor == 0;
  }

  lemma NoScoreConfidence()
    ensures Confidence(0, 0.0) == 50
  {
    assert Trunc(0 as real * 0.2 + 0.0 * 0.3) == 0;
  }
}

=== FILE: app_advice.dfy ===
/** `dynamic_user_advice` (TermsBuster/app.py): the one-line advice the page shows under the
    verdict. */
module AppAdvice {
  import opened Wrappers
  import opened Text
  import opened RiskScoring
  import opened Exporter

  /** The four sentences, byte for byte as the page shows them (the first two carry the
      mis-decoded characters of a warning sign and a dash). */
  const HeadsUp := "\U{201A}\U{F6}\U{2020}\U{D4}\U{220F}\U{E8} Heads up: This policy may put your privacy at risk. Limit what you share and double-check the settings!"
  const SomeRisks := "This policy has some risks. Review what you're approving\U{201A}\U{C4}\U{EE}especially sharing, profiling, and tracking options."
  const GoodNews := "Good news: Most risks are low. Still, check privacy options and keep an eye on future updates."
  const NoMajorRisk := "No major risk detected. You can proceed, but it's wise to stay informed about any changes."

  /** The page's sentence for each rung of the reports' ladder: the two most severe rungs
      share the warning. */
  function AppText(a: Advice): string {
    match a
    case VeryHighAdvice => HeadsUp
    case HighAdvice => HeadsUp
    case ModerateAdvice => SomeRisks
    case LowAdvice => GoodNews
    case NoMajorAdvice => NoMajorRisk
  }

  /** `dynamic_user_advice`: the warning when the lower-cased level names "high" or the score
      reaches 160, then "moderate" or 120, then "low" or 50, else the all-clear. */
  function DynamicUserAdvice(riskLevel: string, totalScore: int): (r: string)
    ensures r == AppText(AdviceTier(Some(riskLevel), Some(totalScore)))
  {
    var lev := Lower(riskLevel);
    LadderIsRung(lev, totalScore);
    VeryHighHasHigh(lev);
    if Contains(lev, "high") || totalScore >= 160 then HeadsUp
    else if Contains(lev, "moderate") || totalScore >= 120 then SomeRisks
    else if Contains(lev, "low") || totalScore >= 50 then GoodNews
    else NoMajorRisk
  }

  /** The page and the reports agree: the page warns exactly when the reports give one of
      the two most severe recommendations, and otherwise gives the same rung. */
  lemma PageAgreesWithReports(riskLevel: string, totalScore: int)
    ensures var a := AdviceTier(Some(riskLevel), Some(totalScore));
      var r := DynamicUserAdvice(riskLevel, totalScore);
      && (r == HeadsUp <==> a == VeryHighAdvice || a == HighAdvice)
      && (r == SomeRisks <==> a == ModerateAdvice)
      && (r == GoodNews <==> a == LowAdvice)
      && (r == NoMajorRisk <==> a == NoMajorAdvice)
  {
    DistinctAdvice();
  }

  lemma DistinctAdvice()
    ensures HeadsUp != SomeRisks && HeadsUp != GoodNews && HeadsUp != NoMajorRisk
    ensures SomeRisks != GoodNews && SomeRisks != NoMajorRisk && GoodNews != NoMajorRisk
  {
    assert |HeadsUp| == 110 && |SomeRisks| == 111 && |GoodNews| == 94 && |NoMajorRisk| == 90;
  }

  /** For the analyser's own verdict the page warns on "Very High Risk" and "High Risk",
      and gives the level's own sentence otherwise, whatever the score within its band. */
  lemma PageAdviceForVerdict(veryHighCount: nat, score: int)
    ensures var l := RiskLevelFor(veryHighCount, score);
      var r := DynamicUserAdvice(l.Label(), score);
      && (r == HeadsUp <==> l == VeryHighRisk || l == HighRisk)
      && (r == SomeRisks <==> l == ModerateRisk)
      && (r == GoodNews <==> l == LowRisk)
      && (r == NoMajorRisk <==> l == MinimalRisk || l == NoRiskDetected)
  {
    AdviceForVerdict(veryHighCount, score);
    DistinctAdvice();
  }
}

=== FILE: exporter.dfy ===
/** The pieces of the report exporter (TermsBuster/modules/exporter.py) that decide what is
    drawn: the greedy line breaker, the colour of a tier and the two recommendation ladders.
    The drawing itself is left out; the text measure is a parameter. */
module Exporter {
  import opened Wrappers
  import opened Text
  import opened RiskScoring

  // ---------------------------------------------------------------------------------------
  // Line breaking
  // ---------------------------------------------------------------------------------------

  /** Every element is a word of `str.split()`. */
  predicate AllWords(ws: seq<string>) {
    forall k :: 0 <= k < |ws| ==> IsWord(ws[k])
  }

  /** The groups of words, one after the other. */
  function Flatten(gs: seq<seq<string>>): seq<string>
    decreases |gs|
  {
    if gs == [] then [] else Flatten(gs[..|gs| - 1]) + gs[|gs| - 1]
  }

  /** The words of the lines, in order: what splitting every line gives back. */
  function WordsOf(lines: seq<string>): seq<string>
    decreases |lines|
  {
    if lines == [] then [] else WordsOf(lines[..|lines| - 1]) + SplitWords(lines[|lines| - 1])
  }

  /** Each line is a non-empty group of words joined by single spaces. */
  predicate Packed(lines: seq<string>, groups: seq<seq<string>>) {
    |lines| == |groups| &&
    forall k :: 0 <= k < |groups| ==> groups[k] != [] && AllWords(groups[k]) && lines[k] == Join(" ", groups[k])
  }

  /** The measure accepted every test line the group was built from: each prefix of two or
      more of its words. A one-word line is kept whatever its measure. */
  predicate Fits(width: string -> int, maxWidth: int, g: seq<string>) {
    forall j :: 2 <= j <= |g| ==> width(Join(" ", g[..j])) <= maxWidth
  }

  /** A group that fits is one word, or its whole line is within the measure. */
  lemma FitsWhole(width: string -> int, maxWidth: int, g: seq<string>)
    requires Fits(width, maxWidth, g)
    ensures |g| <= 1 || width(Join(" ", g)) <= maxWidth
  {
    assert g[..|g|] == g;
  }

  /** The first word of the next group did not fit after the group. */
  predicate Overflows(width: string -> int, maxWidth: int, g: seq<string>, next: seq<string>) {
    next != [] && width(Join(" ", g + [next[0]])) > maxWidth
  }

  lemma {:induction false} PackedWords(lines: seq<string>, groups: seq<seq<string>>)
    requires Packed(lines, groups)
    ensures WordsOf(lines) == Flatten(groups)
    decreases |lines|
  {
    if lines != [] {
      var n := |lines| - 1;
      assert Packed(lines[..n], groups[..n]);
      PackedWords(lines[..n], groups[..n]);
      SplitJoin(groups[n]);
    }
  }

  /** A word list is never split inside a word, so joining a non-empty one gives a non-empty
      line. */
  lemma JoinNonEmpty(g: seq<string>)
    requires g != [] && AllWords(g)
    ensures Join(" ", g) != []
  {
    SplitJoin(g);
  }

  /** The lines closed so far, the open line and what the loop knows about them after `i`
      words: the words are all accounted for, and the measure was respected. */
  predicate WrapState(words: seq<string>, i: int, lines: seq<string>, groups: seq<seq<string>>, current: seq<string>,
                      width: string -> int, maxWidth: int)
  {
    Consumed(words, i, lines, groups, current) && Measured(groups, current, width, maxWidth)
  }

  /** The first `i` words are in the closed lines and the open line, in order. */
  predicate Consumed(words: seq<string>, i: int, lines: seq<string>, groups: seq<seq<string>>, current: seq<string>) {
    && 0 <= i <= |words|
    && |lines| <= i
    && Packed(lines, groups)
    && Flatten(groups) + current == words[..i]
    && AllWords(current)
    && (i > 0 ==> current != [])
  }

  /** Every line fits or is one word, and each closed line was closed because the next word
      overflowed it. */
  predicate Measured(groups: seq<seq<string>>, current: seq<string>, width: string -> int, maxWidth: int) {
    && (forall k :: 0 <= k < |groups| ==> Fits(width, maxWidth, groups[k]))
    && Fits(width, maxWidth, current)
    && (forall k :: 0 <= k < |groups| - 1 ==> Overflows(width, maxWidth, groups[k], groups[k + 1]))
    && (groups != [] ==> Overflows(width, maxWidth, groups[|groups| - 1], current))
  }

  /** The open line plus the next word still fits: the word joins the open line. */
  lemma AcceptWord(words: seq<string>, i: nat, lines: seq<string>, groups: seq<seq<string>>, current: seq<string>,
                   width: string -> int, maxWidth: int)
    requires WrapState(words, i, lines, groups, current, width, maxWidth) && i < |words| && AllWords(words)
    requires width(Join(" ", current + [words[i]])) <= maxWidth
    ensures WrapState(words, i + 1, lines, groups, current + [words[i]], width, maxWidth)
  {
    assert words[..i + 1] == words[..i] + [words[i]];
    assert current != [] ==> (current + [words[i]])[0] == current[0];
    var g := current + [words[i]];
    forall j | 2 <= j <= |g| ensures width(Join(" ", g[..j])) <= maxWidth {
      if j <= |current| {
        assert g[..j] == current[..j];
      } else {
        assert g[..j] == g;
      }
    }
  }

  /** Closing a non-empty open line adds it, joined, as the last line. */
  lemma CloseLine(lines: seq<string>, groups: seq<seq<string>>, current: seq<string>)
    requires Packed(lines, groups) && current != [] && AllWords(current)
    ensures Packed(lines + [Join(" ", current)], groups + [current])
    ensures Flatten(groups + [current]) == Flatten(groups) + current
  {
    assert (groups + [current])[..|groups|] == groups;
  }

  /** The next word does not fit and no line is open: the word opens one. */
  lemma RejectIntoEmpty(words: seq<string>, i: nat, lines: seq<string>, groups: seq<seq<string>>,
                        width: string -> int, maxWidth: int)
    requires WrapState(words, i, lines, groups, [], width, maxWidth) && i < |words| && AllWords(words)
    ensures WrapState(words, i + 1, lines, groups, [words[i]], width, maxWidth)
  {
    assert words[..i + 1] == words[..i] + [words[i]];
  }

  /** The next word does not fit after the open line: the line is closed and the word opens
      the next. */
  lemma RejectWord(words: seq<string>, i: nat, lines: seq<string>, groups: seq<seq<string>>, current: seq<string>,
                   width: string -> int, maxWidth: int)
    requires WrapState(words, i, lines, groups, current, width, maxWidth) && i < |words| && AllWords(words)
    requires current != [] && width(Join(" ", current + [words[i]])) > maxWidth
    ensures WrapState(words, i + 1, lines + [Join(" ", current)], groups + [current], [words[i]], width, maxWidth)
  {
    assert words[..i + 1] == words[..i] + [words[i]];
    CloseLine(lines, groups, current);
    var gs := groups + [current];
    assert Flatten(gs) + [words[i]] == words[..i + 1];
    assert gs[|gs| - 1] == current;
    assert Overflows(width, maxWidth, gs[|gs| - 1], [words[i]]);
    ChainExtends(groups, current, width, maxWidth);
  }

  /** Appending a group that the last one overflows into keeps the chain of overflows. */
  lemma ChainExtends(groups: seq<seq<string>>, current: seq<string>, width: string -> int, maxWidth: int)
    requires forall k :: 0 <= k < |groups| - 1 ==> Overflows(width, maxWidth, groups[k], groups[k + 1])
    requires groups != [] ==> Overflows(width, maxWidth, groups[|groups| - 1], current)
    ensures var gs := groups + [current];
      forall k :: 0 <= k < |gs| - 1 ==> Overflows(width, maxWidth, gs[k], gs[k + 1])
  {
    var gs := groups + [current];
    forall k | 0 <= k < |gs| - 1 ensures Overflows(width, maxWidth, gs[k], gs[k + 1]) {
      if k == |gs| - 2 {
        assert gs[k] == groups[|groups| - 1] && gs[k + 1] == current;
      } else {
        assert gs[k] == groups[k] && gs[k + 1] == groups[k + 1];
      }
    }
  }

  /** Closing keeps every line within the measure or a single word. */
  lemma FitsExtend(groups: seq<seq<string>>, current: seq<string>, width: string -> int, maxWidth: int)
    requires forall k :: 0 <= k < |groups| ==> Fits(width, maxWidth, groups[k])
    requires Fits(width, maxWidth, current)
    ensures var gs := groups + [current];
      forall k :: 0 <= k < |gs| ==> Fits(width, maxWidth, gs[k])
  {
    var gs := groups + [current];
    forall k | 0 <= k < |gs| ensures Fits(width, maxWidth, gs[k]) {
      if k < |groups| {
        assert gs[k] == groups[k];
      }
    }
  }

  /** After the last word the open line, if any, is closed. */
  lemma FinishLines(words: seq<string>, lines: seq<string>, groups: seq<seq<string>>, current: seq<string>,
                    width: string -> int, maxWidth: int)
    requires WrapState(words, |words|, lines, groups, current, width, maxWidth)
    ensures var lines' := if current != [] then lines + [Join(" ", current)] else lines;
      var groups' := if current != [] then groups + [current] else groups;
      && Packed(lines', groups')
      && Flatten(groups') == words
      && (words == [] ==> lines' == [])
      && (forall k :: 0 <= k < |groups'| ==> Fits(width, maxWidth, groups'[k]))
      && (forall k :: 0 <= k < |groups'| - 1 ==> Overflows(width, maxWidth, groups'[k], groups'[k + 1]))
  {
    assert words[..|words|] == words;
    if current != [] {
      CloseLine(lines, groups, current);
      ChainExtends(groups, current, width, maxWidth);
      FitsExtend(groups, current, width, maxWidth);
    }
  }

  /** The first word of a line, or the empty string for a blank line. */
  function FirstWord(line: string): string {
    var ws := SplitWords(line);
    if ws == [] then "" else ws[0]
  }

  /** `wrap_text`: words are added to the current line while the measure of the line with the
      word stays within `maxWidth`; otherwise the current line is closed and the word starts
      the next. A word wider than `maxWidth` gets a line of its own. */
  method WrapText(text: Option<string>, width: string -> int, maxWidth: int) returns (lines: seq<string>)
    ensures SplitWords(text.GetOr("")) == [] ==> lines == []
    ensures forall k :: 0 <= k < |lines| ==> lines[k] != [] && SplitWords(lines[k]) != []
    ensures forall k :: 0 <= k < |lines| ==> |SplitWords(lines[k])| == 1 || width(lines[k]) <= maxWidth
    ensures forall k, j :: 0 <= k < |lines| && 2 <= j <= |SplitWords(lines[k])| ==>
      width(Join(" ", SplitWords(lines[k])[..j])) <= maxWidth
    ensures forall k :: 0 <= k < |lines| - 1 ==> width(lines[k] + " " + FirstWord(lines[k + 1])) > maxWidth
    ensures WordsOf(lines) == SplitWords(text.GetOr(""))
  {
    var t := text.GetOr("");
    if t == [] {
      return [];
    }
    var words := SplitWords(t);
    var open, current;
    ghost var groups;
    open, current, groups := BreakWords(words, width, maxWidth);
    lines := CloseLast(words, open, current, groups, width, maxWidth);
  }

  /** After the last word the open line, if any, is added. */
  method CloseLast(words: seq<string>, lines: seq<string>, current: seq<string>, ghost groups: seq<seq<string>>,
                   width: string -> int, maxWidth: int)
    returns (lines': seq<string>)
    requires WrapState(words, |words|, lines, groups, current, width, maxWidth)
    ensures words == [] ==> lines' == []
    ensures forall k :: 0 <= k < |lines'| ==> lines'[k] != [] && SplitWords(lines'[k]) != []
    ensures forall k :: 0 <= k < |lines'| ==> |SplitWords(lines'[k])| == 1 || width(lines'[k]) <= maxWidth
    ensures forall k, j :: 0 <= k < |lines'| && 2 <= j <= |SplitWords(lines'[k])| ==>
      width(Join(" ", SplitWords(lines'[k])[..j])) <= maxWidth
    ensures forall k :: 0 <= k < |lines'| - 1 ==> width(lines'[k] + " " + FirstWord(lines'[k + 1])) > maxWidth
    ensures WordsOf(lines') == words
  {
    FinishLines(words, lines, groups, current, width, maxWidth);
    ghost var groups' := groups;
    lines' := lines;
    if current != [] {
      lines' := lines + [Join(" ", current)];
      groups' := groups + [current];
    }
    WrapFacts(lines', groups', width, maxWidth);
  }

  /** The loop of `wrap_text` over the words, up to the last open line. */
  method BreakWords(words: seq<string>, width: string -> int, maxWidth: int)
    returns (lines: seq<string>, current: seq<string>, ghost groups: seq<seq<string>>)
    requires AllWords(words)
    ensures WrapState(words, |words|, lines, groups, current, width, maxWidth)
  {
    lines, current, groups := [], [], [];
    var i := 0;
    while i < |words|
      invariant WrapState(words, i, lines, groups, current, width, maxWidth)
    {
      lines, current, groups := PlaceWord(words, i, lines, current, groups, width, maxWidth);
      i := i + 1;
    }
  }

  /** One turn of the loop: the word joins the open line if the measure of the line with it
      stays within `maxWidth`; otherwise the open line, if any, is closed and the word opens
      the next. */
  method PlaceWord(words: seq<string>, i: nat, lines: seq<string>, current: seq<string>, ghost groups: seq<seq<string>>,
                   width: string -> int, maxWidth: int)
    returns (lines': seq<string>, current': seq<string>, ghost groups': seq<seq<string>>)
    requires WrapState(words, i, lines, groups, current, width, maxWidth) && i < |words| && AllWords(words)
    ensures WrapState(words, i + 1, lines', groups', current', width, maxWidth)
    ensures width(Join(" ", current + [words[i]])) <= maxWidth ==> lines' == lines && current' == current + [words[i]]
    ensures width(Join(" ", current + [words[i]])) > maxWidth ==>
      current' == [words[i]] && lines' == if current != [] then lines + [Join(" ", current)] else lines
  {
    var word := words[i];
    if width(Join(" ", current + [word])) <= maxWidth {
      AcceptWord(words, i, lines, groups, current, width, maxWidth);
      lines', current', groups' := lines, current + [word], groups;
    } else if current != [] {
      RejectWord(words, i, lines, groups, current, width, maxWidth);
      lines', current', groups' := lines + [Join(" ", current)], [word], groups + [current];
    } else {
      RejectIntoEmpty(words, i, lines, groups, width, maxWidth);
      lines', current', groups' := lines, [word], groups;
    }
  }

  /** What the loop's bookkeeping says about the lines themselves. */
  lemma WrapFacts(lines: seq<string>, groups: seq<seq<string>>, width: string -> int, maxWidth: int)
    requires Packed(lines, groups)
    requires forall k :: 0 <= k < |groups| ==> Fits(width, maxWidth, groups[k])
    requires forall k :: 0 <= k < |groups| - 1 ==> Overflows(width, maxWidth, groups[k], groups[k + 1])
    ensures WordsOf(lines) == Flatten(groups)
    ensures forall k :: 0 <= k < |lines| ==> lines[k] != [] && SplitWords(lines[k]) == groups[k]
    ensures forall k :: 0 <= k < |lines| ==> |SplitWords(lines[k])| == 1 || width(lines[k]) <= maxWidth
    ensures forall k, j :: 0 <= k < |lines| && 2 <= j <= |SplitWords(lines[k])| ==>
      width(Join(" ", SplitWords(lines[k])[..j])) <= maxWidth
    ensures forall k :: 0 <= k < |lines| - 1 ==> width(lines[k] + " " + FirstWord(lines[k + 1])) > maxWidth
  {
    PackedWords(lines, groups);
    forall k | 0 <= k < |lines| ensures lines[k] != [] && SplitWords(lines[k]) == groups[k] {
      SplitJoin(groups[k]);
      JoinNonEmpty(groups[k]);
    }
    forall k | 0 <= k < |lines| ensures |SplitWords(lines[k])| == 1 || width(lines[k]) <= maxWidth {
      FitsWhole(width, maxWidth, groups[k]);
    }
    forall k | 0 <= k < |lines| - 1 ensures width(lines[k] + " " + FirstWord(lines[k + 1])) > maxWidth {
      JoinSnoc(" ", groups[k], groups[k + 1][0]);
    }
  }

  // ---------------------------------------------------------------------------------------
  // Tier colours
  // ---------------------------------------------------------------------------------------

  const Red := "#ff4444"
  const Orange := "#ff8844"
  const Yellow := "#ffbb33"
  const Green := "#44ff88"

  /** `get_risk_color`: the colour a tier key is drawn in, by the first of "very_high",
      "high" and "moderate" its lower-cased form contains; green otherwise. A missing key
      reads as empty. */
  function GetRiskColor(levelKey: Option<string>): (c: string)
    ensures var k := Lower(levelKey.GetOr(""));
      && (c == Red <==> Contains(k, "very_high"))
      && (c == Orange <==> !Contains(k, "very_high") && Contains(k, "high"))
      && (c == Yellow <==> !Contains(k, "very_high") && !Contains(k, "high") && Contains(k, "moderate"))
      && (c == Green <==> !Contains(k, "very_high") && !Contains(k, "high") && !Contains(k, "moderate"))
  {
    var k := Lower(levelKey.GetOr(""));
    if Contains(k, "very_high") then Red
    else if Contains(k, "high") then Orange
    else if Contains(k, "moderate") then Yellow
    else Green
  }

  /** Away from the "critical" and "medium" spellings the colour of a key follows the
      severity the analyser counts it under: red for very high, orange for high, yellow for a
      key that names "moderate", green for low and minimal. */
  lemma ColorFollowsSeverity(key: string)
    requires !Contains(Lower(key), "critical")
    ensures var c := GetRiskColor(Some(key));
      var sev := MapLevelSeverity(key);
      && (c == Red <==> sev == VeryHigh)
      && (c == Orange <==> sev == High)
      && (c == Yellow ==> sev == Moderate)
      && (sev == Low || sev == Minimal ==> c == Green)
  {
  }

  /** A "critical" tier is counted as very high but drawn in green. */
  lemma CriticalKeyColor(key: string)
    requires key == "critical"
    ensures MapLevelSeverity(key) == VeryHigh && GetRiskColor(Some(key)) == Green
  {
    LowerOfLower(key);
    assert OccursAt(key, "critical", 0);
    NotContainsMissingChar(key, "very_high", 0);
    NotContainsMissingChar(key, "high", 0);
    NotContainsMissingChar(key, "moderate", 0);
  }

  // ---------------------------------------------------------------------------------------
  // Recommendations
  // ---------------------------------------------------------------------------------------

  /** The five rungs of the recommendation ladder, most severe first. */
  datatype Advice = VeryHighAdvice | HighAdvice | ModerateAdvice | LowAdvice | NoMajorAdvice {
    /** 4 for the most severe rung down to 0. */
    function Rank(): nat {
      match this
      case VeryHighAdvice => 4
      case HighAdvice => 3
      case ModerateAdvice => 2
      case LowAdvice => 1
      case NoMajorAdvice => 0
    }
  }

  /** The rung a level and a score reach: the level text's own rung, found by the words it
      contains, or the rung of the score band, whichever is more severe. */
  function AdviceTier(riskLevel: Option<string>, totalScore: Option<int>): (a: Advice)
  {
    var byText := LevelTextRung(Lower(riskLevel.GetOr("")));
    var byScore := ScoreRung(totalScore.GetOr(0));
    if byText.Rank() >= byScore.Rank() then byText else byScore
  }

  /** The most severe rung whose words occur in the lower-cased level text. */
  function LevelTextRung(lev: string): Advice {
    if Contains(lev, "very high") then VeryHighAdvice
    else if Contains(lev, "high") then HighAdvice
    else if Contains(lev, "moderate") then ModerateAdvice
    else if Contains(lev, "low") then LowAdvice
    else NoMajorAdvice
  }

  /** The rung of the score band: 180, 160, 120 and 50 are the thresholds. */
  function ScoreRung(score: int): Advice {
    if score >= 180 then VeryHighAdvice
    else if score >= 160 then HighAdvice
    else if score >= 120 then ModerateAdvice
    else if score >= 50 then LowAdvice
    else NoMajorAdvice
  }

  const PdfVeryHigh := "Recommendation: Very high privacy risk. Avoid using this service for any sensitive or personal data."
  const PdfHigh := "Recommendation: High privacy risk. Do not share highly sensitive data such as ID numbers, bank details, or health information."
  const PdfModerate := "Recommendation: Moderate risk. Review settings, limit optional data sharing, and disable personalised ads if possible."
  const PdfLow := "Recommendation: Low risk. Basic practices are acceptable, but still review permissions before sharing extra data."
  const PdfNoMajor := "Recommendation: No major risk detected, but read important sections before sharing personal information."

  const ImageVeryHigh := "Very high risk: avoid using this service for any sensitive or personal data."
  const ImageHigh := "High risk: do not share ID numbers, bank details, or health data."
  const ImageModerate := "Moderate risk: review settings and limit optional data sharing."
  const ImageLow := "Low risk: still review permissions before sharing extra data."
  const ImageNoMajor := "No major risk: stay informed and watch for future policy changes."

  /** The PDF report's sentence for each rung. */
  function PdfText(a: Advice): string {
    match a
    case VeryHighAdvice => PdfVeryHigh
    case HighAdvice => PdfHigh
    case ModerateAdvice => PdfModerate
    case LowAdvice => PdfLow
    case NoMajorAdvice => PdfNoMajor
  }

  /** The image report's sentence for each rung. */
  function ImageText(a: Advice): string {
    match a
    case VeryHighAdvice => ImageVeryHigh
    case HighAdvice => ImageHigh
    case ModerateAdvice => ImageModerate
    case LowAdvice => ImageLow
    case NoMajorAdvice => ImageNoMajor
  }

  /** The recommendation of the PDF report: the first rung whose words occur in the
      lower-cased level or whose threshold the score reaches. A missing level reads as empty,
      a missing score as 0. */
  function PdfRecommendation(riskLevel: Option<string>, totalScore: Option<int>): (r: string)
    ensures r == PdfText(AdviceTier(riskLevel, totalScore))
  {
    var lev := Lower(riskLevel.GetOr(""));
    var ts := totalScore.GetOr(0);
    LadderIsRung(lev, ts);
    if Contains(lev, "very high") || ts >= 180 then PdfVeryHigh
    else if Contains(lev, "high") || ts >= 160 then PdfHigh
    else if Contains(lev, "moderate") || ts >= 120 then PdfModerate
    else if Contains(lev, "low") || ts >= 50 then PdfLow
    else PdfNoMajor
  }

  /** The recommendation drawn at the foot of the image report, by the same ladder. */
  function ImageRecommendation(riskLevel: Option<string>, totalScore: Option<int>): (r: string)
    ensures r == ImageText(AdviceTier(riskLevel, totalScore))
  {
    var lev := Lower(riskLevel.GetOr(""));
    var ts := totalScore.GetOr(0);
    LadderIsRung(lev, ts);
    if Contains(lev, "very high") || ts >= 180 then ImageVeryHigh
    else if Contains(lev, "high") || ts >= 160 then ImageHigh
    else if Contains(lev, "moderate") || ts >= 120 then ImageModerate
    else if Contains(lev, "low") || ts >= 50 then ImageLow
    else ImageNoMajor
  }

  /** The first-match ladder picks the more severe of the text's rung and the score's. */
  lemma LadderIsRung(lev: string, ts: int)
    ensures var a := if LevelTextRung(lev).Rank() >= ScoreRung(ts).Rank() then LevelTextRung(lev) else ScoreRung(ts);
      && (a == VeryHighAdvice <==> Contains(lev, "very high") || ts >= 180)
      && (a == HighAdvice <==> !(Contains(lev, "very high") || ts >= 180) && (Contains(lev, "high") || ts >= 160))
      && (a == ModerateAdvice <==>
            && !(Contains(lev, "very high") || ts >= 180) && !(Contains(lev, "high") || ts >= 160)
            && (Contains(lev, "moderate") || ts >= 120))
      && (a == LowAdvice <==>
            && !(Contains(lev, "very high") || ts >= 180) && !(Contains(lev, "high") || ts >= 160)
            && !(Contains(lev, "moderate") || ts >= 120) && (Contains(lev, "low") || ts >= 50))
  {
  }

  /** A higher score never gets a milder recommendation. */
  lemma AdviceMonotone(riskLevel: Option<string>, s1: int, s2: int)
    requires s1 <= s2
    ensures AdviceTier(riskLevel, Some(s1)).Rank() <= AdviceTier(riskLevel, Some(s2)).Rank()
  {
  }

  /** "very high" contains "high". */
  lemma VeryHighHasHigh(s: string)
    ensures Contains(s, "very high") ==> Contains(s, "high")
  {
    if Contains(s, "very high") {
      var i :| 0 <= i <= |s| - 9 && OccursAt(s, "very high", i);
      assert s[i + 5..i + 9] == s[i..i + 9][5..9];
      assert OccursAt(s, "high", i + 5);
    }
  }

  /** What the reports recommend for the analyser's own verdict: the rung of the level,
      except that a "High Risk" verdict scoring 180 or more is told the very high advice. */
  lemma AdviceForVerdict(veryHighCount: nat, score: int)
    ensures var l := RiskLevelFor(veryHighCount, score);
      var a := AdviceTier(Some(l.Label()), Some(score));
      && (l == VeryHighRisk ==> a == VeryHighAdvice)
      && (l == HighRisk ==> a == (if score >= 180 then VeryHighAdvice else HighAdvice))
      && (l == ModerateRisk ==> a == ModerateAdvice)
      && (l == LowRisk ==> a == LowAdvice)
      && (l == MinimalRisk || l == NoRiskDetected ==> a == NoMajorAdvice)
  {
    var l := RiskLevelFor(veryHighCount, score);
    var lev := Lower(l.Label());
    match l
    case VeryHighRisk => VeryHighLabelRung(l.Label());
    case HighRisk => HighLabelRung(l.Label());
    case ModerateRisk => ModerateLabelRung(l.Label());
    case LowRisk => LowLabelRung(l.Label());
    case MinimalRisk => MinimalLabelRung(l.Label());
    case NoRiskDetected => NoRiskLabelRung(l.Label());
  }

  lemma VeryHighLabelRung(s: string)
    requires s == "Very High Risk"
    ensures LevelTextRung(Lower(s)) == VeryHighAdvice
  {
    var lev := Lower(s);
    assert lev[..9] == "very high";
    assert OccursAt(lev, "very high", 0);
  }

  lemma HighLabelRung(s: string)
    requires s == "High Risk"
    ensures LevelTextRung(Lower(s)) == HighAdvice
  {
    var lev := Lower(s);
    assert lev[..4] == "high";
    assert OccursAt(lev, "high", 0);
    assert 'v' !in lev by { LetterMissing(s, 'v', 'V'); }
    NotContainsMissingChar(lev, "very high", 0);
  }

  lemma ModerateLabelRung(s: string)
    requires s == "Moderate Risk"
    ensures LevelTextRung(Lower(s)) == ModerateAdvice
  {
    var lev := Lower(s);
    assert lev[..8] == "moderate";
    assert OccursAt(lev, "moderate", 0);
    assert 'h' !in lev by { LetterMissing(s, 'h', 'H'); }
    NotContainsMissingChar(lev, "very high", 5);
    NotContainsMissingChar(lev, "high", 0);
  }

  lemma LowLabelRung(s: string)
    requires s == "Low Risk"
    ensures LevelTextRung(Lower(s)) == LowAdvice
  {
    var lev := Lower(s);
    assert lev[..3] == "low";
    assert OccursAt(lev, "low", 0);
    assert 'h' !in lev by { LetterMissing(s, 'h', 'H'); }
    assert 'm' !in lev by { LetterMissing(s, 'm', 'M'); }
    NotContainsMissingChar(lev, "very high", 5);
    NotContainsMissingChar(lev, "high", 0);
    NotContainsMissingChar(lev, "moderate", 0);
  }

  lemma MinimalLabelRung(s: string)
    requires s == "Minimal Risk"
    ensures LevelTextRung(Lower(s)) == NoMajorAdvice
  {
    var lev := Lower(s);
    assert 'h' !in lev by { LetterMissing(s, 'h', 'H'); }
    assert 'o' !in lev by { LetterMissing(s, 'o', 'O'); }
    NotContainsMissingChar(lev, "very high", 5);
    NotContainsMissingChar(lev, "high", 0);
    NotContainsMissingChar(lev, "moderate", 1);
    NotContainsMissingChar(lev, "low", 1);
  }

  lemma NoRiskLabelRung(s: string)
    requires s == "No Risk Detected"
    ensures LevelTextRung(Lower(s)) == NoMajorAdvice
  {
    var lev := Lower(s);
    assert 'h' !in lev by { LetterMissing(s, 'h', 'H'); }
    assert 'm' !in lev by { LetterMissing(s, 'm', 'M'); }
    assert 'l' !in lev by { LetterMissing(s, 'l', 'L'); }
    NotContainsMissingChar(lev, "very high", 5);
    NotContainsMissingChar(lev, "high", 0);
    NotContainsMissingChar(lev, "moderate", 0);
    NotContainsMissingChar(lev, "low", 0);
  }

  /** A lower-case letter is missing from the lower-cased text when neither case of it occurs
      in the text. */
  lemma LetterMissing(s: string, lower: char, upper: char)
    requires 'a' <= lower <= 'z' && upper as int == lower as int - 32
    requires lower !in s && upper !in s
    ensures lower !in Lower(s)
  {
  }
}

=== FILE: patterns.dfy ===
/** The two regular-expression shapes the analyzer relies on, written out as functions:
    a word-bounded literal searched case-insensitively (`\b<keyword>\b` with IGNORECASE),
    and the sentence split on `(?<=[.?!])\s+`. */
module Patterns {
  import opened Text
  import opened Wrappers

  /** Index `i` holds a word character (out-of-range indices hold none). */
  predicate WordAt(t: string, i: int) {
    0 <= i < |t| && IsWordChar(t[i])
  }

  /** The zero-width assertion `\b` at position `p`: word-ness changes across `p`,
      with both ends of the string counting as non-word. */
  predicate Boundary(t: string, p: int) {
    WordAt(t, p - 1) != WordAt(t, p)
  }

  /** `a` and `b` agree letter by letter once both are lower-cased. */
  predicate SameIgnoringCase(a: string, b: string)
    decreases |a|
  {
    |a| == |b| && (a == [] || (LowerChar(a[0]) == LowerChar(b[0]) && SameIgnoringCase(a[1..], b[1..])))
  }

  lemma {:induction false} SameIgnoringCaseLower(a: string, b: string)
    ensures SameIgnoringCase(a, b) <==> Lower(a) == Lower(b)
    decreases |a|
  {
    if |a| == |b| && a != [] {
      SameIgnoringCaseLower(a[1..], b[1..]);
      assert a == [a[0]] + a[1..];
      assert b == [b[0]] + b[1..];
      LowerConcat([a[0]], a[1..]);
      LowerConcat([b[0]], b[1..]);
      if Lower(a) == Lower(b) {
        assert Lower(a)[0] == Lower(b)[0];
        assert Lower(a)[1..] == Lower(b)[1..];
      }
    }
  }

  /** `t[p:p+len(kw)]` equals `kw` ignoring ASCII case. */
  predicate EqualsIgnoreCaseAt(t: string, kw: string, p: int) {
    0 <= p && p + |kw| <= |t| && SameIgnoringCase(t[p..p + |kw|], kw)
  }

  lemma EqualsIgnoreCaseAtLower(t: string, kw: string, p: int)
    ensures EqualsIgnoreCaseAt(t, kw, p) <==> 0 <= p && p + |kw| <= |t| && Lower(t[p..p + |kw|]) == Lower(kw)
  {
    if 0 <= p && p + |kw| <= |t| {
      SameIgnoringCaseLower(t[p..p + |kw|], kw);
    }
  }

  /** The pattern `\b` + re.escape(kw) + `\b`, compiled with IGNORECASE, matches at `p`. */
  predicate MatchAt(t: string, kw: string, p: int) {
    EqualsIgnoreCaseAt(t, kw, p) && Boundary(t, p) && Boundary(t, p + |kw|)
  }

  /** `re.search` of that pattern succeeds somewhere in `t`. */
  predicate Occurs(t: string, kw: string) {
    exists p | 0 <= p <= |t| :: MatchAt(t, kw, p)
  }

  /** A half-open match span `[start, end)`. */
  datatype Span = Span(start: nat, end: nat)

  /** How far `finditer` advances after a match: past the match, or one position after an
      empty match. */
  function Advance(kw: string): nat {
    Max(|kw|, 1)
  }

  /** `finditer` resumed at position `p`: matches are tried left to right and never overlap. */
  function ScanFrom(t: string, kw: string, p: nat): seq<Span>
    decreases |t| + 1 - p
  {
    if p > |t| then []
    else if MatchAt(t, kw, p) then [Span(p, p + |kw|)] + ScanFrom(t, kw, p + Advance(kw))
    else ScanFrom(t, kw, p + 1)
  }

  /** Every reported span is a match at or after `p`, and the spans come in order without
      overlapping. */
  lemma ScanSound(t: string, kw: string, p: nat)
    ensures forall k :: 0 <= k < |ScanFrom(t, kw, p)| ==>
      && p <= ScanFrom(t, kw, p)[k].start
      && ScanFrom(t, kw, p)[k].end == ScanFrom(t, kw, p)[k].start + |kw|
      && MatchAt(t, kw, ScanFrom(t, kw, p)[k].start)
    ensures forall i, j :: 0 <= i < j < |ScanFrom(t, kw, p)| ==>
      ScanFrom(t, kw, p)[i].end <= ScanFrom(t, kw, p)[j].start && ScanFrom(t, kw, p)[i].start < ScanFrom(t, kw, p)[j].start
  {
    ScanMatches(t, kw, p);
    ScanInOrder(t, kw, p);
  }

  lemma {:induction false} ScanMatches(t: string, kw: string, p: nat)
    ensures forall k :: 0 <= k < |ScanFrom(t, kw, p)| ==>
      && p <= ScanFrom(t, kw, p)[k].start
      && ScanFrom(t, kw, p)[k].end == ScanFrom(t, kw, p)[k].start + |kw|
      && MatchAt(t, kw, ScanFrom(t, kw, p)[k].start)
    decreases |t| + 1 - p
  {
    if p <= |t| {
      if MatchAt(t, kw, p) {
        var rest := ScanFrom(t, kw, p + Advance(kw));
        ScanMatches(t, kw, p + Advance(kw));
        var r := [Span(p, p + |kw|)] + rest;
        assert ScanFrom(t, kw, p) == r;
        forall k | 1 <= k < |r| ensures p <= r[k].start && r[k].end == r[k].start + |kw| && MatchAt(t, kw, r[k].start) {
          assert r[k] == rest[k - 1];
        }
      } else {
        ScanMatches(t, kw, p + 1);
      }
    }
  }

  lemma {:induction false} ScanInOrder(t: string, kw: string, p: nat)
    ensures forall i, j :: 0 <= i < j < |ScanFrom(t, kw, p)| ==>
      ScanFrom(t, kw, p)[i].end <= ScanFrom(t, kw, p)[j].start && ScanFrom(t, kw, p)[i].start < ScanFrom(t, kw, p)[j].start
    decreases |t| + 1 - p
  {
    if p <= |t| {
      if MatchAt(t, kw, p) {
        var q := p + Advance(kw);
        ScanInOrder(t, kw, q);
        ScanMatches(t, kw, q);
        ConsInOrder(Span(p, p + |kw|), ScanFrom(t, kw, q), q);
        assert ScanFrom(t, kw, p) == [Span(p, p + |kw|)] + ScanFrom(t, kw, q);
      } else {
        ScanInOrder(t, kw, p + 1);
      }
    }
  }

  /** A span that ends before a list of ordered spans begins can be put in front of it. */
  lemma ConsInOrder(s: Span, rest: seq<Span>, q: nat)
    requires s.start < q && s.end <= q
    requires forall k :: 0 <= k < |rest| ==> q <= rest[k].start
    requires forall i, j :: 0 <= i < j < |rest| ==> rest[i].end <= rest[j].start && rest[i].start < rest[j].start
    ensures forall i, j :: 0 <= i < j < |[s] + rest| ==>
      ([s] + rest)[i].end <= ([s] + rest)[j].start && ([s] + rest)[i].start < ([s] + rest)[j].start
  {
    var r := [s] + rest;
    forall i, j | 0 <= i < j < |r| ensures r[i].end <= r[j].start && r[i].start < r[j].start {
      assert r[j] == rest[j - 1];
      if i > 0 {
        assert r[i] == rest[i - 1];
      }
    }
  }

  /** Every match of `\b<kw>\b` in `t`, as `finditer` reports them. */
  function FindAll(t: string, kw: string): (r: seq<Span>)
    ensures forall k :: 0 <= k < |r| ==> r[k].end == r[k].start + |kw| && MatchAt(t, kw, r[k].start)
    ensures forall i, j :: 0 <= i < j < |r| ==> r[i].end <= r[j].start && r[i].start < r[j].start
  {
    ScanSound(t, kw, 0);
    ScanFrom(t, kw, 0)
  }

  /** Position `q` is reported by the scan, or lies strictly inside a reported match. */
  predicate Covered(r: seq<Span>, q: int) {
    exists k :: 0 <= k < |r| && (r[k].start == q || r[k].start < q < r[k].end)
  }

  /** Nothing is missed: every match position at or after `p` is reported, unless an
      earlier reported match already consumed it. */
  lemma {:induction false} ScanComplete(t: string, kw: string, p: nat, q: int)
    requires p <= q <= |t| && MatchAt(t, kw, q)
    ensures Covered(ScanFrom(t, kw, p), q)
    decreases |t| + 1 - p
  {
    var r := ScanFrom(t, kw, p);
    if MatchAt(t, kw, p) {
      var rest := ScanFrom(t, kw, p + Advance(kw));
      assert r == [Span(p, p + |kw|)] + rest;
      if q < p + Advance(kw) {
        assert r[0].start == q || r[0].start < q < r[0].end;
      } else {
        ScanComplete(t, kw, p + Advance(kw), q);
        var k :| 0 <= k < |rest| && (rest[k].start == q || rest[k].start < q < rest[k].end);
        assert r[k + 1] == rest[k];
      }
    } else {
      assert q != p;
      assert r == ScanFrom(t, kw, p + 1);
      ScanComplete(t, kw, p + 1, q);
    }
  }

  /** The search succeeds exactly when the scan reports something. */
  lemma OccursIffFound(t: string, kw: string)
    ensures Occurs(t, kw) <==> FindAll(t, kw) != []
  {
    if Occurs(t, kw) {
      var q :| 0 <= q <= |t| && MatchAt(t, kw, q);
      ScanComplete(t, kw, 0, q);
    }
    if FindAll(t, kw) != [] {
      assert MatchAt(t, kw, FindAll(t, kw)[0].start);
    }
  }

  /** A sentence-ending punctuation mark, the class `[.?!]`. */
  predicate IsTerminator(c: char) {
    c == '.' || c == '?' || c == '!'
  }

  /** `(?<=[.?!])\s+` can start matching at `p`. */
  predicate SentenceBreakAt(t: string, p: int) {
    0 < p < |t| && IsTerminator(t[p - 1]) && IsSpace(t[p])
  }

  /** The end of the run of whitespace starting at `p` (the greedy `\s+`). */
  function SpaceRunEnd(t: string, p: nat): (q: nat)
    requires p <= |t|
    ensures p <= q <= |t|
    ensures forall i :: p <= i < q ==> IsSpace(t[i])
    ensures q < |t| ==> !IsSpace(t[q])
    decreases |t| - p
  {
    if p < |t| && IsSpace(t[p]) then SpaceRunEnd(t, p + 1) else p
  }

  /** No sentence break falls inside `s`. */
  predicate NoBreakInside(s: string) {
    forall i :: 0 < i < |s| ==> !SentenceBreakAt(s, i)
  }

  /** `re.split(r'(?<=[.?!])\s+', t)`, resumed with the current piece starting at `start`
      and the search at `p`. */
  function SegmentsFrom(t: string, start: nat, p: nat): (r: seq<string>)
    requires start <= p <= |t|
    ensures |r| >= 1
    decreases |t| - p
  {
    if p == |t| then
      [t[start..]]
    else if SentenceBreakAt(t, p) then
      var q := SpaceRunEnd(t, p);
      [t[start..p]] + SegmentsFrom(t, q, q)
    else
      SegmentsFrom(t, start, p + 1)
  }

  /** The split is maximal and its pieces have the shape the pattern forces: no piece holds
      a break, every piece but the last ends with its terminator, and every piece after the
      first starts past the whole whitespace run. */
  lemma {:induction false} SegmentsShape(t: string, start: nat, p: nat)
    requires start <= p <= |t|
    requires start == 0 || IsSpace(t[start - 1])
    requires forall i :: start < i < p ==> !SentenceBreakAt(t, i)
    ensures var r := SegmentsFrom(t, start, p);
      && |r[0]| <= |t| - start && r[0] == t[start..start + |r[0]|]
      && (forall k :: 0 <= k < |r| ==> NoBreakInside(r[k]))
      && (forall k :: 0 <= k < |r| - 1 ==> r[k] != [] && IsTerminator(r[k][|r[k]| - 1]))
      && (forall k :: 0 < k < |r| ==> r[k] == [] || !IsSpace(r[k][0]))
    decreases |t| - p
  {
    var r := SegmentsFrom(t, start, p);
    if p == |t| {
      PieceHasNoBreak(t, start, |t|);
      assert t[start..] == t[start..|t|];
    } else if SentenceBreakAt(t, p) {
      var q := SpaceRunEnd(t, p);
      SegmentsShape(t, q, q);
      PieceHasNoBreak(t, start, p);
      var rest := SegmentsFrom(t, q, q);
      assert r == [t[start..p]] + rest;
      assert p > start;
      forall k | 0 < k < |r|
        ensures r[k] == [] || !IsSpace(r[k][0])
      {
        if k == 1 {
          assert r[1] == rest[0] == t[q..q + |rest[0]|];
        } else {
          assert r[k] == rest[k - 1];
        }
      }
    } else {
      SegmentsShape(t, start, p + 1);
    }
  }

  lemma PieceHasNoBreak(t: string, start: nat, p: nat)
    requires start <= p <= |t|
    requires forall i :: start < i < p ==> !SentenceBreakAt(t, i)
    ensures NoBreakInside(t[start..p])
  {
    var piece := t[start..p];
    forall i | 0 < i < |piece|
      ensures !SentenceBreakAt(piece, i)
    {
      assert !SentenceBreakAt(t, start + i);
    }
  }

  /** The raw sentence split shared by sentence lookup, density and phrase ranking. */
  function Segments(t: string): seq<string> {
    SegmentsFrom(t, 0, 0)
  }

  /** Every whitespace character is a single space with no whitespace after it. */
  predicate SingleSpaced(s: string) {
    forall i :: 0 <= i < |s| && IsSpace(s[i]) ==> s[i] == ' ' && (i + 1 < |s| ==> !IsSpace(s[i + 1]))
  }

  /** On single-spaced text the split loses nothing but the separating spaces. */
  lemma {:induction false} SegmentsJoin(t: string, start: nat, p: nat)
    requires start <= p <= |t|
    requires SingleSpaced(t)
    ensures Join(" ", SegmentsFrom(t, start, p)) == t[start..]
    decreases |t| - p
  {
    if p == |t| {
    } else if SentenceBreakAt(t, p) {
      var q := SpaceRunEnd(t, p);
      assert SpaceRunEnd(t, p + 1) == p + 1;
      assert q == p + 1;
      SegmentsJoin(t, q, q);
      var rest := SegmentsFrom(t, q, q);
      assert SegmentsFrom(t, start, p) == [t[start..p]] + rest;
      JoinCons(" ", t[start..p], rest);
      assert t[p] == ' ';
      assert t[start..] == t[start..p] + " " + t[p + 1..];
    } else {
      SegmentsJoin(t, start, p + 1);
    }
  }
}

=== FILE: risk_analyzer.dfy ===
/** Text normalisation, keyword search, sentence lookup and occurrence suppression of the
    risk analyzer (TermsBuster/modules/risk_analyzer.py). */
module RiskAnalyzer {
  import opened Text
  import opened Wrappers
  import opened Patterns

  // ---------------------------------------------------------------------------------------
  // Text normalisation
  // ---------------------------------------------------------------------------------------

  /** `re.sub(r"\s+", " ", s)`: every maximal run of whitespace becomes one space. */
  function Collapse(s: string): (r: string)
    ensures r == [] <==> s == []
    ensures r != [] ==> (IsSpace(r[0]) <==> IsSpace(s[0]))
    ensures SingleSpaced(r)
    ensures IsLower(s) ==> IsLower(r)
    decreases |s|
  {
    if s == [] then []
    else if IsSpace(s[0]) then " " + Collapse(StripLeft(s))
    else [s[0]] + Collapse(s[1..])
  }

  /** Already normalised: lower case, single spaces only, nothing to trim. */
  predicate IsCleaned(s: string) {
    IsLower(s) && SingleSpaced(s) && (s == [] || (!IsSpace(s[0]) && !IsSpace(s[|s| - 1])))
  }

  /** Slices keep single spacing and lower case. */
  lemma SliceKeepsClean(s: string, a: nat, b: nat)
    requires a <= b <= |s|
    requires SingleSpaced(s) && IsLower(s)
    ensures SingleSpaced(s[a..b]) && IsLower(s[a..b])
  {
    var u := s[a..b];
    forall i | 0 <= i < |u| && IsSpace(u[i])
      ensures u[i] == ' ' && (i + 1 < |u| ==> !IsSpace(u[i + 1]))
    {
      assert u[i] == s[a + i];
    }
  }

  /** `clean_text`: lower-case, collapse whitespace runs to one space, trim. The result is
      normalised whatever the input, and it is the words of the lower-cased input joined by
      single spaces. */
  function CleanText(t: string): (r: string)
    ensures IsCleaned(r)
  {
    var c := Collapse(Lower(t));
    LowerIsLower(t);
    var r := Strip(c);
    SliceKeepsClean(c, StripStart(c), StripStart(c) + |r|);
    r
  }

  /** What `clean_text` keeps: the words of the lower-cased text, joined by single spaces. */
  lemma CleanTextWords(t: string)
    ensures CleanText(t) == Join(" ", SplitWords(Lower(t)))
  {
    var c := Collapse(Lower(t));
    SplitCollapse(Lower(t));
    SplitStrip(c);
    JoinSplitSingleSpaced(CleanText(t));
  }

  /** Collapsing whitespace runs keeps the words. */
  lemma {:induction false} SplitCollapse(s: string)
    ensures SplitWords(Collapse(s)) == SplitWords(s)
    decreases |s|
  {
    if s == [] {
    } else if IsSpace(s[0]) {
      var l := StripLeft(s);
      assert |l| < |s|;
      SplitCollapse(l);
      SplitLeadingSpace(Collapse(l));
      SplitStripLeft(s);
    } else {
      var x := s[1..];
      assert s == [s[0]] + x;
      SplitCollapse(x);
      SplitConsChar(s[0], x);
      SplitConsChar(s[0], Collapse(x));
    }
  }

  /** Single-spaced text without whitespace at either end is its words joined by single
      spaces. */
  lemma {:induction false} JoinSplitSingleSpaced(s: string)
    requires SingleSpaced(s) && (s == [] || (!IsSpace(s[0]) && !IsSpace(s[|s| - 1])))
    ensures s == Join(" ", SplitWords(s))
    ensures s != [] ==> SplitWords(s) != []
    decreases |s|
  {
    if s == [] {
      SplitEmpty(s);
    } else {
      var x := s[1..];
      assert s == [s[0]] + x;
      SliceKeepsSingle(s);
      if x == [] {
        SplitOneWord(s);
      } else if !IsSpace(x[0]) {
        JoinSplitSingleSpaced(x);
        SplitConsChar(s[0], x);
        JoinAfterLetter(s[0], x, SplitWords(x), SplitWords(s));
      } else {
        var y := x[1..];
        assert x == [x[0]] + y;
        assert [x[0]] == " ";
        SliceKeepsSingle(x);
        JoinSplitSingleSpaced(y);
        SplitLeadingSpace(y);
        SplitConsChar(s[0], x);
        JoinAfterSpace(s[0], x, y, SplitWords(y), SplitWords(s));
      }
    }
  }

  /** The join step for a letter glued to the first word. */
  lemma JoinAfterLetter(c: char, x: string, ws: seq<string>, cs: seq<string>)
    requires ws != [] && x == Join(" ", ws)
    requires cs == [[c] + ws[0]] + ws[1..]
    ensures [c] + x == Join(" ", cs)
  {
    JoinPrefixFirst(" ", [c], ws[0], ws[1..]);
    assert [ws[0]] + ws[1..] == ws;
  }

  /** The join step for a one-letter word followed by a space. */
  lemma JoinAfterSpace(c: char, x: string, y: string, ws: seq<string>, cs: seq<string>)
    requires x == " " + y
    requires ws != [] && y == Join(" ", ws)
    requires cs == [[c]] + ws
    ensures [c] + x == Join(" ", cs)
  {
    JoinCons(" ", [c], ws);
    assert [c] + x == [c] + " " + y;
  }

  /** Collapsing is the identity on single-spaced text. */
  lemma {:induction false} CollapseSingleSpaced(s: string)
    requires SingleSpaced(s)
    ensures Collapse(s) == s
    decreases |s|
  {
    if s == [] {
    } else if IsSpace(s[0]) {
      assert s[0] == ' ';
      assert StripLeft(s[1..]) == s[1..] by {
        StripLeftNoop(s[1..]);
      }
      assert StripLeft(s) == s[1..];
      SliceKeepsSingle(s);
      CollapseSingleSpaced(s[1..]);
      assert [s[0]] == " ";
      assert s == [s[0]] + s[1..];
    } else {
      SliceKeepsSingle(s);
      CollapseSingleSpaced(s[1..]);
      assert s == [s[0]] + s[1..];
    }
  }

  lemma SliceKeepsSingle(s: string)
    requires s != [] && SingleSpaced(s)
    ensures SingleSpaced(s[1..])
  {
    var u := s[1..];
    forall i | 0 <= i < |u| && IsSpace(u[i])
      ensures u[i] == ' ' && (i + 1 < |u| ==> !IsSpace(u[i + 1]))
    {
      assert u[i] == s[i + 1];
    }
  }

  /** Normalised text is a fixed point of `clean_text`. */
  lemma CleanOfCleaned(s: string)
    requires IsCleaned(s)
    ensures CleanText(s) == s
  {
    LowerOfLower(s);
    CollapseSingleSpaced(s);
    StripNoop(s);
  }

  /** `clean_text` is idempotent. */
  lemma CleanTextIdempotent(t: string)
    ensures CleanText(CleanText(t)) == CleanText(t)
  {
    CleanOfCleaned(CleanText(t));
  }

  // ---------------------------------------------------------------------------------------
  // Sentence lookup by offset
  // ---------------------------------------------------------------------------------------

  /** Where `sentence_for_index` believes piece `i` starts: each earlier piece's length plus
      one separator character. */
  function Offset(ps: seq<string>, i: nat): int
    requires i <= |ps|
  {
    if i == 0 then 0 else Offset(ps, i - 1) + |ps[i - 1]| + 1
  }

  /** Piece `i`'s believed span `[pos, pos + len]` (both ends inclusive) holds `start`. */
  predicate Covers(ps: seq<string>, i: int, start: int) {
    0 <= i < |ps| && Offset(ps, i) <= start <= Offset(ps, i) + |ps[i]|
  }

  /** Piece `i` is the first that covers `start`. */
  predicate FirstCover(ps: seq<string>, i: int, start: int) {
    Covers(ps, i, start) && forall m :: 0 <= m < i ==> !Covers(ps, m, start)
  }

  /** The loop of `sentence_for_index` from piece `i`, with `pos` its running offset. */
  function FindSentenceFrom(ps: seq<string>, i: nat, pos: int, start: int): (r: Option<string>)
    requires i <= |ps|
    decreases |ps| - i
  {
    if i == |ps| then None
    else
      var next := pos + |ps[i]|;
      if pos <= start <= next then Some(Strip(ps[i]))
      else FindSentenceFrom(ps, i + 1, next + 1, start)
  }

  /** The loop finds the trimmed first covering piece, and finds nothing exactly when no
      piece from `i` on covers `start`. */
  lemma {:induction false} FindSentenceSpec(ps: seq<string>, i: nat, start: int)
    requires i <= |ps|
    ensures var r := FindSentenceFrom(ps, i, Offset(ps, i), start);
      && (r.None? <==> forall j :: i <= j < |ps| ==> !Covers(ps, j, start))
      && (r.Some? ==> exists j :: (i <= j < |ps| && Covers(ps, j, start)
            && r.value == Strip(ps[j]) && forall m :: i <= m < j ==> !Covers(ps, m, start)))
    decreases |ps| - i
  {
    if i < |ps| {
      var pos := Offset(ps, i);
      var r := FindSentenceFrom(ps, i, pos, start);
      if Covers(ps, i, start) {
        assert r == Some(Strip(ps[i]));
        assert i <= i < |ps| && Covers(ps, i, start) && r.value == Strip(ps[i]);
      } else {
        assert Offset(ps, i + 1) == pos + |ps[i]| + 1;
        assert r == FindSentenceFrom(ps, i + 1, Offset(ps, i + 1), start);
        FindSentenceSpec(ps, i + 1, start);
        if r.Some? {
          var j :| i + 1 <= j < |ps| && Covers(ps, j, start) && r.value == Strip(ps[j])
            && forall m :: i + 1 <= m < j ==> !Covers(ps, m, start);
          assert forall m :: i <= m < j ==> !Covers(ps, m, start);
        }
      }
    }
  }

  /** `text[max(0, start-80) : end+80].strip()`, the fallback context. */
  function FallbackContext(text: string, start: nat, end: nat): string {
    Strip(ClampSlice(text, if start >= 80 then start - 80 else 0, end + 80))
  }

  /** `sentence_for_index`: the trimmed first split piece whose believed span holds `start`,
      or the 80-character context window when none does. */
  function SentenceForIndex(text: string, start: nat, end: nat): string {
    var found := FindSentenceFrom(Segments(text), 0, 0, start);
    if found.Some? then found.value else FallbackContext(text, start, end)
  }

  /** The sentence of a hit is the trimmed first piece that covers its start when there is
      one, and the fallback context exactly when none does. */
  lemma SentenceForIndexSpec(text: string, start: nat, end: nat)
    ensures var ps := Segments(text);
      (exists j :: Covers(ps, j, start)) ==>
        exists j :: FirstCover(ps, j, start) && SentenceForIndex(text, start, end) == Strip(ps[j])
    ensures var ps := Segments(text);
      (forall j :: !Covers(ps, j, start)) ==> SentenceForIndex(text, start, end) == FallbackContext(text, start, end)
  {
    var ps := Segments(text);
    var found := FindSentenceFrom(ps, 0, 0, start);
    FindSentenceSpec(ps, 0, start);
    if found.Some? {
      assert exists j :: FirstCover(ps, j, start) && found.value == Strip(ps[j]);
    } else {
      assert forall j :: !Covers(ps, j, start);
    }
  }

  /** On normalised text the believed offsets are exact, so every offset inside the text is
      covered by some piece and the fallback is never taken. */
  lemma {:induction false} CleanTextSentenceFound(text: string, start: nat)
    requires SingleSpaced(text) && start <= |text|
    ensures exists j :: Covers(Segments(text), j, start)
  {
    var ps := Segments(text);
    SegmentsJoin(text, 0, 0);
    JoinLength(ps, |ps|);
    assert ps[..|ps|] == ps;
    CoverFrom(ps, 0, start);
  }

  /** The space-joined length of the first `n` pieces. */
  lemma {:induction false} JoinLength(ps: seq<string>, n: nat)
    requires 1 <= n <= |ps|
    ensures |Join(" ", ps[..n])| == Offset(ps, n - 1) + |ps[n - 1]|
  {
    if n == 1 {
      assert ps[..1] == [ps[0]];
    } else {
      JoinLength(ps, n - 1);
      JoinSnoc(" ", ps[..n - 1], ps[n - 1]);
      assert ps[..n] == ps[..n - 1] + [ps[n - 1]];
    }
    if n == |ps| {
      assert ps[..n] == ps;
    }
  }

  lemma {:induction false} CoverFrom(ps: seq<string>, i: nat, start: int)
    requires i < |ps| && Offset(ps, i) <= start <= Offset(ps, |ps| - 1) + |ps[|ps| - 1]|
    ensures exists j :: Covers(ps, j, start)
    decreases |ps| - i
  {
    if start <= Offset(ps, i) + |ps[i]| {
      assert Covers(ps, i, start);
    } else {
      OffsetGrows(ps, i, |ps| - 1);
      CoverFrom(ps, i + 1, start);
    }
  }

  lemma {:induction false} OffsetGrows(ps: seq<string>, i: nat, j: nat)
    requires i <= j < |ps|
    ensures Offset(ps, i) + |ps[i]| <= Offset(ps, j) + |ps[j]|
    decreases j - i
  {
    if i < j {
      OffsetGrows(ps, i + 1, j);
    }
  }

  // ---------------------------------------------------------------------------------------
  // Keyword search
  // ---------------------------------------------------------------------------------------

  /** One keyword hit: its span in the text and the sentence it was found in. */
  datatype Occurrence = Occurrence(start: nat, end: nat, sentence: string)

  /** `detect_matches`: every word-bounded, case-insensitive hit of `keyword`, left to right,
      each paired with its sentence. */
  function DetectMatches(text: string, keyword: string): (r: seq<Occurrence>)
    ensures forall k :: 0 <= k < |r| ==>
      && r[k].end - r[k].start == |keyword|
      && r[k].end <= |text|
      && Lower(text[r[k].start..r[k].end]) == Lower(keyword)
      && Boundary(text, r[k].start) && Boundary(text, r[k].end)
      && r[k].sentence == SentenceForIndex(text, r[k].start, r[k].end)
    ensures forall i, j :: 0 <= i < j < |r| ==> r[i].end <= r[j].start && r[i].start < r[j].start
  {
    var spans := FindAll(text, keyword);
    var r := seq(|spans|, k requires 0 <= k < |spans| =>
      Occurrence(spans[k].start, spans[k].end, SentenceForIndex(text, spans[k].start, spans[k].end)));
    OccurrencesOfSpans(text, keyword, spans, r);
    r
  }

  /** Each occurrence carries a match of the scan, with its sentence. */
  lemma OccurrencesOfSpans(text: string, keyword: string, spans: seq<Span>, r: seq<Occurrence>)
    requires spans == FindAll(text, keyword)
    requires |r| == |spans|
    requires forall k :: 0 <= k < |r| ==>
      r[k] == Occurrence(spans[k].start, spans[k].end, SentenceForIndex(text, spans[k].start, spans[k].end))
    ensures forall k :: 0 <= k < |r| ==>
      && r[k].end - r[k].start == |keyword|
      && r[k].end <= |text|
      && Lower(text[r[k].start..r[k].end]) == Lower(keyword)
      && Boundary(text, r[k].start) && Boundary(text, r[k].end)
      && r[k].sentence == SentenceForIndex(text, r[k].start, r[k].end)
    ensures forall i, j :: 0 <= i < j < |r| ==> r[i].end <= r[j].start && r[i].start < r[j].start
  {
    forall k | 0 <= k < |r|
      ensures && r[k].end - r[k].start == |keyword|
              && r[k].end <= |text|
              && Lower(text[r[k].start..r[k].end]) == Lower(keyword)
              && Boundary(text, r[k].start) && Boundary(text, r[k].end)
              && r[k].sentence == SentenceForIndex(text, r[k].start, r[k].end)
    {
      OccurrenceOfMatch(text, keyword, spans[k].start, r[k]);
    }
    forall i, j | 0 <= i < j < |r| ensures r[i].end <= r[j].start && r[i].start < r[j].start {
      assert spans[i].end <= spans[j].start;
    }
  }

  lemma OccurrenceOfMatch(text: string, keyword: string, p: nat, o: Occurrence)
    requires MatchAt(text, keyword, p)
    requires o.start == p && o.end == p + |keyword|
    ensures && o.end - o.start == |keyword|
            && o.end <= |text|
            && Lower(text[o.start..o.end]) == Lower(keyword)
            && Boundary(text, o.start) && Boundary(text, o.end)
  {
    EqualsIgnoreCaseAtLower(text, keyword, p);
  }


  /** Completeness of `detect_matches`: a hit at `q` is reported unless it starts strictly
      inside an earlier reported hit. */
  lemma DetectMatchesComplete(text: string, keyword: string, q: nat)
    requires q <= |text| && MatchAt(text, keyword, q)
    ensures exists k :: (0 <= k < |DetectMatches(text, keyword)| &&
      var o := DetectMatches(text, keyword)[k];
      o.start == q || o.start < q < o.end)
  {
    ScanComplete(text, keyword, 0, q);
    var spans := FindAll(text, keyword);
    var k :| 0 <= k < |spans| && (spans[k].start == q || spans[k].start < q < spans[k].end);
    assert DetectMatches(text, keyword)[k].start == spans[k].start;
  }

  // ---------------------------------------------------------------------------------------
  // Suppression
  // ---------------------------------------------------------------------------------------

  /** `is_safe_sentence`: the lower-cased sentence contains a non-empty safe phrase. */
  predicate IsSafeSentence(safe: set<string>, sentence: string) {
    if safe == {} then false
    else exists p | p in safe :: p != [] && Contains(Lower(sentence), p)
  }

  /** The safe-phrase check ignores the case of the sentence. */
  lemma SafeSentenceIgnoresCase(safe: set<string>, sentence: string)
    ensures IsSafeSentence(safe, Lower(sentence)) == IsSafeSentence(safe, sentence)
  {
    LowerIdempotent(sentence);
  }

  /** A sentence equal (ignoring case) to a non-empty safe phrase is safe, and adding
      phrases never makes a safe sentence unsafe. */
  lemma SafeSentenceMonotone(safe: set<string>, more: set<string>, sentence: string)
    requires safe <= more
    ensures IsSafeSentence(safe, sentence) ==> IsSafeSentence(more, sentence)
    ensures (exists p | p in safe :: p != [] && Lower(sentence) == p) ==> IsSafeSentence(safe, sentence)
  {
    if exists p | p in safe :: p != [] && Lower(sentence) == p {
      var p :| p in safe && p != [] && Lower(sentence) == p;
      assert OccursAt(Lower(sentence), p, 0);
    }
  }

  /** The cues of NEGATION_RE, each wrapped in `\b...\b` and matched ignoring case. */
  const NegationCues: seq<string> := [
    "no", "not", "never", "don't", "doesn't", "does not", "didn't", "did not",
    "without", "no longer", "cannot", "can't", "exclude", "except"
  ]

  /** The default `window_chars` of `has_negation_around`. */
  const NegationWindow: nat := 50

  /** `text[max(0, match_start - 50) : match_start]`. */
  function NegationContext(text: string, matchStart: nat): string {
    ClampSlice(text, if matchStart >= NegationWindow then matchStart - NegationWindow else 0, matchStart)
  }

  /** `has_negation_around`: some cue matches inside the context window. The boundaries of
      the cue are judged inside the window string, since the analyser searches the slice. */
  predicate HasNegationAround(text: string, matchStart: nat) {
    var ctx := NegationContext(text, matchStart);
    exists c | c in NegationCues :: Occurs(ctx, c)
  }

  /** Text after the match start has no effect on the negation check. */
  lemma NegationIgnoresTextAfter(text: string, more: string, matchStart: nat)
    requires matchStart <= |text|
    ensures HasNegationAround(text + more, matchStart) == HasNegationAround(text, matchStart)
  {
    assert NegationContext(text + more, matchStart) == NegationContext(text, matchStart);
  }

  /** Text more than 50 characters before the match start has no effect either. */
  lemma NegationIgnoresTextBeforeWindow(before: string, text: string, matchStart: nat)
    requires NegationWindow <= matchStart <= |text|
    ensures HasNegationAround(before + text, |before| + matchStart) == HasNegationAround(text, matchStart)
  {
    var lo := matchStart - NegationWindow;
    assert (before + text)[|before| + lo..|before| + matchStart] == text[lo..matchStart];
  }

  /** A negated sentence: "share" in "we do not share your data with third
      parties." is suppressed by the cue "not" four characters before it. */
  lemma NegationExample()
    ensures HasNegationAround("we do not " + "share your data with third parties.", 10)
  {
    var ctx := "we do not ";
    var text := ctx + "share your data with third parties.";
    assert text[0..10] == ctx;
    assert NegationContext(text, 10) == ctx;
    assert ctx[5] == ' ' && ctx[6] == 'n' && ctx[7] == 'o' && ctx[8] == 't' && ctx[9] == ' ';
    assert ctx[6..9] == "not";
    LowerOfLower("not");
    assert Lower(ctx[6..9]) == Lower("not");
    EqualsIgnoreCaseAtLower(ctx, "not", 6);
    assert !WordAt(ctx, 5) && WordAt(ctx, 6);
    assert WordAt(ctx, 8) && !WordAt(ctx, 9);
    assert MatchAt(ctx, "not", 6);
    assert Occurs(ctx, NegationCues[1]);
  }

  /** An occurrence is discarded when its sentence is safe or a cue precedes it. */
  predicate Suppressed(text: string, safe: set<string>, o: Occurrence) {
    IsSafeSentence(safe, o.sentence) || HasNegationAround(text, o.start)
  }

  /** The filtering loop of `cached_analyze_policy`: the surviving occurrences, in order. */
  function ValidOccurrences(text: string, safe: set<string>, occs: seq<Occurrence>): (r: seq<Occurrence>)
    ensures |r| <= |occs|
    ensures forall o :: o in r <==> o in occs && !Suppressed(text, safe, o)
    ensures forall o :: multiset(r)[o] == if Suppressed(text, safe, o) then 0 else multiset(occs)[o]
  {
    if occs == [] then []
    else
      var rest := ValidOccurrences(text, safe, occs[1..]);
      MultisetOfCons(occs);
      assert forall o :: o in occs[1..] ==> o in occs;
      assert forall o :: o in occs ==> o == occs[0] || o in occs[1..];
      if Suppressed(text, safe, occs[0]) then rest
      else
        assert forall o :: o in rest ==> o in occs[1..];
        [occs[0]] + rest
  }

  lemma MultisetOfCons(occs: seq<Occurrence>)
    requires occs != []
    ensures multiset(occs) == multiset{occs[0]} + multiset(occs[1..])
  {
    assert occs == [occs[0]] + occs[1..];
  }

  /** The positions of the occurrences from `k` on that survive the filter, in increasing
      order. */
  function SurvivorIndices(text: string, safe: set<string>, occs: seq<Occurrence>, k: nat): (ix: seq<nat>)
    requires k <= |occs|
    ensures forall m :: 0 <= m < |ix| ==> k <= ix[m] < |occs| && !Suppressed(text, safe, occs[ix[m]])
    ensures forall m, n :: 0 <= m < n < |ix| ==> ix[m] < ix[n]
    ensures forall i :: k <= i < |occs| && !Suppressed(text, safe, occs[i]) ==> i in ix
    decreases |occs| - k
  {
    if k == |occs| then []
    else
      var rest := SurvivorIndices(text, safe, occs, k + 1);
      if Suppressed(text, safe, occs[k]) then rest else [k] + rest
  }

  /** The survivors keep the order of the occurrences: the m-th survivor is the occurrence
      at the m-th unsuppressed position. */
  lemma ValidOccurrencesInOrder(text: string, safe: set<string>, occs: seq<Occurrence>)
    ensures var r := ValidOccurrences(text, safe, occs);
      var ix := SurvivorIndices(text, safe, occs, 0);
      |r| == |ix| && forall m :: 0 <= m < |r| ==> r[m] == occs[ix[m]]
  {
    SurvivorsFrom(text, safe, occs, 0);
    assert occs[0..] == occs;
  }

  lemma {:induction false} SurvivorsFrom(text: string, safe: set<string>, occs: seq<Occurrence>, k: nat)
    requires k <= |occs|
    ensures var r := ValidOccurrences(text, safe, occs[k..]);
      var ix := SurvivorIndices(text, safe, occs, k);
      |r| == |ix| && forall m :: 0 <= m < |r| ==> r[m] == occs[ix[m]]
    decreases |occs| - k
  {
    if k < |occs| {
      SurvivorsFrom(text, safe, occs, k + 1);
      var u := occs[k..];
      assert u[0] == occs[k];
      assert u[1..] == occs[k + 1..];
      var rest := ValidOccurrences(text, safe, occs[k + 1..]);
      var ix := SurvivorIndices(text, safe, occs, k + 1);
      if Suppressed(text, safe, occs[k]) {
        assert ValidOccurrences(text, safe, u) == rest;
        assert SurvivorIndices(text, safe, occs, k) == ix;
      } else {
        assert ValidOccurrences(text, safe, u) == [occs[k]] + rest;
        assert SurvivorIndices(text, safe, occs, k) == [k] + ix;
        SurvivorStep(occs, k, rest, ix);
      }
    } else {
      assert occs[k..] == [];
    }
  }

  lemma SurvivorStep(occs: seq<Occurrence>, k: nat, rest: seq<Occurrence>, ix: seq<nat>)
    requires k < |occs| && |rest| == |ix|
    requires forall m :: 0 <= m < |ix| ==> ix[m] < |occs| && rest[m] == occs[ix[m]]
    ensures forall m :: 0 <= m < |ix| + 1 ==> ([occs[k]] + rest)[m] == occs[([k] + ix)[m]]
  {
    forall m | 0 < m < |ix| + 1 ensures ([occs[k]] + rest)[m] == occs[([k] + ix)[m]] {
      assert ([k] + ix)[m] == ix[m - 1];
    }
  }
}

=== FILE: risk_scoring.dfy ===
/** The scoring loop, severity counters, risk-level ladder and confidence formula of
    `cached_analyze_policy` (TermsBuster/modules/risk_analyzer.py). */
module RiskScoring {
  import opened Text
  import opened Wrappers
  import opened Patterns
  import opened RiskAnalyzer

  // ---------------------------------------------------------------------------------------
  // Lexicon and results
  // ---------------------------------------------------------------------------------------

  /** One lexicon entry. A missing "keyword" field is the empty string and a missing
      "score" is 0, the defaults the analyser reads with `item.get`. */
  datatype Item = Item(keyword: string, score: int)

  /** A severity tier of the lexicon, in the lexicon's own order. */
  datatype Tier = Tier(name: string, items: seq<Item>)

  type Lexicon = seq<Tier>

  /** What is stored for a matched keyword: the uncapped count of surviving occurrences,
      the per-occurrence score, the capped contribution and the surviving sentences. */
  datatype KeywordMatch = KeywordMatch(count: nat, scoreEach: int, totalScore: int, sentences: seq<string>)

  /** A keyword and its match, one slot of the per-tier dictionary. */
  datatype Entry = Entry(keyword: string, m: KeywordMatch)

  /** At most this many occurrences of one keyword contribute to the score. */
  const PerKeywordCap: nat := 3

  function Sentences(occs: seq<Occurrence>): (r: seq<string>)
    ensures |r| == |occs|
    ensures forall k :: 0 <= k < |occs| ==> r[k] == occs[k].sentence
  {
    seq(|occs|, k requires 0 <= k < |occs| => occs[k].sentence)
  }

  /** The occurrences of an item's cleaned keyword that survive suppression. */
  function Survivors(text: string, safe: set<string>, item: Item): seq<Occurrence> {
    ValidOccurrences(text, safe, DetectMatches(text, CleanText(item.keyword)))
  }

  /** One iteration of the inner loop: the entry stored for `item`, if any. An entry is
      stored exactly when the cleaned keyword is non-empty and some occurrence survives; it
      counts every survivor and keeps their sentences, but its score grows with at most
      three of them. */
  function ItemOutcome(text: string, safe: set<string>, item: Item): (r: Option<Entry>)
    ensures r.Some? <==> CleanText(item.keyword) != [] && |Survivors(text, safe, item)| > 0
    ensures r.Some? ==>
      && r.value.keyword == CleanText(item.keyword)
      && r.value.m.count == |Survivors(text, safe, item)|
      && r.value.m.sentences == Sentences(Survivors(text, safe, item))
      && r.value.m.scoreEach == item.score
    ensures r.Some? && r.value.m.count <= PerKeywordCap ==> r.value.m.totalScore == r.value.m.count * item.score
    ensures r.Some? && r.value.m.count >= PerKeywordCap ==> r.value.m.totalScore == PerKeywordCap * item.score
    ensures r.Some? && item.score >= 0 ==> 0 <= r.value.m.totalScore <= PerKeywordCap * item.score
  {
    var keyword := CleanText(item.keyword);
    if keyword == [] then None
    else
      var valid := ValidOccurrences(text, safe, DetectMatches(text, keyword));
      if |valid| == 0 then None
      else
        CapFacts(item.score, |valid|);
        Some(Entry(keyword, KeywordMatch(|valid|, item.score, item.score * Min(|valid|, PerKeywordCap), Sentences(valid))))
  }

  /** The capped score `score * min(count, 3)` in the three ways the lexicon reads it. */
  lemma CapFacts(score: int, count: nat)
    ensures count <= PerKeywordCap ==> score * Min(count, PerKeywordCap) == count * score
    ensures count >= PerKeywordCap ==> score * Min(count, PerKeywordCap) == PerKeywordCap * score
    ensures score >= 0 ==> 0 <= score * Min(count, PerKeywordCap) <= PerKeywordCap * score
  {
    if score >= 0 {
      MulMono(Min(count, PerKeywordCap), PerKeywordCap, score);
    }
  }

  /** What `item` adds to the total score. */
  function Contribution(text: string, safe: set<string>, item: Item): int {
    match ItemOutcome(text, safe, item)
    case Some(e) => e.m.totalScore
    case None => 0
  }

  /** The cap: a keyword with non-negative score adds at most three times its score, and
      exactly its score per survivor while there are at most three. */
  lemma ContributionCapped(text: string, safe: set<string>, item: Item)
    requires item.score >= 0
    ensures 0 <= Contribution(text, safe, item) <= PerKeywordCap * item.score
    ensures ItemOutcome(text, safe, item).Some? && ItemOutcome(text, safe, item).value.m.count <= PerKeywordCap ==>
      Contribution(text, safe, item) == ItemOutcome(text, safe, item).value.m.count * item.score
  {
  }

  lemma MulMono(a: int, b: int, c: int)
    requires 0 <= a <= b && c >= 0
    ensures 0 <= a * c <= b * c
  {
  }

  // ---------------------------------------------------------------------------------------
  // The per-tier dictionary
  // ---------------------------------------------------------------------------------------

  /** The outcome of every item of a tier, in order. */
  function Outcomes(text: string, safe: set<string>, items: seq<Item>): (os: seq<Option<Entry>>)
    ensures |os| == |items|
    ensures forall i :: 0 <= i < |items| ==> os[i] == ItemOutcome(text, safe, items[i])
    ensures forall i :: 0 <= i < |os| && os[i].Some? ==>
      WellFormedEntry(os[i].value) && os[i].value.keyword == CleanText(items[i].keyword)
  {
    seq(|items|, i requires 0 <= i < |items| => ItemOutcome(text, safe, items[i]))
  }

  predicate WellFormedEntry(e: Entry) {
    && e.keyword != [] && IsCleaned(e.keyword)
    && e.m.count >= 1
    && e.m.totalScore == e.m.scoreEach * Min(e.m.count, PerKeywordCap)
    && |e.m.sentences| == e.m.count
  }

  predicate HasKey(es: seq<Entry>, k: string) {
    exists i :: 0 <= i < |es| && es[i].keyword == k
  }

  /** The slot of key `k`: the first entry with that keyword, or `|es|` when there is none. */
  function IndexOf(es: seq<Entry>, k: string): (i: nat)
    ensures i <= |es|
    ensures i < |es| ==> es[i].keyword == k
    ensures forall j :: 0 <= j < i ==> es[j].keyword != k
    decreases |es|
  {
    if es == [] then 0 else if es[0].keyword == k then 0 else 1 + IndexOf(es[1..], k)
  }

  /** `IndexOf` is pinned down by its contract. */
  lemma IndexOfUnique(es: seq<Entry>, k: string, i: nat)
    requires i <= |es|
    requires i < |es| ==> es[i].keyword == k
    requires forall j :: 0 <= j < i ==> es[j].keyword != k
    ensures IndexOf(es, k) == i
  {
  }

  lemma HasKeyIndex(es: seq<Entry>, k: string)
    ensures HasKey(es, k) <==> IndexOf(es, k) < |es|
  {
    if HasKey(es, k) {
      var i :| 0 <= i < |es| && es[i].keyword == k;
      assert IndexOf(es, k) <= i;
    }
  }

  /** Dictionary lookup. */
  function Lookup(es: seq<Entry>, k: string): (r: Option<KeywordMatch>)
    ensures r.Some? <==> HasKey(es, k)
  {
    HasKeyIndex(es, k);
    var i := IndexOf(es, k);
    if i < |es| then Some(es[i].m) else None
  }

  predicate DistinctKeys(es: seq<Entry>) {
    forall i, j :: 0 <= i < j < |es| ==> es[i].keyword != es[j].keyword
  }

  /** `d[k] = v` on an insertion-ordered dictionary: an existing key keeps its slot and
      takes the new value, a new key goes to the end. */
  function Put(es: seq<Entry>, k: string, v: KeywordMatch): (r: seq<Entry>)
    ensures !HasKey(es, k) ==> r == es + [Entry(k, v)]
    ensures forall i :: 0 <= i < |r| ==> r[i] == Entry(k, v) || r[i] in es
  {
    HasKeyIndex(es, k);
    var i := IndexOf(es, k);
    if i < |es| then es[i := Entry(k, v)] else es + [Entry(k, v)]
  }

  /** What `Put` does to the keys and the lookups. */
  lemma PutSpec(es: seq<Entry>, k: string, v: KeywordMatch)
    ensures var r := Put(es, k, v);
      && (forall k' :: HasKey(r, k') <==> HasKey(es, k') || k' == k)
      && Lookup(r, k) == Some(v)
      && (forall k' :: k' != k ==> Lookup(r, k') == Lookup(es, k'))
      && (DistinctKeys(es) ==> DistinctKeys(r))
  {
    var r := Put(es, k, v);
    PutSameKey(es, k, v);
    forall k' | k' != k
      ensures Lookup(r, k') == Lookup(es, k')
      ensures HasKey(r, k') <==> HasKey(es, k')
    {
      PutOtherKey(es, k, v, k');
    }
    if DistinctKeys(es) {
      PutKeepsDistinct(es, k, v);
    }
  }

  lemma PutSameKey(es: seq<Entry>, k: string, v: KeywordMatch)
    ensures HasKey(Put(es, k, v), k) && Lookup(Put(es, k, v), k) == Some(v)
  {
    var r := Put(es, k, v);
    var i := IndexOf(es, k);
    HasKeyIndex(es, k);
    IndexOfUnique(r, k, i);
    HasKeyIndex(r, k);
  }

  lemma PutOtherKey(es: seq<Entry>, k: string, v: KeywordMatch, k': string)
    requires k' != k
    ensures Lookup(Put(es, k, v), k') == Lookup(es, k')
    ensures HasKey(Put(es, k, v), k') <==> HasKey(es, k')
  {
    var r := Put(es, k, v);
    var i := IndexOf(es, k);
    HasKeyIndex(es, k);
    var x := IndexOf(es, k');
    if i < |es| {
      assert forall j :: 0 <= j < |r| ==> r[j].keyword == es[j].keyword;
      IndexOfUnique(r, k', x);
      if x < |es| {
        assert r[x] == es[x];
      }
    } else if x < |es| {
      assert r[x] == es[x];
      IndexOfUnique(r, k', x);
    } else {
      IndexOfUnique(r, k', |r|);
    }
    HasKeyIndex(es, k');
    HasKeyIndex(r, k');
  }

  lemma PutKeepsDistinct(es: seq<Entry>, k: string, v: KeywordMatch)
    requires DistinctKeys(es)
    ensures DistinctKeys(Put(es, k, v))
  {
    var r := Put(es, k, v);
    HasKeyIndex(es, k);
    if IndexOf(es, k) < |es| {
      forall a, b | 0 <= a < b < |r| ensures r[a].keyword != r[b].keyword {
        assert r[a].keyword == es[a].keyword && r[b].keyword == es[b].keyword;
      }
    }
  }

  /** The dictionary the inner loop builds from a tier's outcomes. */
  function EntriesOf(os: seq<Option<Entry>>): seq<Entry>
    decreases |os|
  {
    if os == [] then []
    else
      var es := EntriesOf(os[..|os| - 1]);
      match os[|os| - 1]
      case None => es
      case Some(e) => Put(es, e.keyword, e.m)
  }

  /** What the inner loop adds to the total score. */
  function TotalOf(os: seq<Option<Entry>>): int
    decreases |os|
  {
    if os == [] then 0
    else TotalOf(os[..|os| - 1]) + (match os[|os| - 1] case Some(e) => e.m.totalScore case None => 0)
  }

  /** How many items matched: the number of counter increments. */
  function MatchedOf(os: seq<Option<Entry>>): nat
    decreases |os|
  {
    if os == [] then 0
    else MatchedOf(os[..|os| - 1]) + (if os[|os| - 1].Some? then 1 else 0)
  }

  /** The value of the last outcome whose keyword is `k`. */
  function LastOutcome(os: seq<Option<Entry>>, k: string): Option<KeywordMatch>
    decreases |os|
  {
    if os == [] then None
    else
      var o := os[|os| - 1];
      if o.Some? && o.value.keyword == k then Some(o.value.m)
      else LastOutcome(os[..|os| - 1], k)
  }

  function TierEntries(text: string, safe: set<string>, items: seq<Item>): seq<Entry> {
    EntriesOf(Outcomes(text, safe, items))
  }

  function TierTotal(text: string, safe: set<string>, items: seq<Item>): int {
    TotalOf(Outcomes(text, safe, items))
  }

  function TierMatched(text: string, safe: set<string>, items: seq<Item>): nat {
    MatchedOf(Outcomes(text, safe, items))
  }

  /** The fold keeps the keys distinct, keeps only well-formed entries, and stores under
      each keyword the value of the last outcome with that keyword (nothing when none). */
  lemma {:induction false} EntriesOfSpec(os: seq<Option<Entry>>)
    requires forall i :: 0 <= i < |os| && os[i].Some? ==> WellFormedEntry(os[i].value)
    ensures var es := EntriesOf(os);
      && DistinctKeys(es)
      && (forall i :: 0 <= i < |es| ==> WellFormedEntry(es[i]))
      && (forall k :: Lookup(es, k) == LastOutcome(os, k))
    decreases |os|
  {
    if os != [] {
      var pre := os[..|os| - 1];
      EntriesOfSpec(pre);
      var es := EntriesOf(pre);
      var o := os[|os| - 1];
      if o.Some? {
        var r := Put(es, o.value.keyword, o.value.m);
        PutSpec(es, o.value.keyword, o.value.m);
        assert EntriesOf(os) == r;
        forall i | 0 <= i < |r|
          ensures WellFormedEntry(r[i])
        {
          if r[i] != o.value {
            var j :| 0 <= j < |es| && es[j] == r[i];
          }
        }
      }
    }
  }

  /** A tier's dictionary: distinct keys, every entry obeying the count/score invariant,
      and each keyword mapped to what the last item with that cleaned keyword produced. */
  lemma TierEntriesSpec(text: string, safe: set<string>, items: seq<Item>)
    ensures var es := TierEntries(text, safe, items);
      && DistinctKeys(es)
      && (forall i :: 0 <= i < |es| ==> WellFormedEntry(es[i]))
      && (forall k :: Lookup(es, k) == LastOutcome(Outcomes(text, safe, items), k))
  {
    EntriesOfSpec(Outcomes(text, safe, items));
  }

  /** Every key of the dictionary is the keyword of some outcome. */
  lemma {:induction false} EntriesKeysFromOutcomes(os: seq<Option<Entry>>, k: string)
    requires HasKey(EntriesOf(os), k)
    ensures exists i :: 0 <= i < |os| && os[i].Some? && os[i].value.keyword == k
    decreases |os|
  {
    var pre := os[..|os| - 1];
    var o := os[|os| - 1];
    if o.Some? && o.value.keyword == k {
    } else {
      EntriesKeysFromOutcomes(pre, k);
      var i :| 0 <= i < |pre| && pre[i].Some? && pre[i].value.keyword == k;
      assert os[i] == pre[i];
    }
  }

  function SumTotals(es: seq<Entry>): int
    decreases |es|
  {
    if es == [] then 0 else SumTotals(es[..|es| - 1]) + es[|es| - 1].m.totalScore
  }

  predicate DistinctOutcomeKeys(os: seq<Option<Entry>>) {
    forall i, j :: 0 <= i < j < |os| && os[i].Some? && os[j].Some? ==> os[i].value.keyword != os[j].value.keyword
  }

  lemma {:induction false} TotalOfIsSum(os: seq<Option<Entry>>)
    requires DistinctOutcomeKeys(os)
    ensures TotalOf(os) == SumTotals(EntriesOf(os))
    decreases |os|
  {
    if os != [] {
      var pre := os[..|os| - 1];
      TotalOfIsSum(pre);
      var es := EntriesOf(pre);
      var o := os[|os| - 1];
      if o.Some? {
        assert !HasKey(es, o.value.keyword) by {
          if HasKey(es, o.value.keyword) {
            EntriesKeysFromOutcomes(pre, o.value.keyword);
          }
        }
        var r := es + [o.value];
        assert EntriesOf(os) == r;
        assert r[..|r| - 1] == es;
      }
    }
  }

  predicate DistinctCleanKeywords(items: seq<Item>) {
    forall i, j :: 0 <= i < j < |items| ==> CleanText(items[i].keyword) != CleanText(items[j].keyword)
  }

  /** When the cleaned keywords of a tier are distinct, what the tier adds to the total is
      the sum of the `total_score` values stored in its dictionary. */
  lemma TierTotalIsSumOfEntries(text: string, safe: set<string>, items: seq<Item>)
    requires DistinctCleanKeywords(items)
    ensures TierTotal(text, safe, items) == SumTotals(TierEntries(text, safe, items))
  {
    TotalOfIsSum(Outcomes(text, safe, items));
  }

  /** With a repeated keyword the total counts both items while the dictionary keeps one
      entry, so the total no longer equals the stored scores when the keyword scores. */
  lemma RepeatedKeywordCountedTwice(e: Entry)
    ensures TotalOf([Some(e), Some(e)]) == 2 * e.m.totalScore
    ensures EntriesOf([Some(e), Some(e)]) == [e]
    ensures SumTotals(EntriesOf([Some(e), Some(e)])) == e.m.totalScore
  {
    var os := [Some(e), Some(e)];
    assert os[..1] == [Some(e)];
    assert [Some(e)][..0] == [];
    assert TotalOf([Some(e)]) == e.m.totalScore;
    assert TotalOf(os) == TotalOf([Some(e)]) + e.m.totalScore;
    assert EntriesOf([Some(e)]) == [e] by {
      assert HasKey([e], e.keyword) by { assert [e][0].keyword == e.keyword; }
    }
    HasKeyIndex([e], e.keyword);
    assert EntriesOf(os) == Put([e], e.keyword, e.m);
    assert [e][..0] == [];
  }

  // ---------------------------------------------------------------------------------------
  // Severity
  // ---------------------------------------------------------------------------------------

  datatype Severity = VeryHigh | High | Moderate | Low | Minimal {
    /** The key of the severity counter. */
    function Name(): string {
      match this
      case VeryHigh => "very_high_risk"
      case High => "high_risk"
      case Moderate => "moderate_risk"
      case Low => "low_risk"
      case Minimal => "minimal_risk"
    }
  }

  /** `map_level_severity`: the severity counter a tier name feeds, by substring tests on
      the lower-cased name in a fixed precedence, defaulting to moderate. */
  function MapLevelSeverity(levelKey: string): (r: Severity)
    ensures r == VeryHigh <==> Contains(Lower(levelKey), "very_high") || Contains(Lower(levelKey), "critical")
    ensures r == High <==> (!Contains(Lower(levelKey), "very_high") && !Contains(Lower(levelKey), "critical")
      && Contains(Lower(levelKey), "high"))
    ensures r == Moderate <==> (!Contains(Lower(levelKey), "very_high") && !Contains(Lower(levelKey), "critical")
      && !Contains(Lower(levelKey), "high")
      && (Contains(Lower(levelKey), "moderate") || Contains(Lower(levelKey), "medium")
          || (!Contains(Lower(levelKey), "low") && !Contains(Lower(levelKey), "minimal"))))
    ensures r == Low <==> (!Contains(Lower(levelKey), "very_high") && !Contains(Lower(levelKey), "critical")
      && !Contains(Lower(levelKey), "high") && !Contains(Lower(levelKey), "moderate") && !Contains(Lower(levelKey), "medium")
      && Contains(Lower(levelKey), "low"))
    ensures r == Minimal <==> (!Contains(Lower(levelKey), "very_high") && !Contains(Lower(levelKey), "critical")
      && !Contains(Lower(levelKey), "high") && !Contains(Lower(levelKey), "moderate") && !Contains(Lower(levelKey), "medium")
      && !Contains(Lower(levelKey), "low") && Contains(Lower(levelKey), "minimal"))
  {
    var k := Lower(levelKey);
    if Contains(k, "very_high") || Contains(k, "critical") then VeryHigh
    else if Contains(k, "high") then High
    else if Contains(k, "moderate") || Contains(k, "medium") then Moderate
    else if Contains(k, "low") then Low
    else if Contains(k, "minimal") then Minimal
    else Moderate
  }

  /** The mapping ignores case. */
  lemma SeverityIgnoresCase(levelKey: string)
    ensures MapLevelSeverity(Lower(levelKey)) == MapLevelSeverity(levelKey)
  {
    LowerIdempotent(levelKey);
  }

  /** The five counter keys map to themselves. */
  lemma SeverityOfCounterName(s: Severity)
    ensures MapLevelSeverity(s.Name()) == s
  {
    match s
    case VeryHigh => VeryHighName();
    case High => HighName();
    case Moderate => ModerateName();
    case Low => LowName();
    case Minimal => MinimalName();
  }

  lemma VeryHighName()
    ensures MapLevelSeverity("very_high_risk") == VeryHigh
  {
    var n := "very_high_risk";
    LowerOfLower(n);
    assert OccursAt(n, "very_high", 0);
  }

  lemma HighName()
    ensures MapLevelSeverity("high_risk") == High
  {
    var n := "high_risk";
    LowerOfLower(n);
    assert OccursAt(n, "high", 0);
    NotContainsMissingChar(n, "very_high", 0);
    NotContainsMissingChar(n, "critical", 0);
  }

  lemma ModerateName()
    ensures MapLevelSeverity("moderate_risk") == Moderate
  {
    var n := "moderate_risk";
    LowerOfLower(n);
    assert OccursAt(n, "moderate", 0);
    NotContainsMissingChar(n, "very_high", 0);
    NotContainsMissingChar(n, "critical", 0);
    NotContainsMissingChar(n, "high", 0);
  }

  lemma LowName()
    ensures MapLevelSeverity("low_risk") == Low
  {
    var n := "low_risk";
    LowerOfLower(n);
    assert OccursAt(n, "low", 0);
    NotContainsMissingChar(n, "very_high", 0);
    NotContainsMissingChar(n, "critical", 0);
    NotContainsMissingChar(n, "high", 0);
    NotContainsMissingChar(n, "moderate", 0);
    NotContainsMissingChar(n, "medium", 0);
  }

  lemma MinimalName()
    ensures MapLevelSeverity("minimal_risk") == Minimal
  {
    var n := "minimal_risk";
    LowerOfLower(n);
    assert OccursAt(n, "minimal", 0);
    NotContainsMissingChar(n, "very_high", 0);
    NotContainsMissingChar(n, "critical", 0);
    NotContainsMissingChar(n, "high", 0);
    NotContainsMissingChar(n, "moderate", 1);
    NotContainsMissingChar(n, "medium", 1);
    NotContainsMissingChar(n, "low", 1);
  }

  datatype Counters = Counters(veryHigh: nat, high: nat, moderate: nat, low: nat, minimal: nat) {
    function Get(s: Severity): nat {
      match s
      case VeryHigh => veryHigh
      case High => high
      case Moderate => moderate
      case Low => low
      case Minimal => minimal
    }

    function Sum(): nat {
      veryHigh + high + moderate + low + minimal
    }

    /** `severity_counters[s] += 1`, `n` times. */
    function Bump(s: Severity, n: nat): (r: Counters)
      ensures r.Get(s) == Get(s) + n
      ensures forall s' :: s' != s ==> r.Get(s') == Get(s')
      ensures r.Sum() == Sum() + n
    {
      match s
      case VeryHigh => this.(veryHigh := veryHigh + n)
      case High => this.(high := high + n)
      case Moderate => this.(moderate := moderate + n)
      case Low => this.(low := low + n)
      case Minimal => this.(minimal := minimal + n)
    }
  }

  const NoCounts := Counters(0, 0, 0, 0, 0)

  // ---------------------------------------------------------------------------------------
  // The whole scoring loop
  // ---------------------------------------------------------------------------------------

  /** One tier of the result's "Matches": the tier name and its dictionary (possibly empty,
      as `setdefault` creates it before any keyword is tried). */
  datatype TierResult = TierResult(name: string, entries: seq<Entry>)

  datatype Scores = Scores(matches: seq<TierResult>, total: int, counters: Counters)

  /** What one tier contributes to the counters: its severity and its matched keywords. */
  datatype Tally = Tally(severity: Severity, matched: nat)

  /** Bumping the counters for each tally in turn. */
  function CountAll(ts: seq<Tally>): Counters
    decreases |ts|
  {
    if ts == [] then NoCounts
    else CountAll(ts[..|ts| - 1]).Bump(ts[|ts| - 1].severity, ts[|ts| - 1].matched)
  }

  function SumMatched(ts: seq<Tally>): nat
    decreases |ts|
  {
    if ts == [] then 0 else SumMatched(ts[..|ts| - 1]) + ts[|ts| - 1].matched
  }

  /** Each matched keyword bumps exactly one counter: the counters add up to the matched
      keywords. */
  lemma {:induction false} CountAllSum(ts: seq<Tally>)
    ensures CountAll(ts).Sum() == SumMatched(ts)
    decreases |ts|
  {
    if ts != [] {
      CountAllSum(ts[..|ts| - 1]);
    }
  }

  predicate Reaches(ts: seq<Tally>, s: Severity) {
    exists i :: 0 <= i < |ts| && ts[i].severity == s && ts[i].matched > 0
  }

  lemma ReachesSnoc(ts: seq<Tally>, s: Severity)
    requires ts != []
    ensures Reaches(ts, s) <==>
      Reaches(ts[..|ts| - 1], s) || (ts[|ts| - 1].severity == s && ts[|ts| - 1].matched > 0)
  {
    var pre := ts[..|ts| - 1];
    if Reaches(pre, s) {
      var i :| 0 <= i < |pre| && pre[i].severity == s && pre[i].matched > 0;
      assert ts[i] == pre[i];
    }
    if Reaches(ts, s) {
      var i :| 0 <= i < |ts| && ts[i].severity == s && ts[i].matched > 0;
      if i < |pre| {
        assert pre[i] == ts[i];
      }
    }
  }

  /** A counter is non-zero exactly when some tally for it is non-zero. */
  lemma {:induction false} CountAllGet(ts: seq<Tally>, s: Severity)
    ensures CountAll(ts).Get(s) > 0 <==> Reaches(ts, s)
    decreases |ts|
  {
    if ts != [] {
      CountAllGet(ts[..|ts| - 1], s);
      ReachesSnoc(ts, s);
    }
  }

  /** The tallies of a lexicon's tiers, in order. */
  function Tallies(text: string, safe: set<string>, lex: Lexicon): (ts: seq<Tally>)
    ensures |ts| == |lex|
    ensures forall i :: 0 <= i < |lex| ==>
      ts[i] == Tally(MapLevelSeverity(lex[i].name), TierMatched(text, safe, lex[i].items))
  {
    seq(|lex|, i requires 0 <= i < |lex| => Tally(MapLevelSeverity(lex[i].name), TierMatched(text, safe, lex[i].items)))
  }

  /** The severity counters after the outer loop: each tier bumps the counter its name
      maps to once per matched keyword. */
  function CountersOf(text: string, safe: set<string>, lex: Lexicon): Counters {
    CountAll(Tallies(text, safe, lex))
  }

  /** The total score after the outer loop. */
  function TotalScoreOf(text: string, safe: set<string>, lex: Lexicon): int
    decreases |lex|
  {
    if lex == [] then 0
    else TotalScoreOf(text, safe, lex[..|lex| - 1]) + TierTotal(text, safe, lex[|lex| - 1].items)
  }

  /** The outer loop of `cached_analyze_policy` over the lexicon's tiers, in order: the
      "Matches" dictionary, the total score and the severity counters it accumulates. */
  function ScoreLexicon(text: string, safe: set<string>, lex: Lexicon): (r: Scores)
    ensures |r.matches| == |lex|
    ensures forall i :: 0 <= i < |lex| ==>
      r.matches[i] == TierResult(lex[i].name, TierEntries(text, safe, lex[i].items))
  {
    Scores(seq(|lex|, i requires 0 <= i < |lex| => TierResult(lex[i].name, TierEntries(text, safe, lex[i].items))),
           TotalScoreOf(text, safe, lex),
           CountersOf(text, safe, lex))
  }

  /** The number of keyword entries that matched, over the whole lexicon. */
  function MatchedKeywords(text: string, safe: set<string>, lex: Lexicon): nat {
    SumMatched(Tallies(text, safe, lex))
  }

  /** The counters add up to the number of matched keywords, and a counter is non-zero
      exactly when some tier whose name maps to it has a matched keyword. */
  lemma CountersSpec(text: string, safe: set<string>, lex: Lexicon, s: Severity)
    ensures CountersOf(text, safe, lex).Sum() == MatchedKeywords(text, safe, lex)
    ensures CountersOf(text, safe, lex).Get(s) > 0 <==>
      exists i :: 0 <= i < |lex| && MapLevelSeverity(lex[i].name) == s && TierMatched(text, safe, lex[i].items) > 0
  {
    var ts := Tallies(text, safe, lex);
    CountAllSum(ts);
    CountAllGet(ts, s);
    if Reaches(ts, s) {
      var i :| 0 <= i < |ts| && ts[i].severity == s && ts[i].matched > 0;
      assert MapLevelSeverity(lex[i].name) == s && TierMatched(text, safe, lex[i].items) > 0;
    }
  }

  /** Sum of the stored `total_score` values over all tiers. */
  function SumOfMatches(ms: seq<TierResult>): int
    decreases |ms|
  {
    if ms == [] then 0 else SumOfMatches(ms[..|ms| - 1]) + SumTotals(ms[|ms| - 1].entries)
  }

  /** When each tier's cleaned keywords are distinct, the total score is the sum of every
      stored `total_score`. */
  lemma {:induction false} TotalIsSumOfMatches(text: string, safe: set<string>, lex: Lexicon)
    requires forall i :: 0 <= i < |lex| ==> DistinctCleanKeywords(lex[i].items)
    ensures ScoreLexicon(text, safe, lex).total == SumOfMatches(ScoreLexicon(text, safe, lex).matches)
    decreases |lex|
  {
    if lex != [] {
      var pre := lex[..|lex| - 1];
      TotalIsSumOfMatches(text, safe, pre);
      TierTotalIsSumOfEntries(text, safe, lex[|lex| - 1].items);
      var ms := ScoreLexicon(text, safe, lex).matches;
      assert ms[..|ms| - 1] == ScoreLexicon(text, safe, pre).matches;
    }
  }

  // ---------------------------------------------------------------------------------------
  // Effect of the safe phrases
  // ---------------------------------------------------------------------------------------

  /** More safe phrases never let more occurrences through. */
  lemma {:induction false} ValidShrinks(text: string, safe: set<string>, more: set<string>, occs: seq<Occurrence>)
    requires safe <= more
    ensures |ValidOccurrences(text, more, occs)| <= |ValidOccurrences(text, safe, occs)|
    decreases |occs|
  {
    if occs != [] {
      ValidShrinks(text, safe, more, occs[1..]);
      SafeSentenceMonotone(safe, more, occs[0].sentence);
    }
  }

  /** What a tier's items add to the total, item by item. */
  function ContributionSum(text: string, safe: set<string>, items: seq<Item>): int
    decreases |items|
  {
    if items == [] then 0
    else ContributionSum(text, safe, items[..|items| - 1]) + Contribution(text, safe, items[|items| - 1])
  }

  lemma {:induction false} TierTotalIsContributionSum(text: string, safe: set<string>, items: seq<Item>)
    ensures TierTotal(text, safe, items) == ContributionSum(text, safe, items)
    decreases |items|
  {
    if items != [] {
      var pre := items[..|items| - 1];
      TierTotalIsContributionSum(text, safe, pre);
      var os := Outcomes(text, safe, items);
      assert os[..|os| - 1] == Outcomes(text, safe, pre);
    }
  }

  predicate NonNegativeScores(items: seq<Item>) {
    forall k :: 0 <= k < |items| ==> items[k].score >= 0
  }

  /** With non-negative scores, an item contributes no more under more safe phrases. */
  lemma ContributionShrinks(text: string, safe: set<string>, more: set<string>, item: Item)
    requires safe <= more && item.score >= 0
    ensures 0 <= Contribution(text, more, item) <= Contribution(text, safe, item)
  {
    ValidShrinks(text, safe, more, DetectMatches(text, CleanText(item.keyword)));
    var o1 := ItemOutcome(text, more, item);
    var o2 := ItemOutcome(text, safe, item);
    var a := |Survivors(text, more, item)|;
    var b := |Survivors(text, safe, item)|;
    assert a <= b;
    if o1.Some? {
      assert o2.Some?;
      CapMono(a, b, item.score);
      assert Contribution(text, more, item) == o1.value.m.totalScore == item.score * Min(a, PerKeywordCap);
      assert Contribution(text, safe, item) == o2.value.m.totalScore == item.score * Min(b, PerKeywordCap);
    } else if o2.Some? {
      CapMono(0, b, item.score);
    }
  }

  lemma CapMono(a: nat, b: nat, c: int)
    requires a <= b && c >= 0
    ensures 0 <= c * Min(a, PerKeywordCap) <= c * Min(b, PerKeywordCap)
  {
    MulMono(Min(a, PerKeywordCap), Min(b, PerKeywordCap), c);
  }

  lemma {:induction false} ContributionSumShrinks(text: string, safe: set<string>, more: set<string>, items: seq<Item>)
    requires safe <= more && NonNegativeScores(items)
    ensures 0 <= ContributionSum(text, more, items) <= ContributionSum(text, safe, items)
    decreases |items|
  {
    if items != [] {
      ContributionSumShrinks(text, safe, more, items[..|items| - 1]);
      ContributionShrinks(text, safe, more, items[|items| - 1]);
    }
  }

  predicate NonNegativeLexicon(lex: Lexicon) {
    forall i :: 0 <= i < |lex| ==> NonNegativeScores(lex[i].items)
  }

  /** With non-negative scores, adding safe phrases never raises the total score, and the
      total is never negative. */
  lemma {:induction false} SafePhrasesNeverRaiseScore(text: string, safe: set<string>, more: set<string>, lex: Lexicon)
    requires safe <= more && NonNegativeLexicon(lex)
    ensures 0 <= TotalScoreOf(text, more, lex) <= TotalScoreOf(text, safe, lex)
    decreases |lex|
  {
    if lex != [] {
      var pre := lex[..|lex| - 1];
      assert NonNegativeLexicon(pre) by {
        forall i | 0 <= i < |pre| ensures NonNegativeScores(pre[i].items) {
          assert pre[i] == lex[i];
        }
      }
      SafePhrasesNeverRaiseScore(text, safe, more, pre);
      var items := lex[|lex| - 1].items;
      TierTotalIsContributionSum(text, safe, items);
      TierTotalIsContributionSum(text, more, items);
      ContributionSumShrinks(text, safe, more, items);
    }
  }

  // ---------------------------------------------------------------------------------------
  // Verdict
  // ---------------------------------------------------------------------------------------

  datatype RiskLevel = VeryHighRisk | HighRisk | ModerateRisk | LowRisk | MinimalRisk | NoRiskDetected {
    function Label(): string {
      match this
      case VeryHighRisk => "Very High Risk"
      case HighRisk => "High Risk"
      case ModerateRisk => "Moderate Risk"
      case LowRisk => "Low Risk"
      case MinimalRisk => "Minimal Risk"
      case NoRiskDetected => "No Risk Detected"
    }
  }

  /** The risk-level ladder, stated as the score band each level covers. Scores 21 to 49
      fall to "No Risk Detected" although lower positive scores read "Minimal Risk". */
  function RiskLevelFor(veryHighCount: nat, score: int): (r: RiskLevel)
    ensures r == VeryHighRisk <==> veryHighCount > 0 && score >= 200
    ensures r == HighRisk <==> score >= 160 && !(veryHighCount > 0 && score >= 200)
    ensures r == ModerateRisk <==> 100 <= score < 160
    ensures r == LowRisk <==> 50 <= score < 100
    ensures r == MinimalRisk <==> 1 <= score <= 20
    ensures r == NoRiskDetected <==> score <= 0 || 21 <= score <= 49
  {
    if veryHighCount > 0 && score >= 200 then VeryHighRisk
    else if score >= 160 then HighRisk
    else if score >= 100 then ModerateRisk
    else if score >= 50 then LowRisk
    else if 0 < score <= 20 then MinimalRisk
    else NoRiskDetected
  }

  /** Python's `int()` of a float: truncation toward zero. */
  function Trunc(x: real): int {
    if x >= 0.0 then x.Floor else -((-x).Floor)
  }

  lemma TruncMonotone(x: real, y: real)
    requires x <= y
    ensures Trunc(x) <= Trunc(y)
  {
    if x >= 0.0 {
      assert x.Floor as real <= x <= y;
    } else if y >= 0.0 {
      assert Trunc(x) <= 0;
    } else {
      assert (-y).Floor as real <= -y <= -x;
    }
  }

  /** `min(95, 50 + int(total_score * 0.2 + tfidf_density * 0.3))`. */
  function Confidence(score: int, density: real): (c: int)
    ensures c <= 95
    ensures score >= 0 && density >= 0.0 ==> c >= 50
  {
    Min(95, 50 + Trunc(score as real * 0.2 + density * 0.3))
  }

  /** Confidence never drops when the score or the density grows. */
  lemma ConfidenceMonotone(s1: int, s2: int, d1: real, d2: real)
    requires s1 <= s2 && d1 <= d2
    ensures Confidence(s1, d1) <= Confidence(s2, d2)
  {
    TruncMonotone(s1 as real * 0.2 + d1 * 0.3, s2 as real * 0.2 + d2 * 0.3);
  }
}

=== FILE: risk_signals.dfy ===
/** The two auxiliary signals of the analysis (TermsBuster/modules/risk_analyzer.py): the
    TF-IDF risk density and the TextRank top phrases. The vectoriser's vocabulary and the
    PageRank ordering come from libraries and enter as oracle parameters; everything the
    analyser computes around them is modelled. */
module RiskSignals {
  import opened Wrappers
  import opened Text
  import opened Patterns
  import opened RiskScoring

  // ---------------------------------------------------------------------------------------
  // Sentences that qualify for both signals
  // ---------------------------------------------------------------------------------------

  /** Pieces shorter than this (after stripping) are dropped. */
  const MinSentenceLength: nat := 10

  /** The strings longer than `n`, in order. */
  function LongerThan(xs: seq<string>, n: nat): (r: seq<string>)
    ensures |r| <= |xs|
    ensures forall k :: 0 <= k < |r| ==> |r[k]| > n
    ensures forall s :: s in r <==> s in xs && |s| > n
    decreases |xs|
  {
    if xs == [] then []
    else
      var rest := LongerThan(xs[1..], n);
      assert forall s :: s in xs <==> s == xs[0] || s in xs[1..];
      if |xs[0]| > n then [xs[0]] + rest else rest
  }

  /** The positions from `k` on whose strings are longer than `n`, in increasing order. */
  function LongPositions(xs: seq<string>, n: nat, k: nat): (ix: seq<nat>)
    requires k <= |xs|
    ensures forall m :: 0 <= m < |ix| ==> k <= ix[m] < |xs| && |xs[ix[m]]| > n
    ensures forall m, m' :: 0 <= m < m' < |ix| ==> ix[m] < ix[m']
    ensures forall i :: k <= i < |xs| && |xs[i]| > n ==> i in ix
    decreases |xs| - k
  {
    if k == |xs| then []
    else
      var rest := LongPositions(xs, n, k + 1);
      if |xs[k]| > n then [k] + rest else rest
  }

  /** The filter keeps the order and the multiplicity of its input: the m-th kept string is
      the string at the m-th long position. */
  lemma LongerThanInOrder(xs: seq<string>, n: nat)
    ensures var ix := LongPositions(xs, n, 0);
      |LongerThan(xs, n)| == |ix| && forall m :: 0 <= m < |ix| ==> LongerThan(xs, n)[m] == xs[ix[m]]
  {
    LongerFrom(xs, n, 0);
    assert xs[0..] == xs;
  }

  lemma {:induction false} LongerFrom(xs: seq<string>, n: nat, k: nat)
    requires k <= |xs|
    ensures var r := LongerThan(xs[k..], n);
      var ix := LongPositions(xs, n, k);
      |r| == |ix| && forall m :: 0 <= m < |ix| ==> r[m] == xs[ix[m]]
    decreases |xs| - k
  {
    if k < |xs| {
      LongerFrom(xs, n, k + 1);
      LongerUnfold(xs, n, k);
      var rest := LongerThan(xs[k + 1..], n);
      var ix := LongPositions(xs, n, k + 1);
      if |xs[k]| > n {
        ConsAtPositions(xs, k, rest, ix);
      }
    } else {
      assert xs[k..] == [];
    }
  }

  /** One step of the filter and of the positions, side by side. */
  lemma LongerUnfold(xs: seq<string>, n: nat, k: nat)
    requires k < |xs|
    ensures LongerThan(xs[k..], n) ==
      if |xs[k]| > n then [xs[k]] + LongerThan(xs[k + 1..], n) else LongerThan(xs[k + 1..], n)
    ensures LongPositions(xs, n, k) ==
      if |xs[k]| > n then [k] + LongPositions(xs, n, k + 1) else LongPositions(xs, n, k + 1)
  {
    var u := xs[k..];
    assert u[0] == xs[k];
    assert u[1..] == xs[k + 1..];
  }

  /** The stripped pieces longer than `MinSentenceLength`, in order. */
  function Qualifying(pieces: seq<string>): (r: seq<string>)
    ensures |r| <= |pieces|
    ensures forall k :: 0 <= k < |r| ==> |r[k]| > MinSentenceLength
    ensures forall s :: s in r <==> (exists k :: 0 <= k < |pieces| && Strip(pieces[k]) == s) && |s| > MinSentenceLength
  {
    var ss := Strips(pieces);
    assert forall s :: s in ss <==> exists k :: 0 <= k < |pieces| && Strip(pieces[k]) == s by {
      forall s | s in ss ensures exists k :: 0 <= k < |pieces| && Strip(pieces[k]) == s {
        var k :| 0 <= k < |ss| && ss[k] == s;
      }
    }
    LongerThan(ss, MinSentenceLength)
  }

  /** The qualifying sentences keep the order of the pieces: the m-th is the stripped piece
      at the m-th position whose stripped form is longer than ten characters, and every
      such position is used, each once. */
  lemma QualifyingInOrder(pieces: seq<string>)
    ensures var ss := Strips(pieces);
      var ix := LongPositions(ss, MinSentenceLength, 0);
      && |Qualifying(pieces)| == |ix|
      && (forall m :: 0 <= m < |ix| ==> ix[m] < |pieces| && Qualifying(pieces)[m] == Strip(pieces[ix[m]]))
      && (forall m, m' :: 0 <= m < m' < |ix| ==> ix[m] < ix[m'])
      && (forall i :: 0 <= i < |pieces| && |Strip(pieces[i])| > MinSentenceLength ==> i in ix)
  {
    var ss := Strips(pieces);
    LongerThanInOrder(ss, MinSentenceLength);
    assert Qualifying(pieces) == LongerThan(ss, MinSentenceLength);
  }

  /** The sentences both signals work on: the sentence split of the text, stripped,
      keeping those longer than ten characters. */
  function QualifyingSentences(text: string): seq<string> {
    Qualifying(Segments(text))
  }

  // ---------------------------------------------------------------------------------------
  // TF-IDF density
  // ---------------------------------------------------------------------------------------

  /** Only the first twenty items of each tier feed the keyword pool. */
  const PoolPerTier: nat := 20

  /** Keywords of more than three words are left out of the pool. */
  const MaxPoolWords: nat := 3

  /** The pool form of a keyword: lower-cased and stripped, but not whitespace-collapsed. */
  function PoolKeyword(item: Item): string {
    Strip(Lower(item.keyword))
  }

  predicate PoolEligible(kw: string) {
    kw != [] && |SplitWords(kw)| <= MaxPoolWords
  }

  /** The eligible strings, in order. */
  function KeepEligible(kws: seq<string>): (r: seq<string>)
    ensures forall kw :: kw in r <==> kw in kws && PoolEligible(kw)
    decreases |kws|
  {
    if kws == [] then []
    else
      var rest := KeepEligible(kws[1..]);
      assert forall s :: s in kws <==> s == kws[0] || s in kws[1..];
      if PoolEligible(kws[0]) then [kws[0]] + rest else rest
  }

  /** The pool forms of some items, in order. */
  function PoolForms(items: seq<Item>): (r: seq<string>)
    ensures |r| == |items|
    ensures forall j :: 0 <= j < |items| ==> r[j] == PoolKeyword(items[j])
  {
    seq(|items|, j requires 0 <= j < |items| => PoolKeyword(items[j]))
  }

  /** What one tier adds to the pool: the eligible forms of its first twenty items. */
  function TierPool(items: seq<Item>): seq<string> {
    KeepEligible(PoolForms(items[..Min(PoolPerTier, |items|)]))
  }

  predicate InTierPool(items: seq<Item>, kw: string) {
    exists j :: 0 <= j < |items| && j < PoolPerTier && PoolKeyword(items[j]) == kw && PoolEligible(kw)
  }

  lemma TierPoolMembership(items: seq<Item>, kw: string)
    ensures kw in TierPool(items) <==> InTierPool(items, kw)
  {
    var n := Min(PoolPerTier, |items|);
    var forms := PoolForms(items[..n]);
    assert TierPool(items) == KeepEligible(forms);
    if kw in forms && PoolEligible(kw) {
      var j :| 0 <= j < |forms| && forms[j] == kw;
      PoolFormAt(items, n, forms, j);
    }
    if InTierPool(items, kw) {
      var j :| 0 <= j < |items| && j < PoolPerTier && PoolKeyword(items[j]) == kw && PoolEligible(kw);
      PoolFormAt(items, n, forms, j);
      assert forms[j] == kw;
    }
  }

  /** Position `j` of the pool forms of a tier's first items holds that item's pool keyword. */
  lemma PoolFormAt(items: seq<Item>, n: nat, forms: seq<string>, j: nat)
    requires n == Min(PoolPerTier, |items|) && forms == PoolForms(items[..n])
    requires j < |forms| || (j < |items| && j < PoolPerTier)
    ensures j < |forms| && j < |items| && j < PoolPerTier && forms[j] == PoolKeyword(items[j])
  {
    assert items[..n][j] == items[j];
  }

  /** The keyword pool, tier by tier, as the analyser's nested loop appends it. */
  function RiskKeywordPool(lex: Lexicon): (r: seq<string>)
    decreases |lex|
  {
    if lex == [] then [] else TierPool(lex[0].items) + RiskKeywordPool(lex[1..])
  }

  /** A keyword is in the pool exactly when it is the eligible pool form of one of the first
      twenty items of some tier; every pool keyword is non-empty and has at most three words. */
  lemma {:induction false} PoolMembership(lex: Lexicon, kw: string)
    ensures kw in RiskKeywordPool(lex) <==> exists i :: 0 <= i < |lex| && InTierPool(lex[i].items, kw)
    ensures kw in RiskKeywordPool(lex) ==> kw != [] && |SplitWords(kw)| <= MaxPoolWords
    decreases |lex|
  {
    if lex != [] {
      PoolMembership(lex[1..], kw);
      TierPoolMembership(lex[0].items, kw);
      if exists i :: 0 <= i < |lex| && InTierPool(lex[i].items, kw) {
        var i :| 0 <= i < |lex| && InTierPool(lex[i].items, kw);
        if i > 0 {
          assert lex[1..][i - 1] == lex[i];
        }
      }
      if exists i :: 0 <= i < |lex[1..]| && InTierPool(lex[1..][i].items, kw) {
        var i :| 0 <= i < |lex[1..]| && InTierPool(lex[1..][i].items, kw);
        assert lex[i + 1] == lex[1..][i];
      }
    }
  }

  /** The distinct pool keywords the vocabulary contains. */
  function Hits(pool: seq<string>, names: seq<string>): set<string> {
    set kw | kw in pool && kw in names
  }

  /** The share of the vocabulary, in percent, that is a pool keyword. */
  function RawDensity(pool: seq<string>, names: seq<string>): real {
    if |names| == 0 then 0.0 else |Hits(pool, names)| as real / |names| as real * 100.0
  }

  function RMin(a: real, b: real): real {
    if a <= b then a else b
  }

  /** The density is positive exactly when the vocabulary holds a pool keyword. */
  lemma RawDensitySign(pool: seq<string>, names: seq<string>)
    ensures RawDensity(pool, names) >= 0.0
    ensures RawDensity(pool, names) > 0.0 <==> exists kw :: kw in pool && kw in names
  {
    if exists kw :: kw in pool && kw in names {
      var kw :| kw in pool && kw in names;
      assert kw in Hits(pool, names);
    }
    if |Hits(pool, names)| > 0 {
      var kw :| kw in Hits(pool, names);
    }
  }

  /** `get_tfidf_density`: the share of the fitted vocabulary that is a pool keyword, capped
      at 100. `vocabulary` stands for the vectoriser fitted on the qualifying sentences;
      `None` is a library error, which the analyser turns into 0. */
  function TfidfDensity(text: string, lex: Lexicon, vocabulary: seq<string> -> Option<seq<string>>): (d: real)
    ensures 0.0 <= d <= 100.0
    ensures d > 0.0 <==>
      var sents := QualifyingSentences(text);
      && |sents| >= 2
      && vocabulary(sents).Some?
      && exists kw :: kw in RiskKeywordPool(lex) && kw in vocabulary(sents).value
  {
    var sents := QualifyingSentences(text);
    if |sents| < 2 then 0.0
    else
      match vocabulary(sents)
      case None => 0.0
      case Some(names) =>
        CappedDensitySign(RiskKeywordPool(lex), names);
        RMin(100.0, RawDensity(RiskKeywordPool(lex), names))
  }

  /** The cap keeps the density in 0..100 without changing its sign. */
  lemma CappedDensitySign(pool: seq<string>, names: seq<string>)
    ensures 0.0 <= RMin(100.0, RawDensity(pool, names)) <= 100.0
    ensures RMin(100.0, RawDensity(pool, names)) > 0.0 <==> exists kw :: kw in pool && kw in names
  {
    RawDensitySign(pool, names);
  }

  lemma SubsetCard(a: set<string>, b: set<string>)
    requires a <= b
    ensures |a| <= |b|
  {
    assert b * a == a;
    assert |b - a| == |b| - |b * a|;
  }

  lemma {:induction false} CardOfElems(xs: seq<string>)
    ensures |set x | x in xs| <= |xs|
    decreases |xs|
  {
    if xs != [] {
      CardOfElems(xs[1..]);
      assert (set x | x in xs) == {xs[0]} + (set x | x in xs[1..]);
    }
  }

  /** The cap of 100 never bites: the pool keywords found are distinct vocabulary entries, so
      they are never more than the vocabulary. */
  lemma DensityNeverCapped(pool: seq<string>, names: seq<string>)
    ensures RawDensity(pool, names) <= 100.0
  {
    if |names| > 0 {
      SubsetCard(Hits(pool, names), set x | x in names);
      CardOfElems(names);
      var h := |Hits(pool, names)| as real;
      var n := |names| as real;
      assert h <= n;
      assert h / n <= 1.0;
    }
  }

  // ---------------------------------------------------------------------------------------
  // TextRank phrases
  // ---------------------------------------------------------------------------------------

  /** The longest prefix of `s` made of word characters. */
  function TakeRun(s: string): (w: string)
    ensures |w| <= |s| && w == s[..|w|]
    ensures forall i :: 0 <= i < |w| ==> IsWordChar(w[i])
    ensures |w| < |s| ==> !IsWordChar(s[|w|])
  {
    if |s| > 0 && IsWordChar(s[0]) then [s[0]] + TakeRun(s[1..]) else []
  }

  predicate IsRun(w: string) {
    w != [] && forall i :: 0 <= i < |w| ==> IsWordChar(w[i])
  }

  /** `re.findall(r'\w+', s)`: the maximal runs of word characters, in order. */
  function WordRuns(s: string): (r: seq<string>)
    ensures forall k :: 0 <= k < |r| ==> IsRun(r[k])
    decreases |s|
  {
    if s == [] then []
    else if !IsWordChar(s[0]) then WordRuns(s[1..])
    else
      var w := TakeRun(s);
      [w] + WordRuns(s[|w|..])
  }

  /** A text with no word characters has no runs; a single run is found whole. */
  lemma {:induction false} WordRunsOfRun(w: string, tail: string)
    requires IsRun(w)
    requires tail == [] || !IsWordChar(tail[0])
    ensures WordRuns(w + tail) == [w] + WordRuns(tail)
  {
    TakeRunOf(w, tail);
    assert (w + tail)[0] == w[0];
    assert (w + tail)[|w|..] == tail;
  }

  lemma {:induction false} TakeRunOf(w: string, tail: string)
    requires forall i :: 0 <= i < |w| ==> IsWordChar(w[i])
    requires tail == [] || !IsWordChar(tail[0])
    ensures TakeRun(w + tail) == w
    decreases |w|
  {
    if w != [] {
      assert (w + tail)[1..] == w[1..] + tail;
      TakeRunOf(w[1..], tail);
    }
  }

  /** The lower-cased words of a sentence. */
  function WordSet(s: string): (ws: set<string>)
    ensures forall w :: w in ws ==> IsRun(w)
  {
    set w | w in WordRuns(Lower(s))
  }

  /** The overlap similarity of two sentences: how many words they share. */
  function Overlap(s1: string, s2: string): nat {
    |WordSet(s1) * WordSet(s2)|
  }

  /** An edge of the sentence graph: two sentence indices and their overlap. */
  datatype Edge = Edge(i: nat, j: nat, weight: nat)

  /** Two sentences are linked when they share more than one word. */
  predicate Linked(sents: seq<string>, i: nat, j: nat)
    requires i < |sents| && j < |sents|
  {
    Overlap(sents[i], sents[j]) > 1
  }

  /** The edges from sentence `i` to sentences `j..`, in order. */
  function RowEdges(sents: seq<string>, i: nat, j: nat): (r: seq<Edge>)
    requires i < |sents|
    ensures forall e :: e in r ==> (j <= e.j < |sents| && e.i == i && Linked(sents, i, e.j)
      && e.weight == Overlap(sents[i], sents[e.j]))
    ensures forall k :: j <= k < |sents| && Linked(sents, i, k) ==> Edge(i, k, Overlap(sents[i], sents[k])) in r
    ensures forall a, b :: 0 <= a < b < |r| ==> r[a].j < r[b].j
    decreases |sents| - j
  {
    if j >= |sents| then []
    else
      var rest := RowEdges(sents, i, j + 1);
      if Linked(sents, i, j) then [Edge(i, j, Overlap(sents[i], sents[j]))] + rest else rest
  }

  /** The edges of every row from `i` on, rows in order. */
  function EdgesFrom(sents: seq<string>, i: nat): (r: seq<Edge>)
    ensures forall e :: e in r ==> (i <= e.i < e.j < |sents| && Linked(sents, e.i, e.j)
      && e.weight == Overlap(sents[e.i], sents[e.j]))
    ensures forall a, b :: i <= a < b < |sents| && Linked(sents, a, b) ==> Edge(a, b, Overlap(sents[a], sents[b])) in r
    decreases |sents| - i
  {
    if i >= |sents| then []
    else RowEdges(sents, i, i + 1) + EdgesFrom(sents, i + 1)
  }

  /** The sentence-similarity graph: an edge for every pair `i < j` sharing more than one
      word, weighted by the overlap. */
  function Edges(sents: seq<string>): (r: seq<Edge>)
    ensures forall e :: e in r ==> e.i < e.j < |sents| && Linked(sents, e.i, e.j)
    ensures forall a, b :: 0 <= a < b < |sents| && Linked(sents, a, b) ==> Edge(a, b, Overlap(sents[a], sents[b])) in r
  {
    EdgesFrom(sents, 0)
  }

  /** The graph is empty exactly when no two sentences share more than one word. */
  lemma EdgesEmpty(sents: seq<string>)
    ensures Edges(sents) == [] <==> forall a, b :: 0 <= a < b < |sents| ==> !Linked(sents, a, b)
  {
    if Edges(sents) != [] {
      var e := Edges(sents)[0];
      assert e in Edges(sents);
    }
  }

  /** The maximum number of phrases the analysis asks for. */
  const DefaultMaxPhrases: nat := 5

  /** The `except` branch: the first five pieces of the sentence split, stripped, dropping
      the empty ones. */
  function FallbackPhrases(text: string): (r: seq<string>)
    ensures |r| <= DefaultMaxPhrases
    ensures forall k :: 0 <= k < |r| ==> r[k] != []
    ensures forall s :: s in r <==> s in Strips(Segments(text)[..Min(DefaultMaxPhrases, |Segments(text)|)]) && s != []
  {
    var segs := Segments(text);
    LongerThan(Strips(segs[..Min(DefaultMaxPhrases, |segs|)]), 0)
  }

  /** The fallback keeps the order of the first five pieces: the m-th phrase is the
      stripped piece at the m-th of those positions whose stripped form is non-empty, and
      every such position is used, each once. */
  lemma FallbackInOrder(text: string)
    ensures var segs := Segments(text);
      var h := Min(DefaultMaxPhrases, |segs|);
      var ix := LongPositions(Strips(segs[..h]), 0, 0);
      && |FallbackPhrases(text)| == |ix|
      && (forall m :: 0 <= m < |ix| ==> ix[m] < h && FallbackPhrases(text)[m] == Strip(segs[ix[m]]))
      && (forall m, m' :: 0 <= m < m' < |ix| ==> ix[m] < ix[m'])
      && (forall i :: 0 <= i < h && Strip(segs[i]) != [] ==> i in ix)
  {
    var segs := Segments(text);
    var h := Min(DefaultMaxPhrases, |segs|);
    var ss := Strips(segs[..h]);
    LongerThanInOrder(ss, 0);
    assert FallbackPhrases(text) == LongerThan(ss, 0);
    forall i | 0 <= i < h ensures ss[i] == Strip(segs[i]) {
      assert segs[..h][i] == segs[i];
    }
  }

  predicate AllBelow(xs: seq<nat>, n: nat) {
    forall k :: 0 <= k < |xs| ==> xs[k] < n
  }

  /** The sentences at the given indices. */
  function Pick(sents: seq<string>, idx: seq<nat>): (r: seq<string>)
    requires AllBelow(idx, |sents|)
    ensures |r| == |idx|
    ensures forall k :: 0 <= k < |idx| ==> r[k] == sents[idx[k]]
  {
    seq(|idx|, k requires 0 <= k < |idx| => sents[idx[k]])
  }

  /** The top `maxPhrases` sentences of a ranking, when every index names a sentence. */
  function TopSentences(sents: seq<string>, order: seq<nat>, maxPhrases: nat): (r: Option<seq<string>>)
    ensures r.Some? ==> |r.value| <= maxPhrases && forall s :: s in r.value ==> s in sents
  {
    var top := order[..Min(maxPhrases, |order|)];
    if AllBelow(top, |sents|) then
      var p := Pick(sents, top);
      assert forall s :: s in p ==> s in sents by {
        forall s | s in p ensures s in sents {
          var k :| 0 <= k < |p| && p[k] == s;
          assert sents[top[k]] == s;
        }
      }
      Some(p)
    else None
  }

  lemma PrefixMembers(xs: seq<string>, n: nat)
    requires n <= |xs|
    ensures forall s :: s in xs[..n] ==> s in xs
  {
    forall s | s in xs[..n] ensures s in xs {
      var k :| 0 <= k < n && xs[..n][k] == s;
      assert xs[k] == s;
    }
  }

  /** The ranking step on given sentences: fewer than three give nothing, a graph without
      edges gives the first sentences, and otherwise the best-ranked ones, or `fallback`
      when the ranking fails or names a sentence that does not exist. */
  function RankPhrases(sents: seq<string>, fallback: seq<string>, maxPhrases: nat,
                       rank: seq<Edge> -> Option<seq<nat>>): (r: seq<string>)
    ensures |sents| < 3 ==> r == []
    ensures |r| <= maxPhrases || r == fallback
    ensures (forall s :: s in r ==> s in sents) || r == fallback
    ensures |sents| >= 3 && Edges(sents) == [] ==> r == sents[..Min(maxPhrases, |sents|)]
    ensures |sents| >= 3 && Edges(sents) != [] && rank(Edges(sents)).None? ==> r == fallback
    ensures |sents| >= 3 && Edges(sents) != [] && rank(Edges(sents)).Some? ==>
      var order := rank(Edges(sents)).value;
      var top := order[..Min(maxPhrases, |order|)];
      if AllBelow(top, |sents|) then r == Pick(sents, top) else r == fallback
  {
    if |sents| < 3 then []
    else
      var edges := Edges(sents);
      if edges == [] then
        PrefixMembers(sents, Min(maxPhrases, |sents|));
        sents[..Min(maxPhrases, |sents|)]
      else
        match rank(edges)
        case None => fallback
        case Some(order) =>
          match TopSentences(sents, order, maxPhrases)
          case Some(p) => p
          case None => fallback
  }

  /** `extract_textrank_phrases`. `rank` stands for PageRank on the graph followed by the sort
      by descending score: the graph's nodes, best first, or `None` when the library fails.
      A failure, or an index that names no sentence, lands in the `except` fallback. */
  function TextRankPhrases(text: string, maxPhrases: nat, rank: seq<Edge> -> Option<seq<nat>>): (r: seq<string>)
    ensures |QualifyingSentences(text)| < 3 ==> r == []
    ensures |r| <= maxPhrases || r == FallbackPhrases(text)
    ensures (forall s :: s in r ==> s in QualifyingSentences(text)) || r == FallbackPhrases(text)
    ensures var sents := QualifyingSentences(text);
      |sents| >= 3 && Edges(sents) == [] ==> r == sents[..Min(maxPhrases, |sents|)]
  {
    var sents := QualifyingSentences(text);
    var fallback := FallbackPhrases(text);
    var r := RankPhrases(sents, fallback, maxPhrases, rank);
    r
  }

  /** When the graph has edges, the phrases are the sentences at the top of the ranking, and
      a failed ranking, or one naming a sentence that does not exist, gives the fallback. */
  lemma TextRankFollowsRanking(text: string, maxPhrases: nat, rank: seq<Edge> -> Option<seq<nat>>)
    ensures var sents := QualifyingSentences(text);
      |sents| >= 3 && Edges(sents) != [] && rank(Edges(sents)).None? ==>
        TextRankPhrases(text, maxPhrases, rank) == FallbackPhrases(text)
    ensures var sents := QualifyingSentences(text);
      |sents| >= 3 && Edges(sents) != [] && rank(Edges(sents)).Some? ==>
        var order := rank(Edges(sents)).value;
        var top := order[..Min(maxPhrases, |order|)];
        if AllBelow(top, |sents|) then TextRankPhrases(text, maxPhrases, rank) == Pick(sents, top)
        else TextRankPhrases(text, maxPhrases, rank) == FallbackPhrases(text)
  {
  }

  /** Every phrase is non-empty: a qualifying sentence is longer than ten characters and the
      fallback drops empty pieces. */
  lemma TextRankNonEmpty(text: string, maxPhrases: nat, rank: seq<Edge> -> Option<seq<nat>>)
    ensures forall s :: s in TextRankPhrases(text, maxPhrases, rank) ==> |s| > 0
  {
    var r := TextRankPhrases(text, maxPhrases, rank);
    var sents := QualifyingSentences(text);
    forall s | s in r ensures |s| > 0 {
      if s in sents {
        var k :| 0 <= k < |sents| && sents[k] == s;
        assert |sents[k]| > MinSentenceLength;
      } else {
        assert r == FallbackPhrases(text);
      }
    }
  }
}

=== FILE: text.dfy ===
/** Characters and strings over ASCII, with Python's notion of whitespace and word characters. */
module Text {

  /** Whitespace as Python's `str.isspace`, `str.split`, `str.strip` and the regex class `\s`
      see it on ASCII: tab, line feed, vertical tab, form feed, carriage return, the four
      information separators 0x1C-0x1F, and space. */
  predicate IsSpace(c: char) {
    c == ' ' || c == '\t' || c == '\n' || c == '\r' || c == '\U{000B}' || c == '\U{000C}'
    || ('\U{001C}' <= c <= '\U{001F}')
  }

  /** The regex class `\w` restricted to ASCII: letters, digits and underscore. */
  predicate IsWordChar(c: char) {
    ('a' <= c <= 'z') || ('A' <= c <= 'Z') || ('0' <= c <= '9') || c == '_'
  }

  predicate IsUpperChar(c: char) {
    'A' <= c <= 'Z'
  }

  function LowerChar(c: char): char {
    if 'A' <= c <= 'Z' then (c as int + 32) as char else c
  }

  function UpperChar(c: char): char {
    if 'a' <= c <= 'z' then (c as int - 32) as char else c
  }

  /** `str.lower()` on ASCII. */
  function Lower(s: string): (r: string)
    ensures |r| == |s|
    ensures forall i :: 0 <= i < |s| ==> r[i] == LowerChar(s[i])
  {
    seq(|s|, i requires 0 <= i < |s| => LowerChar(s[i]))
  }

  /** No upper-case letter anywhere. */
  predicate IsLower(s: string) {
    forall i :: 0 <= i < |s| ==> !IsUpperChar(s[i])
  }

  /** No whitespace anywhere: one token of `str.split()`. */
  predicate IsWord(w: string) {
    w != [] && forall i :: 0 <= i < |w| ==> !IsSpace(w[i])
  }

  lemma LowerIsLower(s: string)
    ensures IsLower(Lower(s))
  {
  }

  lemma LowerOfLower(s: string)
    requires IsLower(s)
    ensures Lower(s) == s
  {
  }

  lemma LowerIdempotent(s: string)
    ensures Lower(Lower(s)) == Lower(s)
  {
    LowerIsLower(s);
    LowerOfLower(Lower(s));
  }

  lemma LowerConcat(a: string, b: string)
    ensures Lower(a + b) == Lower(a) + Lower(b)
  {
  }

  lemma LowerSlice(s: string, i: int, j: int)
    requires 0 <= i <= j <= |s|
    ensures Lower(s[i..j]) == Lower(s)[i..j]
  {
  }

  lemma LowerCharKeepsClass(c: char)
    ensures IsWordChar(LowerChar(c)) == IsWordChar(c)
    ensures IsSpace(LowerChar(c)) == IsSpace(c)
  {
  }

  /** Drops leading whitespace (`str.lstrip()`). */
  function StripLeft(s: string): (r: string)
    ensures |r| <= |s| && r == s[|s| - |r|..]
    ensures r != [] ==> !IsSpace(r[0])
    ensures (forall i :: 0 <= i < |s| - |r| ==> IsSpace(s[i]))
  {
    if |s| > 0 && IsSpace(s[0]) then StripLeft(s[1..]) else s
  }

  /** Drops trailing whitespace (`str.rstrip()`). */
  function StripRight(s: string): (r: string)
    ensures |r| <= |s| && r == s[..|r|]
    ensures r != [] ==> !IsSpace(r[|r| - 1])
    ensures (forall i :: |r| <= i < |s| ==> IsSpace(s[i]))
  {
    if |s| > 0 && IsSpace(s[|s| - 1]) then StripRight(s[..|s| - 1]) else s
  }

  /** `str.strip()`: a slice of the input with no whitespace at either end. */
  function Strip(s: string): (r: string)
    ensures |r| <= |s| - StripStart(s)
    ensures r == s[StripStart(s)..StripStart(s) + |r|]
    ensures r != [] ==> !IsSpace(r[0]) && !IsSpace(r[|r| - 1])
  {
    StripRight(StripLeft(s))
  }

  /** Where the stripped text begins inside the original. */
  function StripStart(s: string): nat
  {
    |s| - |StripLeft(s)|
  }

  lemma StripLeftNoop(s: string)
    requires s == [] || !IsSpace(s[0])
    ensures StripLeft(s) == s
  {
  }

  lemma StripRightNoop(s: string)
    requires s == [] || !IsSpace(s[|s| - 1])
    ensures StripRight(s) == s
  {
  }

  lemma StripNoop(s: string)
    requires s == [] || (!IsSpace(s[0]) && !IsSpace(s[|s| - 1]))
    ensures Strip(s) == s
  {
    StripLeftNoop(s);
    StripRightNoop(s);
  }

  /** A string that starts with a non-space character keeps a non-empty strip. */
  lemma StripKeepsFirst(s: string)
    requires s != [] && !IsSpace(s[0])
    ensures Strip(s) != [] && Strip(s)[0] == s[0]
  {
    StripLeftNoop(s);
  }

  /** Python's `sub in s`. */
  predicate Contains(s: string, sub: string) {
    exists i | 0 <= i <= |s| - |sub| :: OccursAt(s, sub, i)
  }

  /** `sub` occurs in `s` starting at index `i`. */
  predicate OccursAt(s: string, sub: string, i: int) {
    0 <= i <= |s| - |sub| && s[i..i + |sub|] == sub
  }

  /** `sub` cannot occur in `s` when one of its characters is missing from `s`. */
  lemma NotContainsMissingChar(s: string, sub: string, j: nat)
    requires j < |sub| && sub[j] !in s
    ensures !Contains(s, sub)
  {
  }

  /** Python's `s[i:j]` for non-negative bounds: out-of-range bounds are clamped. */
  function ClampSlice(s: string, i: nat, j: nat): (r: string)
    ensures |r| <= |s|
  {
    if i >= j || i >= |s| then [] else s[i..if j <= |s| then j else |s|]
  }

  /** `sep.join(xs)`. */
  function Join(sep: string, xs: seq<string>): string
  {
    if |xs| == 0 then [] else if |xs| == 1 then xs[0] else xs[0] + sep + Join(sep, xs[1..])
  }

  lemma JoinCons(sep: string, x: string, ys: seq<string>)
    requires ys != []
    ensures Join(sep, [x] + ys) == x + sep + Join(sep, ys)
  {
    assert ([x] + ys)[1..] == ys;
  }

  lemma JoinSnoc(sep: string, xs: seq<string>, x: string)
    requires xs != []
    ensures Join(sep, xs + [x]) == Join(sep, xs) + sep + x
  {
    if |xs| == 1 {
      assert xs + [x] == [xs[0], x];
    } else {
      assert (xs + [x])[1..] == xs[1..] + [x];
      JoinSnoc(sep, xs[1..], x);
    }
  }

  /** `s.split(c)` for a one-character separator: the pieces between separators, empty ones
      included, so a text without the separator is one piece. */
  function SplitAt(c: char, s: string): (ps: seq<string>)
    ensures |ps| >= 1
    decreases |s|
  {
    if s == [] then [[]]
    else
      var rest := SplitAt(c, s[1..]);
      if s[0] == c then [[]] + rest else [[s[0]] + rest[0]] + rest[1..]
  }

  /** A text without the separator splits into itself, and a separator after such a text
      closes the first piece. */
  lemma {:induction false} SplitAtPiece(c: char, a: string, b: string)
    requires c !in a
    ensures SplitAt(c, a) == [a]
    ensures SplitAt(c, a + [c] + b) == [a] + SplitAt(c, b)
    decreases |a|
  {
    if a == [] {
      assert a + [c] + b == [c] + b;
      assert ([c] + b)[1..] == b;
    } else {
      SplitAtPiece(c, a[1..], b);
      assert (a + [c] + b)[0] == a[0];
      assert (a + [c] + b)[1..] == a[1..] + [c] + b;
      assert [a[0]] + a[1..] == a;
    }
  }

  /** Splitting at the separator undoes joining with it, when no piece holds the separator. */
  lemma {:induction false} SplitAtJoin(c: char, xs: seq<string>)
    requires xs != []
    requires forall k :: 0 <= k < |xs| ==> c !in xs[k]
    ensures SplitAt(c, Join([c], xs)) == xs
    decreases |xs|
  {
    SplitAtPiece(c, xs[0], []);
    if |xs| > 1 {
      SplitAtJoin(c, xs[1..]);
      SplitAtPiece(c, xs[0], Join([c], xs[1..]));
      assert [xs[0]] + xs[1..] == xs;
    }
  }

  /** Every piece, stripped. */
  function Strips(pieces: seq<string>): (r: seq<string>)
    ensures |r| == |pieces|
    ensures forall k :: 0 <= k < |pieces| ==> r[k] == Strip(pieces[k])
  {
    seq(|pieces|, k requires 0 <= k < |pieces| => Strip(pieces[k]))
  }

  /** Putting the string at position `k` in front of strings taken at positions `ix` is
      taking the strings at positions `[k] + ix`. */
  lemma ConsAtPositions(xs: seq<string>, k: nat, rest: seq<string>, ix: seq<nat>)
    requires k < |xs| && |rest| == |ix|
    requires forall m :: 0 <= m < |ix| ==> ix[m] < |xs| && rest[m] == xs[ix[m]]
    ensures forall m :: 0 <= m < |ix| + 1 ==> ([xs[k]] + rest)[m] == xs[([k] + ix)[m]]
  {
    forall m | 0 < m < |ix| + 1 ensures ([xs[k]] + rest)[m] == xs[([k] + ix)[m]] {
      assert ([k] + ix)[m] == ix[m - 1];
    }
  }

  /** Text put in front of the first element is put in front of the join. */
  lemma JoinPrefixFirst(sep: string, p: string, x: string, ys: seq<string>)
    ensures Join(sep, [p + x] + ys) == p + Join(sep, [x] + ys)
  {
    if ys != [] {
      JoinCons(sep, p + x, ys);
      JoinCons(sep, x, ys);
    }
  }

  /** The longest prefix of `s` that holds no whitespace. */
  function TakeWord(s: string): (w: string)
    ensures |w| <= |s| && w == s[..|w|]
    ensures forall i :: 0 <= i < |w| ==> !IsSpace(s[i])
    ensures |w| < |s| ==> IsSpace(s[|w|])
  {
    if |s| > 0 && !IsSpace(s[0]) then [s[0]] + TakeWord(s[1..]) else []
  }

  /** Python's `str.split()` with no argument: the maximal runs of non-whitespace, in order. */
  function SplitWords(s: string): (ws: seq<string>)
    ensures forall k :: 0 <= k < |ws| ==> IsWord(ws[k])
    decreases |s|
  {
    var t := StripLeft(s);
    if t == [] then []
    else
      var w := TakeWord(t);
      assert w != [];
      var rest := SplitWords(t[|w|..]);
      WordsCons(w, rest);
      [w] + rest
  }

  lemma WordsCons(w: string, rest: seq<string>)
    requires IsWord(w) && forall k :: 0 <= k < |rest| ==> IsWord(rest[k])
    ensures forall k :: 0 <= k < |[w] + rest| ==> IsWord(([w] + rest)[k])
  {
  }

  /** Splitting the space-joined words gives the words back. */
  lemma {:induction false} SplitJoin(ws: seq<string>)
    requires forall k :: 0 <= k < |ws| ==> IsWord(ws[k])
    ensures SplitWords(Join(" ", ws)) == ws
  {
    if |ws| == 0 {
      SplitNothing();
    } else if |ws| == 1 {
      SplitJoinOne(ws);
    } else {
      SplitJoin(ws[1..]);
      SplitJoinCons(ws);
    }
  }

  lemma SplitNothing()
    ensures SplitWords(Join(" ", [])) == []
  {
    SplitEmpty([]);
  }

  lemma SplitEmpty(s: string)
    requires s == []
    ensures SplitWords(s) == []
  {
    assert StripLeft(s) == [];
  }

  lemma SplitJoinOne(ws: seq<string>)
    requires |ws| == 1 && IsWord(ws[0])
    ensures SplitWords(Join(" ", ws)) == ws
  {
    SplitOneWord(ws[0]);
  }

  /** A single word splits to itself. */
  lemma SplitOneWord(w: string)
    requires IsWord(w)
    ensures SplitWords(w) == [w]
  {
    SplitSingleWord(w, []);
    SplitEmpty([]);
    assert w + [] == w;
  }

  lemma SplitJoinCons(ws: seq<string>)
    requires |ws| >= 2 && IsWord(ws[0])
    requires SplitWords(Join(" ", ws[1..])) == ws[1..]
    ensures SplitWords(Join(" ", ws)) == ws
  {
    var rest := Join(" ", ws[1..]);
    var tail := " " + rest;
    assert Join(" ", ws) == ws[0] + tail;
    SplitSingleWord(ws[0], tail);
    SplitLeadingSpace(rest);
    assert SplitWords(ws[0] + tail) == [ws[0]] + ws[1..];
    assert [ws[0]] + ws[1..] == ws;
  }

  lemma SplitLeadingSpace(s: string)
    ensures SplitWords(" " + s) == SplitWords(s)
  {
    assert (" " + s)[1..] == s;
    assert StripLeft(" " + s) == StripLeft(s);
  }

  /** A word followed by nothing or by whitespace is split off first. */
  lemma SplitSingleWord(w: string, tail: string)
    requires IsWord(w)
    requires tail == [] || IsSpace(tail[0])
    ensures SplitWords(w + tail) == [w] + SplitWords(tail)
  {
    StripLeftNoop(w + tail);
    TakeWordOf(w, tail);
    assert (w + tail)[|w|..] == tail;
  }

  lemma {:induction false} TakeWordOf(w: string, tail: string)
    requires forall i :: 0 <= i < |w| ==> !IsSpace(w[i])
    requires tail == [] || IsSpace(tail[0])
    ensures TakeWord(w + tail) == w
  {
    if w == [] {
    } else {
      assert (w + tail)[1..] == w[1..] + tail;
      TakeWordOf(w[1..], tail);
    }
  }

  /** A leading whitespace character does not change the words. */
  lemma SplitLeadingSpaceChar(c: char, s: string)
    requires IsSpace(c)
    ensures SplitWords([c] + s) == SplitWords(s)
  {
    assert ([c] + s)[1..] == s;
    assert StripLeft([c] + s) == StripLeft(s);
  }

  /** Whitespace alone has no words. */
  lemma AllSpaceSplit(s: string)
    requires forall i :: 0 <= i < |s| ==> IsSpace(s[i])
    ensures SplitWords(s) == []
  {
    assert StripLeft(s) == [];
  }

  /** Splitting after `str.lstrip()` gives the same words. */
  lemma SplitStripLeft(s: string)
    ensures SplitWords(StripLeft(s)) == SplitWords(s)
  {
    StripLeftNoop(StripLeft(s));
  }

  /** A non-space character put in front either is a word of its own or starts the first
      word. */
  lemma SplitConsChar(c: char, x: string)
    requires !IsSpace(c)
    ensures x == [] || IsSpace(x[0]) ==> SplitWords([c] + x) == [[c]] + SplitWords(x)
    ensures x != [] && !IsSpace(x[0]) ==>
      SplitWords(x) != [] && SplitWords([c] + x) == [[c] + SplitWords(x)[0]] + SplitWords(x)[1..]
  {
    var y := [c] + x;
    StripLeftNoop(y);
    assert y[1..] == x;
    if x == [] || IsSpace(x[0]) {
      TakeWordOf([c], x);
      assert y[|[c]|..] == x;
    } else {
      StripLeftNoop(x);
      var w := TakeWord(x);
      assert TakeWord(y) == [c] + w;
      assert y[|[c] + w|..] == x[|w|..];
    }
  }

  /** Trailing whitespace does not change the words. */
  lemma {:induction false} SplitAppendSpaces(a: string, b: string)
    requires forall i :: 0 <= i < |b| ==> IsSpace(b[i])
    ensures SplitWords(a + b) == SplitWords(a)
    decreases |a|
  {
    if a == [] {
      assert a + b == b;
      AllSpaceSplit(b);
      AllSpaceSplit(a);
    } else {
      var x := a[1..];
      assert a == [a[0]] + x;
      assert a + b == [a[0]] + (x + b);
      SplitAppendSpaces(x, b);
      if IsSpace(a[0]) {
        SplitLeadingSpaceChar(a[0], x + b);
        SplitLeadingSpaceChar(a[0], x);
      } else {
        SplitConsChar(a[0], x + b);
        SplitConsChar(a[0], x);
        if x == [] {
          assert x + b == b;
        } else {
          assert (x + b)[0] == x[0];
        }
      }
    }
  }

  /** `str.strip()` keeps the words. */
  lemma SplitStrip(s: string)
    ensures SplitWords(Strip(s)) == SplitWords(s)
  {
    SplitStripRight(StripLeft(s));
    SplitStripLeft(s);
  }

  /** Splitting after `str.rstrip()` gives the same words. */
  lemma SplitStripRight(l: string)
    ensures SplitWords(StripRight(l)) == SplitWords(l)
  {
    var r := StripRight(l);
    var tail := l[|r|..];
    forall i | 0 <= i < |tail| ensures IsSpace(tail[i]) {
      assert tail[i] == l[|r| + i];
    }
    assert l == r + tail;
    SplitAppendSpaces(r, tail);
  }
}

=== FILE: wrappers.dfy ===
/** Optional values: Python's `None` and the failure of an abstracted library call. */
module Wrappers {

  datatype Option<+T> = None | Some(value: T) {

    /** Returns the value, or `default` when there is none (Python's `x or default`). */
    function GetOr(default: T): T {
      match this
      case Some(v) => v
      case None => default
    }
  }

  function Min(a: int, b: int): int {
    if a <= b then a else b
  }

  function Max(a: int, b: int): int {
    if a >= b then a else b
  }
}
